=== FILE: README.md ===
# lumen core data structures, allocators and bit utilities in Dafny

This project models the sequential behaviour of the low-level core of the
lumen engine. It covers five parts:

- **LockFreeQueue** (`lfq.dfy`). This is the bounded ring queue of `containers/cont_lfq.h`.
  - Head and tail are 64-bit words. Each packs a 32-bit slot index and a 32-bit version.
  - The buffer is an `array`.
  - Each compare-and-swap retry loop is one step that succeeds at once.
  - The ghost field `Contents` holds the queued items, oldest first. `Valid()` ties it to the buffer slots between the head and tail indices.
- **JobDeque** (`job_queue.dfy`). This is the per-worker deque of `threads/job_queue.c`.
  - It has 1024 slots, with `top` and `bottom` counters.
  - The owner pushes and pops at the bottom; thieves steal from the top.
- **PoolAllocator**, **StackAllocator**, **FrameAllocator** (`mem_pool.dfy`, `mem_stack.dfy`, `mem_frame.dfy`).
  - Each allocator is a class whose fields are the source's struct fields.
  - Pointers are byte offsets into the allocator's buffer.
  - The pool keeps a free-list stack and a used-slot bitmap. The ghost set `Live` holds the slots handed out.
- **HashIndex**, **HashTable** (`hash_index.dfy`, `hash_table.dfy`). This is the open-addressing map of `containers/cont_hm.h` and `containers/cont_hm.c`.
  - Keys and values are byte strings, and the hash function is a parameter.
  - `HashIndex` defines when a slot array represents a dictionary under linear probing (`Indexed`). It also defines the rehash of `lum_hm_resize` as a function.
  - `HashTable.HashMap` is a class over an `array` of entries. Its ghost field `Contents` is the dictionary.
  - `HashTableWitnesses` (`hash_witnesses.dfy`) states concrete scenarios whose outcomes are proved.
- **BitOps**, **Bits**, **BitPatterns** (`bit_ops.dfy`, `bits.dfy`). These are the helpers of `math/math_bits.h`.
  - C's unsigned integers are naturals below 2^32 or 2^64, with wrap-around written out as `%`.
  - `&`, `|`, `^` and `~` are defined recursively on naturals.
  - Popcount and bit reversal work on `bv32`.

## Where the source does not do what it says

Where the source's own promise differs from the code, the model keeps two versions:

- An `...AsWritten` member models the code as written.
- The corrected member is proved to keep the promise. The rest of the model uses the corrected one.

The "## Findings" table lists the discrepancies, each with a concrete input whose outcome is proved.

The queue test at `tests/containers/test_cont_lfq.c:66-75` expects `TEST_CAPACITY` items to fit. The code keeps one slot free, so a queue of capacity c holds c - 1 items. The model follows the code, and `LockFreeQueue.CapacityWitness` shows a capacity-4 queue refusing its fourth item.

## Model

| member | source | states |
|---|---|---|
| Bits.AlignUp | src/core/math/math_bits.h:8-11 | The result fits in 64 bits. For a power-of-two alignment whose addition does not overflow, it is a multiple of the alignment, at least the value, and below value + alignment |
| Bits.AlignUpIsLeast | src/core/math/math_bits.h:8-11 | Without overflow, align-up is the least multiple of the alignment at or above the value |
| Bits.AlignUpOfAligned | src/core/math/math_bits.h:8-11 | An already aligned value is returned unchanged |
| Bits.AlignUpWraps | src/core/math/math_bits.h:8-11 | When value + alignment - 1 overflows, the result is below the value and no aligned value at or above it fits in 64 bits |
| Bits.IsPowerOfTwo | src/core/math/math_bits.h:13-16 | True exactly for 0 and the powers of two |
| Bits.AndPredecessor | src/core/math/math_bits.h:15 | For x >= 1, `x & (x - 1)` is 0 exactly when x is a power of two |
| Bits.Clz32 | src/core/math/math_bits.h:21 | The leading-zero count r of a non-zero 32-bit x satisfies 2^(31-r) <= x < 2^(32-r) |
| Bits.Log2Ceil | src/core/math/math_bits.h:19-22 | For x >= 2, 2^(r-1) < x <= 2^r. For x = 0 the wrapped subtraction gives 32 |
| Bits.Log2Floor | src/core/math/math_bits.h:24-27 | For 0 < x < 2^32, 2^r <= x < 2^(r+1) |
| Bits.Min | src/core/math/math_bits.h:30-33 | The branchless minimum of two 32-bit ints is one of them and no larger than either |
| Bits.Max | src/core/math/math_bits.h:35-38 | The branchless maximum is one of them and no smaller than either |
| Bits.MinMaxFacts | src/core/math/math_bits.h:30-38 | The XOR-and-mask patterns, read back as two's-complement ints, are the ordinary min and max |
| Bits.IsEven | src/core/math/math_bits.h:74-77 | `!(x & 1)` holds exactly for even x, negative ones included |
| Bits.IsOdd | src/core/math/math_bits.h:80-83 | `x & 1` on a two's-complement int is x mod 2, so it is 1 for every odd x |
| Bits.MaskIsMod | src/core/containers/cont_lfq.h:125 | Masking with m - 1 for a power of two m is reduction modulo m |
| Bits.NextPowerOfTwo | src/core/math/math_bits.h:97-102 | 0 gives 1. For 2 <= x <= 2^31 the result is a power of two at least x and no larger than any other such power |
| Bits.ShiftedCeiling | src/core/math/math_bits.h:101 | `1U << log2_ceil(x)` stays within 32 bits and is the least power of two at or above x |
| BitPatterns.ReverseBits | src/core/math/math_bits.h:86-94 | Bit i of the result is bit 31 - i of the argument |
| BitPatterns.ReverseBitsInvolution | src/core/math/math_bits.h:86-94 | Reversing twice gives back the argument |
| BitPatterns.PopcountCounts | src/core/math/math_bits.h:67-69 | The portable popcount fallback equals the number of set bits |
| BitPatterns.PopcountStages | src/core/math/math_bits.h:67-69 | The first two lines and the masking leave per-byte bit counts, which the multiply and shift add up |
| LockFreeQueue.IndexOf | src/core/containers/cont_lfq.h:121 | The index field is below 2^32 and is the whole word when the word is below 2^32 |
| LockFreeQueue.VersionOf | src/core/containers/cont_lfq.h:122 | The version field is below 2^32 |
| LockFreeQueue.Pack | src/core/containers/cont_lfq.h:134 | The packed word fits in 64 bits, and its fields read back as the index and the version (the version wrapping from 2^32 to 0) |
| LockFreeQueue.WordFields | src/core/containers/cont_lfq.h:101 | Two words with equal index and version fields are equal, so the whole-word comparison of the empty check is a field comparison |
| LockFreeQueue.MaskedSuccessor | src/core/containers/cont_lfq.h:109 | `(tail + 1) & (capacity - 1)` on the 64-bit word is the successor of the tail index, wrapped at the capacity |
| LockFreeQueue.AdvanceTail | src/core/containers/cont_lfq.h:121-134 | The slot written is the tail index. The next index is its successor modulo the capacity. The new word carries the next index and the version plus one |
| LockFreeQueue.AdvanceHead | src/core/containers/cont_lfq.h:157-171 | The slot read is the head index. The new word carries its successor modulo the capacity and the version plus one |
| LockFreeQueue.FullLayout | src/core/containers/cont_lfq.h:124-128 | The slot after the tail index is the head index exactly when capacity - 1 items are queued |
| LockFreeQueue.EnqueueLayout | src/core/containers/cont_lfq.h:124-140 | When not full, writing the tail slot and advancing the tail word appends the item and keeps the other slots |
| LockFreeQueue.DequeueLayout | src/core/containers/cont_lfq.h:160-173 | Equal indices mean an empty queue. Otherwise the head slot holds the oldest item, and advancing the head word drops it |
| LockFreeQueue.Queue.constructor | src/core/containers/cont_lfq.h:39-46 | A fresh buffer of the given capacity, head and tail words 0, no items |
| LockFreeQueue.Queue.IsEmpty | src/core/containers/cont_lfq.h:97-102 | On a valid queue, the whole-word comparison is true exactly when no item is queued |
| LockFreeQueue.Queue.NextTailIndex | src/core/containers/cont_lfq.h:109 | The masked successor of the tail word is the next slot round the ring |
| LockFreeQueue.Queue.IsFullAsWritten | src/core/containers/cont_lfq.h:105-110 | Full as written: the next tail index equals the whole head word, version included |
| LockFreeQueue.Queue.IsFull | src/core/containers/cont_lfq.h:105-110 | Comparing index with index, full exactly when capacity - 1 items are queued |
| LockFreeQueue.Queue.Enqueue | src/core/containers/cont_lfq.h:114-143 | Refused, with nothing changed, exactly when capacity - 1 items are queued. Otherwise the item is appended, the head stays, and the queue stays valid |
| LockFreeQueue.Queue.EnqueueAsWritten | src/core/containers/cont_lfq.h:114-143 | Refused exactly when the next tail index equals the whole head word. Otherwise the old tail slot is written, only that slot changes, and the tail moves one index on with the version plus one |
| LockFreeQueue.Queue.Dequeue | src/core/containers/cont_lfq.h:146-176 | An empty queue gives null and nothing changes. Otherwise the oldest item is returned and removed, and the queue stays valid |
| LockFreeQueue.Queue.DequeueAsWritten | src/core/containers/cont_lfq.h:146-176 | Null, with nothing changed, exactly when the head index equals the whole tail word. Otherwise the head slot is returned and the head moves one index on with the version plus one |
| LockFreeQueue.InitCapacity | src/core/containers/cont_lfq.h:33-37 | Fails exactly for requests below 2. A power of two is kept; any other request becomes the least power of two above it |
| LockFreeQueue.RoundedCapacity | src/core/containers/cont_lfq.h:33-34 | `1 << log2_ceil(c)` for a non-power of two is the least power of two above c, and it stays within range |
| LockFreeQueue.Init | src/core/containers/cont_lfq.h:28-48 | Fails exactly when the capacity is rejected or the buffer is not allocated. Otherwise the result is an empty valid queue of the settled capacity, with head and tail words 0 |
| LockFreeQueue.FreshQueueWitness | src/core/containers/cont_lfq.h:97-110 | A freshly initialised queue is empty and not full, by either full check |
| LockFreeQueue.FifoWitness | tests/containers/test_cont_lfq.c:35-49 | Two enqueued items come out in order, then the queue gives null and reports empty |
| LockFreeQueue.CapacityWitness | tests/containers/test_cont_lfq.c:66-75 | A capacity-4 queue accepts three items, then reports full and refuses the fourth |
| LockFreeQueue.DrainedDequeueWitness | src/core/containers/cont_lfq.h:160-161 | As written, after one item has passed through, the queue reports empty yet dequeue still returns an item |
| LockFreeQueue.OverwriteWitness | src/core/containers/cont_lfq.h:124-128 | As written, a capacity-2 queue whose head version is 1 never reports full, and an unread item is overwritten |
| JobDeque.JobQueue.constructor | src/core/threads/job_queue.h:19-23 | A 1024-slot deque with both counters 0 and no jobs |
| JobDeque.JobQueue.PushJob | src/core/threads/job_queue.c:9-21 | With 1024 jobs queued the job is dropped and nothing changes. Otherwise it becomes the newest job and bottom grows by one. Valid is kept: 0 <= bottom - top <= 1024, slots hold the jobs |
| JobDeque.JobQueue.PopJob | src/core/threads/job_queue.c:33-49 | On a non-empty deque the newest job is removed and returned, and bottom drops by one. On an empty one the result is null and the counters are unchanged |
| JobDeque.JobQueue.StealJob | src/core/threads/job_queue.c:61-73 | On a non-empty deque the oldest job is removed and returned, and top grows by one. On an empty one the result is null and nothing changes |
| JobDeque.EndsWitness | src/core/threads/job_queue.c:33-73 | After pushing 1, 2, 3: a steal gives 1, pops give 3 then 2, and a third pop gives null |
| PoolAllocator.BitmapSize | src/core/memory/allocators/mem_pool.c:94-98 | At least one byte, with a bit for every object and no spare byte |
| PoolAllocator.Mark | src/core/memory/allocators/mem_pool.c:33 | Setting a slot's bit keeps the bitmap length |
| PoolAllocator.MarkFacts | src/core/memory/allocators/mem_pool.c:33 | After the OR, exactly that slot's bit is newly set, and the bytes stay bytes |
| PoolAllocator.UnmarkFacts | src/core/memory/allocators/mem_pool.c:57 | After the AND-NOT, exactly that slot's bit is cleared, and the bytes stay bytes |
| PoolAllocator.TestMask | src/core/memory/allocators/mem_pool.c:52 | The masked byte is non-zero exactly when the slot's bit is set |
| PoolAllocator.Pool.constructor | src/core/memory/allocators/mem_pool.c:78-128 | The object size is rounded up to a multiple of 16, the bitmap is zeroed, free-list entry i is i * object size, the free index is 0, and nothing is live |
| PoolAllocator.Pool.Alloc | src/core/memory/allocators/mem_pool.c:14-37 | Null exactly when every slot is handed out. Otherwise it returns the top free entry, a 16-aligned start of a slot that was not handed out, and marks that slot's bit |
| PoolAllocator.Pool.AllocAsWritten | src/core/memory/allocators/mem_pool.c:25-36 | Null exactly when the free index reaches the count. Otherwise it returns the top free entry and sets the bit at position free index, not the bit of the returned slot |
| PoolAllocator.Pool.Free | src/core/memory/allocators/mem_pool.c:40-59 | Ignored when nothing is handed out or the slot's bit is clear. Otherwise the bit is cleared and the pointer pushed back at the new free index. On a valid pool it is accepted exactly for a live slot |
| PoolAllocator.Pool.Release | src/core/memory/allocators/mem_pool.c:56-58 | Clears only the slot's bit, pushes the pointer, and keeps the pool valid |
| PoolAllocator.Pool.ClearSlotBit | src/core/memory/allocators/mem_pool.c:57 | The bitmap after the statement is the old one with the slot's bit cleared |
| PoolAllocator.Pool.PushSlot | src/core/memory/allocators/mem_pool.c:58 | The free index drops by one and that entry becomes the pointer |
| PoolAllocator.UnmarkMatches | src/core/memory/allocators/mem_pool.c:57 | Clearing a live slot's bit keeps the bitmap matching the live set without that slot |
| PoolAllocator.SlotPointers | src/core/memory/allocators/mem_pool.c:126-128 | Entry i of the new free list is i times the object size |
| PoolAllocator.PoolObjectSize | src/core/memory/allocators/mem_pool.c:78 | The rounded size is a multiple of 16, at least the request and less than 16 above it; an aligned request is kept |
| PoolAllocator.Create | src/core/memory/allocators/mem_pool.c:62-135 | Null exactly when an allocation fails. Otherwise a valid pool with every slot free, the object size rounded up to 16, and free-list entry i at i times the object size |
| PoolAllocator.AllocateAll | tests/memory/test_alloc_pool.c:31-42 | Allocating every slot of a new pool gives pairwise distinct, 16-aligned pointers |
| PoolAllocator.ReuseWitness | tests/memory/test_alloc_pool.c:56-60 | A freed pointer is the next one handed out (LIFO reuse) |
| PoolAllocator.DoubleFreeWitness | src/core/memory/allocators/mem_pool.c:51-54 | A second free of the same pointer is ignored, so the slot is handed out once |
| PoolAllocator.LostFreeWitness | src/core/memory/allocators/mem_pool.c:32-33 | As written, after an out-of-order free, a valid free is refused and the pool reports exhaustion |
| StackAllocator.Stack.constructor | src/core/memory/allocators/mem_stack.c:73-75 | Size as given, both offsets 0 |
| StackAllocator.Stack.AllocAsWritten | src/core/memory/allocators/mem_stack.c:11-27 | The aligned offset plus the size, wrapped in size_t, decides. Null leaves both offsets. Otherwise the old offset becomes the checkpoint and the wrapped sum the new offset |
| StackAllocator.Stack.Alloc | src/core/memory/allocators/mem_stack.c:11-27 | Null, with nothing changed, exactly when the aligned offset plus the size exceeds the buffer. Otherwise it returns the least aligned offset, checkpoints the old offset, and ends at pointer + size |
| StackAllocator.Stack.Pop | src/core/memory/allocators/mem_stack.c:30-38 | A pointer inside the buffer restores the checkpoint; any other pointer changes nothing |
| StackAllocator.Stack.Reset | src/core/memory/allocators/mem_stack.c:41-46 | Both offsets become 0 |
| StackAllocator.Create | src/core/memory/allocators/mem_stack.c:49-82 | Null exactly when an allocation fails. Otherwise an empty stack of the given size |
| StackAllocator.TwoAllocs | tests/memory/test_alloc_stack.c:17-24 | Two granted allocations are aligned, inside the buffer and do not overlap |
| StackAllocator.ResetRestarts | tests/memory/test_alloc_stack.c:36-45 | After a reset, a request that fits is placed at 0 again |
| StackAllocator.PopThenRealloc | tests/memory/test_alloc_stack.c:72-79 | Popping the last allocation and repeating the request returns the same pointer |
| StackAllocator.AllocFromAligned | src/core/memory/allocators/mem_stack.c:16-17 | From an aligned offset, the request is placed at the offset itself |
| StackAllocator.OverflowWitness | src/core/memory/allocators/mem_stack.c:16-19 | As written, a request of 2^64 - 64 bytes is granted and the next request overlaps a live allocation |
| StackAllocator.OverflowRefusedWitness | src/core/memory/allocators/mem_stack.c:16-22 | The checked allocation refuses that request and places the next after the first |
| FrameAllocator.Frame.constructor | src/core/memory/allocators/mem_frame.c:53-54 | Size as given, offset 0 |
| FrameAllocator.Frame.AllocAsWritten | src/core/memory/allocators/mem_frame.c:10-20 | The aligned offset plus the size, wrapped in size_t, decides. Null leaves the offset. Otherwise the wrapped sum becomes the offset |
| FrameAllocator.Frame.Alloc | src/core/memory/allocators/mem_frame.c:10-20 | Null, with nothing changed, exactly when the aligned offset plus the size exceeds the buffer. Otherwise it returns the least aligned offset and ends at pointer + size; offset <= size is kept |
| FrameAllocator.Frame.Reset | src/core/memory/allocators/mem_frame.c:23-26 | The offset becomes 0 |
| FrameAllocator.Frame.Free | src/core/memory/allocators/mem_frame.c:29-31 | Nothing changes |
| FrameAllocator.Realloc | src/core/memory/allocators/mem_frame.c:34-37 | Always null |
| FrameAllocator.AllocThenReset | src/core/memory/allocators/mem_frame.c:10-26 | Granted requests are aligned, inside the buffer and in order; after a reset a request that fits starts at 0 |
| FrameAllocator.ResetWitness | tests/memory/test_alloc_frame.c:13-22 | In 1 KiB, 128 and 256 bytes land at 0 and 128; after a reset 512 bytes land at 0 |
| FrameAllocator.ExhaustionWitness | tests/memory/test_alloc_frame.c:31-38 | In 512 bytes, 400 bytes are granted and then 200 refused |
| FrameAllocator.AlignmentWitness | tests/memory/test_alloc_frame.c:50-55 | 128-byte requests at alignments 16, 32, 64 land at 0, 128, 256 |
| FrameAllocator.AllocFromAligned | src/core/memory/allocators/mem_frame.c:12-18 | From an aligned offset, the request is placed at the offset itself |
| FrameAllocator.OverflowWitness | src/core/memory/allocators/mem_frame.c:12-14 | As written, a request of 2^64 - 64 bytes is granted and the next one overlaps the first |
| FrameAllocator.OverflowRefusedWitness | src/core/memory/allocators/mem_frame.c:12-16 | The checked allocation refuses that request |
| HashIndex.Tombstone | src/core/containers/cont_hm.h:94-96 | A removed slot has status 2 and keeps its hash |
| HashIndex.LinearIsMod | src/core/containers/cont_hm.h:100 | The linear probe position is `(h + s) % capacity` |
| HashIndex.StepLinear | src/core/containers/cont_hm.h:100 | `index = (index + 1) % capacity` moves one probe step on |
| HashIndex.Missing | src/core/containers/cont_hm.h:89-101 | A linear probe that reaches an empty slot, or goes all the way round, without meeting the key proves the key absent |
| HashIndex.Present | src/core/containers/cont_hm.h:90-91 | An occupied slot holding the key gives its value in the dictionary |
| HashIndex.InsertKeeps | src/core/containers/cont_hm.h:51-58 | Storing a new key in a non-occupied slot on its probe path, with no empty slot before it, adds the key to the dictionary |
| HashIndex.OverwriteKeeps | src/core/containers/cont_hm.h:42-46 | Overwriting the value of the slot holding a key updates that key in the dictionary |
| HashIndex.RemoveKeeps | src/core/containers/cont_hm.h:89-98 | Turning the slot holding a key into a tombstone removes the key from the dictionary |
| HashIndex.LiveCount | src/core/containers/cont_hm.h:56-58 | Writing a slot changes the number of occupied slots by the change in that slot's status |
| HashIndex.Place | src/core/containers/cont_hm.c:41-44 | The probe distance of the first non-occupied slot, with every earlier slot occupied |
| HashIndex.PlaceFinds | src/core/containers/cont_hm.c:42-44 | With fewer occupied slots than slots, the rehash probe finds a free slot |
| HashIndex.RehashFrom | src/core/containers/cont_hm.c:39-47 | The rehash loop from entry i on: the table keeps its n slots. Its content is given by RehashMoves and RehashIndexed |
| HashIndex.Rehash | src/core/containers/cont_hm.c:34-47 | The rehash of lum_hm_resize into n empty slots has n slots. RehashKeepsLive and RehashIndexed give its content |
| HashIndex.RehashMoves | src/core/containers/cont_hm.c:39-47 | Rehashing entries i onwards adds exactly their occupied entries to those already in the new table |
| HashIndex.RehashKeepsLive | src/core/containers/cont_hm.c:39-47 | Into a larger table, every occupied entry is moved exactly once and tombstones are dropped |
| HashIndex.RehashIndexed | src/core/containers/cont_hm.c:39-47 | The rehash of a table representing a dictionary, into a larger one, represents the same dictionary |
| HashIndex.VacantIndexed | src/core/containers/cont_hm.c:21-23 | An all-empty table represents the empty dictionary |
| HashTable.QuadStop | src/core/containers/cont_hm.h:42-50 | The slot where the quadratic probe stops is one the walk does not pass; no stop means the probe is still passing slots |
| HashTable.LinearStop | src/core/containers/cont_hm.h:89-101 | The linear probe stops at the first empty slot or slot holding the key, every earlier step passing |
| HashTable.GrownCapacity | src/core/containers/cont_hm.h:59-62 | The capacity doubles in size_t exactly when the count exceeds three quarters of it, the doubled value is larger and the resize is granted; otherwise it stays |
| HashTable.EmptyEntries | src/core/containers/cont_hm.c:34-36 | A fresh array in which every slot has status 0 |
| HashTable.FreeSlot | src/core/containers/cont_hm.c:41-44 | The rehash probe stops at the first non-occupied slot from the home slot |
| HashTable.LinearProbe | src/core/containers/cont_hm.h:88-101 | The remove loop computes the linear stop, or reports the endless loop |
| HashTable.RehashInto | src/core/containers/cont_hm.c:31-47 | The rehash loops build exactly the rehash of the old table |
| HashTable.LookupFacts | src/core/containers/cont_hm.h:89-101 | Under linear probing the probe stops at an occupied slot exactly when the key is present, and that slot holds its value |
| HashTable.PlaceFacts | src/core/containers/cont_hm.h:51-58 | Inserting a missing key at the first non-occupied slot of its probe adds it to the dictionary |
| HashTable.HashMap.constructor | src/core/containers/cont_hm.c:12-23 | Every slot empty, count 0, empty dictionary |
| HashTable.HashMap.Resize | src/core/containers/cont_hm.c:27-51 | No change for a capacity that is not larger or a failed allocation. Otherwise a fresh array with the rehash and the new capacity. Count, occupied entries and dictionary are kept |
| HashTable.HashMap.GetAsWritten | src/core/containers/cont_hm.h:65-82 | Null arguments give false. Otherwise the quadratic probe decides: the value of the slot holding the key, false at an empty slot, or an endless loop |
| HashTable.HashMap.PutAsWritten | src/core/containers/cont_hm.h:36-63 | A null key changes nothing. Otherwise the quadratic probe decides. An occupied slot holding the key has its value overwritten. A non-occupied stop slot takes the new entry, the count grows, and the table doubles once over three quarters |
| HashTable.HashMap.StoreAt | src/core/containers/cont_hm.h:51-62 | The entry goes into the stop slot, the count grows by one, and the table grows by the load rule |
| HashTable.HashMap.MarkDeleted | src/core/containers/cont_hm.h:92-97 | The slot becomes a tombstone, the count drops, and the key leaves the dictionary |
| HashTable.HashMap.RemoveAsWritten | src/core/containers/cont_hm.h:84-102 | A null key changes nothing. Otherwise the linear probe decides: the slot holding the key becomes a tombstone, an empty stop changes nothing, or the loop is endless. On a valid map the key leaves the dictionary |
| HashTable.HashMap.Find | src/core/containers/cont_hm.h:89-101 | A slot is found exactly when the key is in the dictionary, and it holds the key's value |
| HashTable.HashMap.Get | src/core/containers/cont_hm.h:65-82 | The key's value exactly when key and output are non-null and the key is present; null otherwise |
| HashTable.HashMap.Remove | src/core/containers/cont_hm.h:84-102 | The key leaves the dictionary, and the count drops exactly when it was present |
| HashTable.HashMap.Overwrite | src/core/containers/cont_hm.h:43-45 | The slot's value changes and its key maps to the new value |
| HashTable.HashMap.InsertAt | src/core/containers/cont_hm.h:51-58 | A missing key is stored at its first free probe slot, the count grows and the dictionary gains the key |
| HashTable.HashMap.AddNew | src/core/containers/cont_hm.h:51-62 | A missing key is added, and the capacity follows the load rule |
| HashTable.HashMap.Put | src/core/containers/cont_hm.h:36-63 | Stored exactly when the key is non-null and either present or there is room. The dictionary maps the key to the value, and a new key grows the capacity by the load rule |
| HashTable.Create | src/core/containers/cont_hm.c:4-25 | Null exactly when allocation fails. Otherwise capacity 16 for a request of 0, the default hash when none is given, count 0, every slot empty and an empty dictionary |
| HashTableWitnesses.PutThree | tests/containers/test_cont_hm.c:23-25 | Three distinct keys put into 16 slots form the dictionary of the three |
| HashTableWitnesses.GetThree | tests/containers/test_cont_hm.c:29-31 | Get of each present key answers its value |
| HashTableWitnesses.OverwriteThenRemove | tests/containers/test_cont_hm.c:34-41 | After an overwrite get answers the new value; after a remove get answers nothing |
| HashTableWitnesses.BasicOps | tests/containers/test_cont_hm.c:23-41 | The test's whole sequence gives the expected answers |
| HashTableWitnesses.RemoveMissesWitness | src/core/containers/cont_hm.h:100 | As written, remove probes linearly, misses a key put by the quadratic probe, and get still finds it |
| HashTableWitnesses.ResizeLosesWitness | src/core/containers/cont_hm.c:41-44 | As written, after the linear rehash get's quadratic probe misses a key the table holds |
| HashTableWitnesses.StaleValueWitness | src/core/containers/cont_hm.h:42 | As written, put stops at a tombstone and stores a second copy of a key; after its removal get answers the stale value |
| HashTableWitnesses.NoEmptySlotWitness | src/core/containers/cont_hm.h:89 | As written, with no empty slot left, remove of a missing key loops for ever |

## Left out

- JobDeque.JobQueue.PushJob: `top` and `bottom` are unbounded integers. In the source they are 32-bit `atomic_int`s, and `bottom + 1` or `top + 1` overflows, which is undefined behaviour, after 2^31 pushes or steals. The model does not capture that overflow. StealJob makes the same assumption.
- Concurrency. The compare-and-swap retry loops of the queue and the atomics and fences of the deque are single sequential steps. Interleavings, ABA and memory ordering are not modelled.
- `lum_lfq_free`, `lum_pool_allocator_destroy`, `lum_destroy_stack_allocator`, `lum_destroy_frame_allocator` and `lum_hm_free`. They only return memory through the foreign `free`.
- The allocator function-pointer swapping at creation. Each allocator is a class with its own methods instead.
- Null queue, allocator, pool, stack or map arguments. The model has no null receivers. The null key and the null output of the map are modelled as `None` and `false`.
- Allocation failures inside the creators are one `granted` or `bufferAllocated` parameter. Failures of the key and value copies in put are not modelled.
- The hash function is a parameter; murmur, in math/math_hash.c, is not part of this model.
- Key comparison is byte-string equality. The `memcmp` over `key_size` bytes of a stored key of the same size is the same test.
- `lum_popcount`'s `__builtin_popcount` branch is not modelled; the portable fallback is, and it is proved to count bits.
- `lum_msb` and `lum_lsb` are not modelled.
- Pointer alignment of the buffers themselves. Allocator pointers are offsets from a buffer start taken as aligned.
- The frame allocator's creator does not check its allocations. The model starts from its constructor.
- HashTable.HashMap.PutAsWritten: a fresh slot is modelled as empty with no key, value or hash. The source leaves those fields uninitialised but never reads them before setting status 1.
- HashTable.HashMap.PutAsWritten: `count > capacity * 0.75` in floating point is modelled as `4 * count > 3 * capacity`. The two agree when 3 * capacity is below 2^53, so for every capacity below 2^51. Above that the rounded double product can differ: for capacity 2^52 + 1 and count 3 * 2^50 + 1, the source does not resize but the model does.
- HashTable.QuadStop: the quadratic step `i * i` is not wrapped at 2^64. It could wrap only after more than 2^32 steps.
- HashTable.HashMap.GetAsWritten: a probe that has not stopped after capacity² steps is reported as `spins` with nothing changed, instead of looping for ever. PutAsWritten and RemoveAsWritten do the same. For the quadratic walk, capacity² steps are enough. Its state is the pair (index, i mod capacity), so a walk still passing after that many steps has repeated a state and never stops. This argument is not proved in the model.
- HashTable.HashMap.Overwrite: every value stored or read under a key is taken to have the caller's `value_size`, and a value is a whole byte string. The source copies `value_size` bytes into the existing value buffer and out of it, so a shorter new value would keep the old tail and a longer one would overrun the buffer. Put, PutAsWritten, Get and GetAsWritten make the same assumption.
- HashTable.HashMap.PutAsWritten: `count` is unbounded. It stays at most the capacity because count is the number of occupied slots.
- PoolAllocator.Pool.Free: the pointer must be the start of one of the pool's slots. The source accepts any pointer. A pointer inside a slot clears that slot's bit but pushes the unaligned pointer itself, which a later alloc hands out. A pointer whose index is at or past the object count tests bits no slot owns, or bytes past the end of the bitmap. The model does not capture these misuses.
- PoolAllocator.Pool.constructor: object sizes that round to 0 are excluded, and so are they in PoolAllocator.Create and PoolAllocator.PoolObjectSize. These are a request of 0, which `lum_align_up(0, 16)` keeps at 0, and a request within 15 of 2^64, which wraps to 0. The source accepts them at mem_pool.c:78. Every free-list entry is then the buffer start, and every alloc returns that same pointer. The first free divides by the object size 0 at mem_pool.c:49, which is undefined. The model requires an object size of at least 1 that does not wrap.
- StackAllocator.Stack.Alloc: the checked allocation is specified only for power-of-two alignments, and so is FrameAllocator.Frame.Alloc. The as-written versions accept any alignment, as the source does, and every call in the repository passes 16, 32 or 64.
- Bits.Log2Ceil: x = 1 is excluded, because it reaches `__builtin_clz(0)`, which is undefined.
- Bits.NextPowerOfTwo: x = 1 and x > 2^31 are excluded, because they reach `clz(0)` or a shift by 32.
- LockFreeQueue.InitCapacity: requests above 2^30 that are not powers of two are excluded, because `1 << 31` overflows `int`. Requests above 2^32 are excluded. The source keeps such a request when it is a power of two, but the slot index in the packed head and tail words has only 32 bits, so those slots cannot be addressed. Any other request above 2^32 would also be cut to 32 bits by the `uint32_t` parameter of `lum_log2_ceil`.

## Findings

| source | as written | input that shows it | evidently intended | confidence | as-written member | corrected member |
|---|---|---|---|---|---|---|
| src/core/containers/cont_lfq.h:124-128 | enqueue compares the next tail index with the whole packed head word | capacity 2: enqueue 1, dequeue, enqueue 2 (head version now 1), then enqueue 3 and 4 are both accepted and 2 is overwritten | compare the next tail index with the head index | not executed | LockFreeQueue.OverwriteWitness | LockFreeQueue.Queue.Enqueue |
| src/core/containers/cont_lfq.h:109 | lum_lfq_full compares the next tail index with the whole packed head word | the same queue after enqueue 2 holds capacity - 1 items but is not reported full | compare with the head index | not executed | LockFreeQueue.Queue.IsFullAsWritten | LockFreeQueue.Queue.IsFull |
| src/core/containers/cont_lfq.h:160-161 | dequeue compares the head index with the whole packed tail word | capacity 4: enqueue 7, dequeue; the queue reports empty, yet a further dequeue returns a slot | compare the head index with the tail index | not executed | LockFreeQueue.DrainedDequeueWitness | LockFreeQueue.Queue.Dequeue |
| src/core/memory/allocators/mem_pool.c:32-33 | alloc sets the bitmap bit at position free_index, not the bit of the slot it hands out | two 16-byte slots: alloc 0, alloc 16, free 0, alloc (0 again, bit 1 set), free 0 is refused, alloc gives null | set the bit of the returned slot | not executed | PoolAllocator.LostFreeWitness | PoolAllocator.Pool.Alloc |
| src/core/memory/allocators/mem_stack.c:16-19 | aligned_offset + size wraps in size_t before the bound check | 1 KiB stack: 128 bytes at 0, then 2^64 - 64 bytes granted at 128, then 64 bytes at 64, inside the first block | refuse a request whose end exceeds the buffer | not executed | StackAllocator.OverflowWitness | StackAllocator.Stack.Alloc |
| src/core/memory/allocators/mem_frame.c:12-14 | aligned_offset + size wraps in size_t before the bound check | 1 KiB frame: the same three requests | refuse a request whose end exceeds the buffer | not executed | FrameAllocator.OverflowWitness | FrameAllocator.Frame.Alloc |
| src/core/containers/cont_hm.h:100 | remove probes linearly while put probes quadratically | 8 slots, every key hashing to 0: put K1, K2, K3 (slots 0, 1, 5); remove K3 stops at empty slot 2; get still finds K3 | one probe sequence for put, get and remove | not executed | HashTableWitnesses.RemoveMissesWitness | HashTable.HashMap.Remove |
| src/core/containers/cont_hm.c:41-44 | resize rehashes linearly while get probes quadratically | 4 slots, hash 0: K1, K2, K3 at 0, 1, 2; resize to 8 keeps them there; get of K3 probes 0, 0, 1, 5 and misses | one probe sequence for resize and get | not executed | HashTableWitnesses.ResizeLosesWitness | HashTable.HashMap.Get |
| src/core/containers/cont_hm.h:42 | put stops at the first non-occupied slot, a tombstone included, without checking later slots for the key | 8 slots, hash 0: put K1, K2; remove K1; put K2 with a new value stores a second K2 at slot 0; remove K2 clears that copy; get K2 answers the old value | look the key up first, then insert | not executed | HashTableWitnesses.StaleValueWitness | HashTable.HashMap.Put |
| src/core/containers/cont_hm.h:89 | remove loops until an empty slot, which may never come | 4 slots, one-byte keys hashed by their byte mod 4: put [1], [2], [3] at slots 1, 2, 3 and remove them, then put [4] at slot 0; remove of the missing [5] passes three tombstones and the occupied slot 0 and loops for ever | stop after passing every slot | not executed | HashTableWitnesses.NoEmptySlotWitness | HashTable.HashMap.Remove |

=== FILE: bit_ops.dfy ===
/**
 * Unsigned machine integers as mathematical naturals.
 *
 * A `uint32_t` or `size_t` value is a `nat` below `U32` or `U64`; wrap-around
 * is written out as `% U32` / `% U64`.  The bitwise operators `&`, `|` and
 * `^` are defined bit by bit from the least significant bit, so that facts
 * such as `x & (2^k - 1) == x % 2^k` are proved by induction rather than
 * left to the solver's bit-vector theory.
 */
module BitOps {

  const U32: nat := 0x1_0000_0000
  const U64: nat := 0x1_0000_0000_0000_0000

  function Pow2(k: nat): (r: nat)
    ensures r >= 1
  {
    if k == 0 then 1 else 2 * Pow2(k - 1)
  }

  /** Bit i of x. */
  predicate TestBit(x: nat, i: nat)
  {
    (x / Pow2(i)) % 2 == 1
  }

  /** x & y */
  function And(x: nat, y: nat): nat
    decreases x
  {
    if x == 0 || y == 0 then 0
    else 2 * And(x / 2, y / 2) + (if x % 2 == 1 && y % 2 == 1 then 1 else 0)
  }

  /** x | y */
  function Or(x: nat, y: nat): nat
    decreases x + y
  {
    if x == 0 then y
    else if y == 0 then x
    else 2 * Or(x / 2, y / 2) + (if x % 2 == 1 || y % 2 == 1 then 1 else 0)
  }

  /** x ^ y */
  function Xor(x: nat, y: nat): nat
    decreases x + y
  {
    if x == 0 then y
    else if y == 0 then x
    else 2 * Xor(x / 2, y / 2) + (if x % 2 != y % 2 then 1 else 0)
  }

  /** ~x on a w-bit unsigned value. */
  function Not(x: nat, w: nat): nat
    requires x < Pow2(w)
  {
    Pow2(w) - 1 - x
  }

  lemma Pow2Widths()
    ensures Pow2(8) == 256
    ensures Pow2(32) == U32
    ensures Pow2(64) == U64
  {
    assert Pow2(8) == 256;
    Pow2Add(8, 8);
    Pow2Add(16, 16);
    Pow2Add(32, 32);
  }

  lemma {:induction false} Pow2Add(a: nat, b: nat)
    ensures Pow2(a + b) == Pow2(a) * Pow2(b)
  {
    if a > 0 {
      Pow2Add(a - 1, b);
    }
  }

  lemma {:induction false} Pow2Monotone(a: nat, b: nat)
    requires a <= b
    ensures Pow2(a) <= Pow2(b)
  {
    if a < b {
      Pow2Monotone(a, b - 1);
    }
  }

  /** Masking with 2^k - 1 keeps the k low bits: x & (2^k - 1) == x % 2^k. */
  lemma {:induction false} AndLowMask(x: nat, k: nat)
    ensures And(x, Pow2(k) - 1) == x % Pow2(k)
  {
    if k == 0 {
    } else if x == 0 {
    } else {
      var m := Pow2(k - 1);
      AndLowMask(x / 2, k - 1);
      assert Pow2(k) - 1 == 2 * (m - 1) + 1;
      assert (Pow2(k) - 1) / 2 == m - 1;
      assert And(x, Pow2(k) - 1) == 2 * ((x / 2) % m) + x % 2;
      DivModSplit(x, m);
    }
  }

  /** x % (2m) == 2 * ((x / 2) % m) + x % 2 */
  lemma DivModSplit(x: nat, m: nat)
    requires m >= 1
    ensures x % (2 * m) == 2 * ((x / 2) % m) + x % 2
  {
    var q := (x / 2) / m;
    var r := (x / 2) % m;
    assert x / 2 == q * m + r;
    assert x == q * (2 * m) + (2 * r + x % 2);
    DivModUnique(x, 2 * m, q, 2 * r + x % 2);
  }

  /** Quotient and remainder are determined by x == q * d + r, 0 <= r < d. */
  lemma DivModUnique(x: int, d: int, q: int, r: int)
    requires d > 0 && 0 <= r < d && x == q * d + r
    ensures x / d == q && x % d == r
  {
    var q' := x / d;
    var r' := x % d;
    assert x == q' * d + r';
    assert (q - q') * d == r' - r;
    if q - q' >= 1 {
      MulAtLeast(q - q', d);
    } else if q' - q >= 1 {
      MulAtLeast(q' - q, d);
    }
  }

  lemma MulAtLeast(a: int, d: int)
    requires a >= 1 && d > 0
    ensures a * d >= d
  {
  }

  lemma MulMonotone(a: nat, r: nat, s: nat)
    requires r <= s
    ensures a * r <= a * s
  {
  }

  /**
   * Masking with the complement of 2^k - 1 on a w-bit value clears the k low
   * bits: x & ~(2^k - 1) == x - x % 2^k.
   */
  lemma {:induction false} AndHighMask(x: nat, k: nat, w: nat)
    requires k <= w && x < Pow2(w)
    ensures Pow2(k) <= Pow2(w) && And(x, Pow2(w) - Pow2(k)) == x - x % Pow2(k)
  {
    Pow2Monotone(k, w);
    if x == 0 {
      DivModUnique(0, Pow2(k), 0, 0);
    } else if k == 0 {
      AndAllOnes(x, w);
      DivModUnique(x, 1, x, 0);
    } else {
      var m := Pow2(k - 1);
      var h := Pow2(w - 1) - m;
      AndHighMask(x / 2, k - 1, w - 1);
      assert Pow2(k) == 2 * m && Pow2(w) - Pow2(k) == 2 * h;
      if h == 0 {
        DivModUnique(x, Pow2(k), 0, x);
      } else {
        HighMaskStep(x, h, m);
      }
    }
  }

  /** One step of AndHighMask: an even mask 2h keeps the low bit out and masks x / 2 with h. */
  lemma HighMaskStep(x: nat, h: nat, m: nat)
    requires x >= 1 && h >= 1 && m >= 1
    requires And(x / 2, h) == x / 2 - (x / 2) % m
    ensures And(x, 2 * h) == x - x % (2 * m)
  {
    assert (2 * h) % 2 == 0 && (2 * h) / 2 == h;
    assert And(x, 2 * h) == 2 * And(x / 2, h);
    DivModSplit(x, m);
  }

  /** A w-bit value masked with all w ones is itself. */
  lemma {:induction false} AndAllOnes(x: nat, w: nat)
    requires x < Pow2(w)
    ensures And(x, Pow2(w) - 1) == x
  {
    AndLowMask(x, w);
    DivModUnique(x, Pow2(w), 0, x);
  }

  lemma {:induction false} AndBound(x: nat, y: nat, w: nat)
    requires x < Pow2(w)
    ensures And(x, y) <= x
  {
    if x != 0 && y != 0 {
      AndBound(x / 2, y / 2, w);
    }
  }

  lemma {:induction false} XorBound(x: nat, y: nat, w: nat)
    requires x < Pow2(w) && y < Pow2(w)
    ensures Xor(x, y) < Pow2(w)
    decreases x + y
  {
    if x != 0 && y != 0 {
      XorBound(x / 2, y / 2, w - 1);
    }
  }

  lemma {:induction false} OrBound(x: nat, y: nat, w: nat)
    requires x < Pow2(w) && y < Pow2(w)
    ensures Or(x, y) < Pow2(w)
    decreases x + y
  {
    if x != 0 && y != 0 {
      OrBound(x / 2, y / 2, w - 1);
    }
  }

  lemma {:induction false} XorComm(x: nat, y: nat)
    ensures Xor(x, y) == Xor(y, x)
    decreases x + y
  {
    if x != 0 && y != 0 {
      XorComm(x / 2, y / 2);
    }
  }

  /** Xor with the same value twice cancels: y ^ (x ^ y) == x. */
  lemma {:induction false} XorCancel(x: nat, y: nat)
    ensures Xor(y, Xor(x, y)) == x
    decreases x + y
  {
    if x == 0 {
      XorSelf(y);
    } else if y == 0 {
    } else {
      XorCancel(x / 2, y / 2);
      var z := Xor(x, y);
      assert z % 2 == (if x % 2 != y % 2 then 1 else 0);
      assert z / 2 == Xor(x / 2, y / 2);
    }
  }

  lemma {:induction false} XorSelf(y: nat)
    ensures Xor(y, y) == 0
  {
    if y != 0 {
      XorSelf(y / 2);
    }
  }

  /** Bit i of x & y is set exactly when it is set in both. */
  lemma {:induction false} TestBitAnd(x: nat, y: nat, i: nat)
    ensures TestBit(And(x, y), i) <==> TestBit(x, i) && TestBit(y, i)
  {
    if x == 0 || y == 0 {
      TestBitZero(i);
    } else {
      var b := if x % 2 == 1 && y % 2 == 1 then 1 else 0;
      DivModUnique(And(x, y), 2, And(x / 2, y / 2), b);
      TestBitHalf(x, i);
      TestBitHalf(y, i);
      TestBitHalf(And(x, y), i);
      if i > 0 {
        TestBitAnd(x / 2, y / 2, i - 1);
      }
    }
  }


  /** Bit i of x | y is set exactly when it is set in either. */
  lemma {:induction false} TestBitOr(x: nat, y: nat, i: nat)
    ensures TestBit(Or(x, y), i) <==> TestBit(x, i) || TestBit(y, i)
    decreases x + y
  {
    if x == 0 || y == 0 {
      TestBitZero(i);
    } else {
      var b := if x % 2 == 1 || y % 2 == 1 then 1 else 0;
      DivModUnique(Or(x, y), 2, Or(x / 2, y / 2), b);
      TestBitHalf(x, i);
      TestBitHalf(y, i);
      TestBitHalf(Or(x, y), i);
      if i > 0 {
        TestBitOr(x / 2, y / 2, i - 1);
      }
    }
  }

  /** Bit i of ~x (w bits) is the opposite of bit i of x, for i < w. */
  lemma {:induction false} TestBitNot(x: nat, w: nat, i: nat)
    requires x < Pow2(w) && i < w
    ensures TestBit(Not(x, w), i) <==> !TestBit(x, i)
  {
    var y := Not(x, w);
    var p := Pow2(w - 1);
    assert Pow2(w) == 2 * p && y == Pow2(w) - 1 - x;
    DivModUnique(y, 2, p - 1 - x / 2, 1 - x % 2);
    TestBitHalf(x, i);
    TestBitHalf(y, i);
    if i > 0 {
      assert y / 2 == Not(x / 2, w - 1);
      TestBitNot(x / 2, w - 1, i - 1);
    }
  }

  /** The only bit of 2^j is bit j. */
  lemma {:induction false} TestBitPow2(j: nat, i: nat)
    ensures TestBit(Pow2(j), i) <==> i == j
  {
    TestBitHalf(Pow2(j), i);
    if j > 0 {
      DivModUnique(Pow2(j), 2, Pow2(j - 1), 0);
    }
    if j > 0 && i > 0 {
      TestBitPow2(j - 1, i - 1);
    } else if j > 0 {
    } else if i > 0 {
      TestBitZero(i - 1);
    }
  }

  lemma TestBitZero(i: nat)
    ensures !TestBit(0, i)
  {
  }

  /** Bit i > 0 of x is bit i - 1 of x / 2; bit 0 is the parity. */
  lemma TestBitHalf(x: nat, i: nat)
    ensures i == 0 ==> (TestBit(x, i) <==> x % 2 == 1)
    ensures i > 0 ==> (TestBit(x, i) <==> TestBit(x / 2, i - 1))
  {
    if i > 0 {
      assert Pow2(i) == 2 * Pow2(i - 1);
      DivDiv(x, 2, Pow2(i - 1));
    }
  }

  lemma DivDiv(x: nat, a: nat, b: nat)
    requires a >= 1 && b >= 1
    ensures x / (a * b) == (x / a) / b
  {
    var q := (x / a) / b;
    var r := (x / a) % b;
    assert x / a == q * b + r;
    assert x == q * (a * b) + (a * r + x % a);
    assert a * r + x % a < a * b by {
      MulMonotone(a, r, b - 1);
    }
    DivModUnique(x, a * b, q, a * r + x % a);
  }

  /** Two values below 2^w with the same bits are equal. */
  lemma {:induction false} BitsDetermine(x: nat, y: nat, w: nat)
    requires x < Pow2(w) && y < Pow2(w)
    requires forall i :: 0 <= i < w ==> (TestBit(x, i) <==> TestBit(y, i))
    ensures x == y
  {
    if w > 0 {
      forall i | 0 <= i < w - 1
        ensures TestBit(x / 2, i) <==> TestBit(y / 2, i)
      {
        TestBitHalf(x, i + 1);
        TestBitHalf(y, i + 1);
      }
      TestBitHalf(x, 0);
      TestBitHalf(y, 0);
      BitsDetermine(x / 2, y / 2, w - 1);
    }
  }

  // Modular arithmetic on naturals, used for ring-buffer indices.

  lemma ModAddLeft(a: nat, b: nat, m: nat)
    requires m >= 1
    ensures (a % m + b) % m == (a + b) % m
  {
    var q := (a % m + b) / m;
    var r := (a % m + b) % m;
    assert a + b == (a / m + q) * m + r;
    DivModUnique(a + b, m, a / m + q, r);
  }

  /** Reducing modulo a multiple of d does not change the remainder modulo d. */
  lemma ModModDivisor(x: nat, d: nat, c: nat)
    requires d >= 1 && c >= 1
    ensures (x % (d * c)) % d == x % d
  {
    var m := d * c;
    var q := x / m;
    var r := x % m;
    assert x == q * c * d + r;
    var q2 := r / d;
    assert x == (q * c + q2) * d + r % d;
    DivModUnique(x, d, q * c + q2, r % d);
  }

  /** Two offsets below m from the same base land on different slots of a ring of size m. */
  lemma RingDistinct(h: nat, k1: nat, k2: nat, m: nat)
    requires k1 < k2 < m
    ensures (h + k1) % m != (h + k2) % m
  {
    DivModUnique(k2 - k1, m, 0, k2 - k1);
    ModDifference(h + k1, k2 - k1, m);
  }

  /** Adding d keeps the remainder only when d is a multiple of m. */
  lemma ModDifference(a: nat, d: nat, m: nat)
    requires m >= 1
    ensures (a + d) % m == a % m ==> d % m == 0
  {
    if (a + d) % m == a % m {
      var q1, q2 := a / m, (a + d) / m;
      assert d == (q2 - q1) * m;
      DivModUnique(d, m, q2 - q1, 0);
    }
  }

  /** Moving 1..m steps round a ring of size m returns to the start only after m steps. */
  lemma RingReturn(h: nat, k: nat, m: nat)
    requires h < m && 1 <= k <= m
    ensures (h + k) % m == h <==> k == m
  {
    if k == m {
      DivModUnique(h + k, m, 1, h);
    } else {
      DivModUnique(h, m, 0, h);
      RingDistinct(h, 0, k, m);
    }
  }

  /** Or-ing a value below 2^k into a multiple of 2^k is addition: `(y << k) | i`. */
  lemma {:induction false} OrShifted(y: nat, i: nat, k: nat)
    requires i < Pow2(k)
    ensures Or(y * Pow2(k), i) == y * Pow2(k) + i
  {
    if k > 0 && y != 0 && i != 0 {
      assert y * Pow2(k) == 2 * (y * Pow2(k - 1));
      OrShifted(y, i / 2, k - 1);
    }
  }
}

=== FILE: bits.dfy ===
/**
 * The integer bit utilities of math/math_bits.h.
 *
 * `size_t` arguments are naturals below 2^64, `uint32_t` arguments naturals
 * below 2^32 and `int` arguments integers in the 32-bit two's-complement
 * range; C's wrap-around is written out.  `popcount` and `reverse_bits`,
 * whose proofs are bit-pattern manipulations, work on `bv32`.
 */
module Bits {
  import opened BitOps

  /** n is 2^k for some k (0 is not a power of two). */
  predicate IsPow2(n: nat)
    decreases n
  {
    n == 1 || (n >= 2 && n % 2 == 0 && IsPow2(n / 2))
  }

  /** Number of significant bits of x: 0 for 0, otherwise floor(log2 x) + 1. */
  function BitLength(x: nat): (r: nat)
    ensures x == 0 <==> r == 0
    ensures x > 0 ==> Pow2(r - 1) <= x < Pow2(r)
  {
    if x == 0 then 0 else 1 + BitLength(x / 2)
  }

  lemma {:induction false} Pow2StrictMonotone(a: nat, b: nat)
    requires a < b
    ensures Pow2(a) < Pow2(b)
  {
    if a < b - 1 {
      Pow2StrictMonotone(a, b - 1);
    }
  }

  /** Only a smaller exponent gives a smaller power. */
  lemma {:induction false} Pow2LessExponent(a: nat, b: nat)
    requires Pow2(a) < Pow2(b)
    ensures a < b
  {
    if a > 0 && b > 0 {
      Pow2LessExponent(a - 1, b - 1);
    }
  }

  /** The bit length is the unique r with 2^(r-1) <= x < 2^r. */
  lemma BitLengthUnique(x: nat, r: nat)
    requires r >= 1 && Pow2(r - 1) <= x < Pow2(r)
    ensures BitLength(x) == r
  {
    var b := BitLength(x);
    Pow2LessExponent(b - 1, r);
    Pow2LessExponent(r - 1, b);
  }

  lemma {:induction false} Pow2IsPow2(k: nat)
    ensures IsPow2(Pow2(k))
  {
    if k > 0 {
      Pow2IsPow2(k - 1);
    }
  }

  /** Every power of two is 2^(bit length - 1). */
  lemma {:induction false} IsPow2Exponent(n: nat)
    requires IsPow2(n)
    ensures n >= 1 && n == Pow2(BitLength(n) - 1)
    decreases n
  {
    if n != 1 {
      IsPow2Exponent(n / 2);
    }
  }

  // ---------------------------------------------------------------------
  // lum_align_up

  /**
   * `(value + (alignment - 1)) & ~(alignment - 1)` on size_t.  For a
   * power-of-two alignment whose addition does not overflow, the result is
   * the least multiple of the alignment that is at least `value`.
   */
  function AlignUp(value: nat, alignment: nat): (r: nat)
    requires value < U64 && alignment < U64
    ensures r < U64
    ensures IsPow2(alignment) && value + alignment - 1 < U64 ==>
              r % alignment == 0 && value <= r < value + alignment
    ensures alignment >= 1 ==> r <= (value + alignment - 1) % U64
  {
    Pow2Widths();
    var mask := (alignment + U64 - 1) % U64;
    AlignUpFacts(value, alignment, mask);
    MaskOfAlignment(alignment);
    And((value + mask) % U64, Not(mask, 64))
  }

  /** `alignment - 1` in 64-bit arithmetic, for a non-zero alignment. */
  lemma MaskOfAlignment(alignment: nat)
    requires alignment < U64
    ensures alignment >= 1 ==> (alignment + U64 - 1) % U64 == alignment - 1
  {
    if alignment >= 1 {
      DivModUnique(alignment + U64 - 1, U64, 1, alignment - 1);
    }
  }

  /**
   * The least multiple of m that is at least v: the value an alignment
   * round-up is meant to produce.
   */
  function LeastAligned(v: nat, m: nat): (r: nat)
    requires m >= 1
    ensures r % m == 0 && v <= r < v + m
  {
    var q := (v + m - 1) / m;
    DivModUnique(q * m, m, q, 0);
    q * m
  }

  /** No multiple of m at or above v lies below LeastAligned(v, m). */
  lemma LeastAlignedIsLeast(v: nat, m: nat, a: nat)
    requires m >= 1 && a % m == 0 && v <= a
    ensures LeastAligned(v, m) <= a
  {
    var l := LeastAligned(v, m);
    if a < l {
      OneMultipleInWindow(a, l, v, m);
    }
  }

  /** The least aligned offset at or above 0 is 0. */
  lemma LeastAlignedZero(m: nat)
    requires m >= 1
    ensures LeastAligned(0, m) == 0
  {
    var r := LeastAligned(0, m);
    DivModUnique(r, m, 0, r);
  }

  /** An value already aligned is its own least aligned value. */
  lemma LeastAlignedFixed(v: nat, m: nat)
    requires m >= 1 && v % m == 0
    ensures LeastAligned(v, m) == v
  {
    LeastAlignedIsLeast(v, m, v);
  }

  /** 16, 32 and 64 are powers of two. */
  lemma SmallPowers()
    ensures IsPow2(16) && IsPow2(32) && IsPow2(64)
  {
    assert IsPow2(1) && IsPow2(2) && IsPow2(4) && IsPow2(8);
  }

  /** Two multiples of m in the same window [v, v + m) are equal. */
  lemma OneMultipleInWindow(r: nat, l: nat, v: nat, m: nat)
    requires m >= 1 && r % m == 0 && l % m == 0
    requires v <= r < v + m && v <= l < v + m
    ensures r == l
  {
    DivModUnique(r, m, r / m, 0);
    DivModUnique(l, m, l / m, 0);
    if l / m < r / m {
      MulMonotone(m, l / m + 1, r / m);
    } else if r / m < l / m {
      MulMonotone(m, r / m + 1, l / m);
    }
  }

  /**
   * Without overflow, `lum_align_up` with a power-of-two alignment
   * computes the least multiple of the alignment at or above the value.
   */
  lemma AlignUpIsLeast(v: nat, m: nat)
    requires v < U64 && m < U64 && IsPow2(m) && v + m - 1 < U64
    ensures AlignUp(v, m) == LeastAligned(v, m)
  {
    OneMultipleInWindow(AlignUp(v, m), LeastAligned(v, m), v, m);
  }

  /** An aligned value is left where it is. */
  lemma AlignUpOfAligned(v: nat, m: nat)
    requires v < U64 && m < U64 && IsPow2(m) && v + m - 1 < U64 && v % m == 0
    ensures AlignUp(v, m) == v
  {
    OneMultipleInWindow(AlignUp(v, m), v, v, m);
  }

  /**
   * When `value + alignment - 1` overflows, `lum_align_up` wraps round to
   * a value below `value`, while every multiple of the alignment at or
   * above `value` is at least 2^64.
   */
  lemma AlignUpWraps(v: nat, m: nat)
    requires v < U64 && m < U64 && IsPow2(m) && v + m - 1 >= U64
    ensures AlignUp(v, m) < v && LeastAligned(v, m) >= U64
  {
    Pow2Widths();
    DivModUnique(v + m - 1, U64, 1, v + m - 1 - U64);
    var c := PowerOfTwoDivides(m, 64);
    NoMultipleAbove(LeastAligned(v, m), m, c, v);
  }

  /** With m * c == 2^64, a multiple of m below 2^64 is at most 2^64 - m. */
  lemma NoMultipleAbove(l: nat, m: nat, c: nat, v: nat)
    requires m >= 1 && c >= 1 && m * c == U64 && l % m == 0 && v <= l && v + m - 1 >= U64
    ensures l >= U64
  {
    DivModUnique(l, m, l / m, 0);
    if l < U64 {
      if c <= l / m {
        MulMonotone(m, c, l / m);
      } else {
        MulMonotone(m, l / m, c - 1);
      }
    }
  }

  lemma AlignUpFacts(value: nat, alignment: nat, mask: nat)
    requires value < U64 && alignment < U64 && mask == (alignment + U64 - 1) % U64
    requires Pow2(64) == U64
    ensures And((value + mask) % U64, Not(mask, 64)) <= (value + mask) % U64
    ensures IsPow2(alignment) && value + alignment - 1 < U64 ==>
              var r := And((value + mask) % U64, Not(mask, 64));
              r % alignment == 0 && value <= r < value + alignment
  {
    AndBound((value + mask) % U64, Not(mask, 64), 64);
    if IsPow2(alignment) && value + alignment - 1 < U64 {
      IsPow2Exponent(alignment);
      AlignUpExact(value, alignment, mask, BitLength(alignment) - 1);
    }
  }

  lemma AlignUpExact(value: nat, alignment: nat, mask: nat, k: nat)
    requires alignment == Pow2(k) && value + alignment - 1 < U64 && Pow2(64) == U64
    requires mask == (alignment + U64 - 1) % U64
    ensures var r := And((value + mask) % U64, Not(mask, 64));
            r % alignment == 0 && value <= r < value + alignment
  {
    DivModUnique(alignment + U64 - 1, U64, 1, alignment - 1);
    DivModUnique(value + mask, U64, 0, value + mask);
    AlignDown(value + mask, k, 64);
  }

  /** Clearing the k low bits of a w-bit s gives the largest multiple of 2^k not above s. */
  lemma AlignDown(s: nat, k: nat, w: nat)
    requires s < Pow2(w) && Pow2(k) <= Pow2(w)
    ensures var r := And(s, Pow2(w) - Pow2(k));
            r % Pow2(k) == 0 && r <= s < r + Pow2(k)
  {
    Pow2LessOrEqualExponent(k, w);
    AndHighMask(s, k, w);
    RoundDownMultiple(s, Pow2(k));
  }

  lemma RoundDownMultiple(s: nat, d: nat)
    requires d >= 1
    ensures (s - s % d) % d == 0
  {
    var q := s / d;
    assert s - s % d == q * d;
    DivModUnique(q * d, d, q, 0);
  }

  lemma Pow2LessOrEqualExponent(a: nat, b: nat)
    requires Pow2(a) <= Pow2(b)
    ensures a <= b
  {
    Pow2LessExponent(a, b + 1);
  }

  /** For a power-of-two m, `x & (m - 1)` is `x % m`. */
  lemma MaskIsMod(x: nat, m: nat)
    requires IsPow2(m)
    ensures And(x, m - 1) == x % m
  {
    IsPow2Exponent(m);
    AndLowMask(x, BitLength(m) - 1);
  }

  /** A power of two not above 2^w divides 2^w. */
  lemma PowerOfTwoDivides(m: nat, w: nat) returns (c: nat)
    requires IsPow2(m) && m <= Pow2(w)
    ensures c >= 1 && m * c == Pow2(w)
  {
    IsPow2Exponent(m);
    var k := BitLength(m) - 1;
    Pow2LessOrEqualExponent(k, w);
    c := Pow2(w - k);
    Pow2Split(k, w);
  }

  lemma Pow2Split(k: nat, w: nat)
    requires k <= w
    ensures Pow2(k) * Pow2(w - k) == Pow2(w)
  {
    Pow2Add(k, w - k);
  }

  // ---------------------------------------------------------------------
  // lum_is_power_of_two

  /** `(x & (x - 1)) == 0` on size_t: accepts 0 as well as every 2^k. */
  function IsPowerOfTwo(x: nat): (r: bool)
    requires x < U64
    ensures r <==> x == 0 || IsPow2(x)
  {
    if x == 0 then And(x, (x + U64 - 1) % U64) == 0
    else
      assert (x + U64 - 1) % U64 == x - 1;
      AndPredecessor(x);
      And(x, (x + U64 - 1) % U64) == 0
  }

  lemma {:induction false} AndSelf(y: nat)
    ensures And(y, y) == y
  {
    if y != 0 {
      AndSelf(y / 2);
    }
  }

  /** x & (x - 1) clears the lowest set bit, so it is 0 exactly for powers of two. */
  lemma {:induction false} AndPredecessor(x: nat)
    requires x >= 1
    ensures And(x, x - 1) == 0 <==> IsPow2(x)
    decreases x
  {
    if x == 1 {
    } else if x % 2 == 1 {
      assert (x - 1) / 2 == x / 2;
      AndSelf(x / 2);
    } else {
      assert (x - 1) / 2 == x / 2 - 1;
      AndPredecessor(x / 2);
    }
  }

  // ---------------------------------------------------------------------
  // lum_log2_floor, lum_log2_ceil, lum_next_power_of_two

  /** __builtin_clz: leading zero bits of a nonzero 32-bit value (undefined for 0). */
  function Clz32(x: nat): (r: nat)
    requires 0 < x < U32
    ensures r < 32 && Pow2(31 - r) <= x < Pow2(32 - r)
  {
    Pow2Widths();
    BitLengthAtMost(x, 32);
    32 - BitLength(x)
  }

  lemma BitLengthAtMost(x: nat, w: nat)
    requires x < Pow2(w)
    ensures BitLength(x) <= w
  {
    var b := BitLength(x);
    if b > 0 {
      Pow2LessExponent(b - 1, w);
    }
  }

  /** `31 - clz(x)`: the exponent of the highest set bit. */
  function Log2Floor(x: nat): (r: nat)
    requires 0 < x < U32
    ensures Pow2(r) <= x < Pow2(r + 1)
  {
    31 - Clz32(x)
  }

  /**
   * `32 - clz(x - 1)`: the least r with x <= 2^r.  For x == 1 the call is
   * clz(0), which is undefined; for x == 0 the subtraction wraps and the
   * result is 32.
   */
  function Log2Ceil(x: nat): (r: nat)
    requires x < U32 && x != 1
    ensures x == 0 ==> r == 32
    ensures x >= 2 ==> 1 <= r <= 32 && Pow2(r - 1) < x <= Pow2(r)
  {
    var y := (x + U32 - 1) % U32;
    if x == 0 then
      Pow2Widths();
      assert y == U32 - 1;
      Pow2StrictMonotone(31, 32);
      BitLengthUnique(y, 32);
      32 - Clz32(y)
    else
      32 - Clz32(y)
  }

  /** `1U << n`. */
  function Shl32(v: nat, n: nat): nat
    requires n < 32
  {
    (v * Pow2(n)) % U32
  }

  /**
   * `x == 0 ? 1 : 1U << log2_ceil(x)`: the least power of two that is at
   * least x.  x == 1 reaches clz(0) and x > 2^31 shifts by 32, both
   * undefined in C.
   */
  function NextPowerOfTwo(x: nat): (r: nat)
    requires x == 0 || 2 <= x <= 0x8000_0000
    ensures IsPow2(r) && x <= r
    ensures forall p :: IsPow2(p) && x <= p ==> r <= p
  {
    if x == 0 then
      LeastPowerOfTwo(0, 0);
      1
    else
      var n := Log2Ceil(x);
      ShiftedCeiling(x, n);
      Shl32(1, n)
  }

  /** For 2 <= x <= 2^31, shifting 1 by log2_ceil(x) stays within 32 bits and is the least power of two at least x. */
  lemma ShiftedCeiling(x: nat, n: nat)
    requires 2 <= x <= 0x8000_0000 && n == Log2Ceil(x)
    ensures n < 32 && Shl32(1, n) == Pow2(n)
    ensures IsPow2(Pow2(n)) && x <= Pow2(n)
    ensures forall p :: IsPow2(p) && x <= p ==> Pow2(n) <= p
  {
    Pow2Widths();
    Pow2LessExponent(n - 1, 31);
    Pow2Monotone(n, 31);
    Pow2StrictMonotone(31, 32);
    DivModUnique(Pow2(n), U32, 0, Pow2(n));
    LeastPowerOfTwo(x, n);
  }

  /** 2^n is the least power of two at least x when 2^(n-1) < x <= 2^n. */
  lemma LeastPowerOfTwo(x: nat, n: nat)
    requires x <= Pow2(n)
    requires n >= 1 ==> Pow2(n - 1) < x
    ensures IsPow2(Pow2(n))
    ensures forall p :: IsPow2(p) && x <= p ==> Pow2(n) <= p
  {
    Pow2IsPow2(n);
    forall p | IsPow2(p) && x <= p
      ensures Pow2(n) <= p
    {
      IsPow2Exponent(p);
      var m := BitLength(p) - 1;
      if n >= 1 {
        Pow2LessExponent(n - 1, m);
      }
      Pow2Monotone(n, m);
    }
  }

  // ---------------------------------------------------------------------
  // lum_min, lum_max, lum_is_even, lum_is_odd

  predicate IsInt32(a: int)
  {
    -0x8000_0000 <= a < 0x8000_0000
  }

  /** The 32-bit two's-complement pattern of an int. */
  function ToU32(a: int): nat
  {
    a % U32
  }

  /** The int whose two's-complement pattern is u. */
  function FromU32(u: nat): int
    requires u < U32
  {
    if u < 0x8000_0000 then u else u - U32
  }

  lemma RoundTrip32(a: int)
    requires IsInt32(a)
    ensures ToU32(a) < U32 && FromU32(ToU32(a)) == a
  {
    if a < 0 {
      DivModUnique(a, U32, -1, a + U32);
    } else {
      DivModUnique(a, U32, 0, a);
    }
  }

  /** The pattern of `-(a < b)`: all ones when a < b, zero otherwise. */
  function LessMask(a: int, b: int): nat
  {
    ToU32(-(if a < b then 1 else 0))
  }

  /** `b ^ ((a ^ b) & -(a < b))` */
  function Min(a: int, b: int): (r: int)
    requires IsInt32(a) && IsInt32(b)
    ensures r == a || r == b
    ensures r <= a && r <= b
  {
    MinMaxFacts(a, b);
    FromU32(Xor(ToU32(b), And(Xor(ToU32(a), ToU32(b)), LessMask(a, b))))
  }

  /** `a ^ ((a ^ b) & -(a < b))` */
  function Max(a: int, b: int): (r: int)
    requires IsInt32(a) && IsInt32(b)
    ensures r == a || r == b
    ensures r >= a && r >= b
  {
    MinMaxFacts(a, b);
    FromU32(Xor(ToU32(a), And(Xor(ToU32(a), ToU32(b)), LessMask(a, b))))
  }

  lemma MinMaxFacts(a: int, b: int)
    requires IsInt32(a) && IsInt32(b)
    ensures var z := And(Xor(ToU32(a), ToU32(b)), LessMask(a, b));
            Xor(ToU32(b), z) < U32 && Xor(ToU32(a), z) < U32 &&
            FromU32(Xor(ToU32(b), z)) == (if a < b then a else b) &&
            FromU32(Xor(ToU32(a), z)) == (if a < b then b else a)
  {
    Pow2Widths();
    RoundTrip32(a);
    RoundTrip32(b);
    var x, y := ToU32(a), ToU32(b);
    XorBound(x, y, 32);
    var z := And(Xor(x, y), LessMask(a, b));
    if a < b {
      DivModUnique(-1, U32, -1, U32 - 1);
      AndAllOnes(Xor(x, y), 32);
      XorCancel(x, y);
      XorComm(x, y);
      XorCancel(y, x);
    } else {
      assert z == 0;
    }
  }

  /** `!(x & 1)` */
  function IsEven(x: int): (r: bool)
    requires IsInt32(x)
    ensures r <==> x % 2 == 0
  {
    LowBit(x);
    And(ToU32(x), 1) == 0
  }

  /** `x & 1`: 1 for odd x (negative ones included), 0 for even x. */
  function IsOdd(x: int): (r: nat)
    requires IsInt32(x)
    ensures r == x % 2
  {
    LowBit(x);
    And(ToU32(x), 1)
  }

  lemma LowBit(x: int)
    ensures And(ToU32(x), 1) == x % 2
  {
    AndLowMask(ToU32(x), 1);
    var q := x / U32;
    assert x == q * U32 + ToU32(x);
    assert x == (q * 0x8000_0000 + ToU32(x) / 2) * 2 + ToU32(x) % 2;
    DivModUnique(x, 2, q * 0x8000_0000 + ToU32(x) / 2, ToU32(x) % 2);
  }
}

/**
 * The bit-pattern utilities of math/math_bits.h on `bv32`: the portable
 * `lum_popcount` fallback and `lum_reverse_bits`.
 */
module BitPatterns {

  /** Bit i of x. */
  function Bit(x: bv32, i: bv32): bv32
    requires i < 32
  {
    (x >> i) & 1
  }

  /** The five swap stages of `lum_reverse_bits`. */
  function ReverseBits(x: bv32): (r: bv32)
    ensures forall i: bv32 :: i < 32 ==> Bit(r, i) == Bit(x, 31 - i)
  {
    var x1 := ((x >> 1) & 0x55555555) | ((x & 0x55555555) << 1);
    var x2 := ((x1 >> 2) & 0x33333333) | ((x1 & 0x33333333) << 2);
    var x3 := ((x2 >> 4) & 0x0F0F0F0F) | ((x2 & 0x0F0F0F0F) << 4);
    var x4 := ((x3 >> 8) & 0x00FF00FF) | ((x3 & 0x00FF00FF) << 8);
    (x4 >> 16) | (x4 << 16)
  }

  /** Reversing twice gives back the original word. */
  lemma ReverseBitsInvolution(x: bv32)
    ensures ReverseBits(ReverseBits(x)) == x
  {
  }

  /** Byte k of x. */
  function ByteOf(x: bv32, k: bv32): (r: bv32)
    requires k < 4
    ensures r < 256
  {
    (x >> (8 * k)) & 0xFF
  }

  /** The number of set bits among the low eight bits of b. */
  function ByteOnes(b: bv32): (r: bv32)
    ensures r <= 8
  {
    Bit(b, 0) + Bit(b, 1) + Bit(b, 2) + Bit(b, 3) +
      Bit(b, 4) + Bit(b, 5) + Bit(b, 6) + Bit(b, 7)
  }

  /** The sum of four bytes' worth of counts. */
  function Sum4(a: bv32, b: bv32, c: bv32, d: bv32): bv32
  {
    a + b + c + d
  }

  /** The number of set bits of x, counted byte by byte. */
  function Ones(x: bv32): (r: bv32)
  {
    Sum4(ByteOnes(ByteOf(x, 0)), ByteOnes(ByteOf(x, 1)), ByteOnes(ByteOf(x, 2)), ByteOnes(ByteOf(x, 3)))
  }

  /** The first line of the fallback of `lum_popcount`. */
  function PairStep(x: bv32): bv32
  {
    x - ((x >> 1) & 0x55555555)
  }

  /** The second line of the fallback. */
  function NibbleStep(x: bv32): bv32
  {
    (x & 0x33333333) + ((x >> 2) & 0x33333333)
  }

  /** The masked sum that the last line multiplies. */
  function ByteStep(x: bv32): bv32
  {
    (x + (x >> 4)) & 0x0F0F0F0F
  }

  /** The multiplication and shift of the last line. */
  function Gather(y: bv32): bv32
  {
    y * 0x01010101 >> 24
  }

  /**
   * The fallback of `lum_popcount`: 2-bit field sums, then 4-bit field
   * sums, then byte sums, added into the top byte by the multiplication.
   */
  function Popcount(x: bv32): (r: bv32)
  {
    Gather(ByteStep(NibbleStep(PairStep(x))))
  }

  /** Each 2-bit field of x holding the number of its set bits. */
  function PairSums(x: bv32): bv32
  {
    (x & 0x55555555) + ((x >> 1) & 0x55555555)
  }

  /** Each 4-bit field of x holding the number of its set bits. */
  function NibbleSums(x: bv32): bv32
  {
    (x & 0x11111111) + ((x >> 1) & 0x11111111) + ((x >> 2) & 0x11111111) + ((x >> 3) & 0x11111111)
  }

  /** Each byte of x holding the number of its set bits. */
  function ByteSums(x: bv32): bv32
  {
    ((x >> 0) & 0x01010101) + ((x >> 1) & 0x01010101) + ((x >> 2) & 0x01010101) + ((x >> 3) & 0x01010101) +
    ((x >> 4) & 0x01010101) + ((x >> 5) & 0x01010101) + ((x >> 6) & 0x01010101) + ((x >> 7) & 0x01010101)
  }

  /** The first line leaves in each 2-bit field the number of its set bits. */
  lemma PairStage(x: bv32)
    ensures PairStep(x) == PairSums(x)
  {
  }

  /** The second line adds neighbouring 2-bit sums into 4-bit sums. */
  lemma NibbleStage(x: bv32)
    ensures NibbleStep(PairSums(x)) == NibbleSums(x)
  {
  }

  /** The masked sum adds neighbouring 4-bit sums into byte sums, each below 16. */
  lemma ByteStage(x: bv32)
    ensures ByteStep(NibbleSums(x)) == ByteSums(x)
    ensures ByteSums(x) & 0xF0F0F0F0 == 0
  {
    ByteSumsSmall(x);
  }

  /** Every byte of the byte sums is at most 8, so below 16. */
  lemma ByteSumsSmall(x: bv32)
    ensures ByteSums(x) & 0xF0F0F0F0 == 0
  {
  }

  /**
   * With every byte below 16, multiplying by 0x01010101 leaves the sum of
   * the four bytes in the top byte: no partial sum carries.
   */
  lemma GatherSums(y: bv32)
    requires y & 0xF0F0F0F0 == 0
    ensures Gather(y) == Sum4(ByteOf(y, 0), ByteOf(y, 1), ByteOf(y, 2), ByteOf(y, 3))
  {
    ProductSplit(y);
    PairProduct(y);
    HalfProduct(PairBytes(y));
    PairBytesSums(y);
    HalfTopByte(PairBytes(y));
    ByteOfMasks(y);
    SumOrder(y & 0xFF, (y >> 8) & 0xFF, (y >> 16) & 0xFF, y >> 24);
  }

  /** y added to itself shifted by one byte. */
  function PairBytes(y: bv32): bv32
  {
    y + (y << 8)
  }

  /** 0x01010101 is 0x101 times 0x10001. */
  lemma ProductSplit(y: bv32)
    ensures y * 0x01010101 == (y * 0x101) * 0x10001
  {
  }

  /** Multiplying by 0x101 adds the copy shifted by one byte. */
  lemma PairProduct(y: bv32)
    ensures y * 0x101 == PairBytes(y)
  {
  }

  /** Multiplying by 0x10001 adds the copy shifted by two bytes. */
  lemma HalfProduct(z: bv32)
    ensures z * 0x10001 == z + (z << 16)
  {
  }

  /**
   * With every byte of y below 16, each byte of y + (y << 8) is the sum of
   * two neighbouring bytes of y, and so is below 32.
   */
  lemma PairBytesSums(y: bv32)
    requires y & 0xF0F0F0F0 == 0
    ensures PairBytes(y) & 0xE0E0E0E0 == 0
    ensures PairBytes(y) >> 24 == (y >> 24) + ((y >> 16) & 0xFF)
    ensures (PairBytes(y) >> 8) & 0xFF == ((y >> 8) & 0xFF) + (y & 0xFF)
  {
  }

  /** With every byte of z below 32, the top byte of z + (z << 16) adds bytes 3 and 1 of z. */
  lemma HalfTopByte(z: bv32)
    requires z & 0xE0E0E0E0 == 0
    ensures (z + (z << 16)) >> 24 == (z >> 24) + ((z >> 8) & 0xFF)
  {
  }

  /** Sum4 in the order the pairwise sums produce. */
  lemma SumOrder(a: bv32, b: bv32, c: bv32, d: bv32)
    ensures (d + c) + (b + a) == Sum4(a, b, c, d)
  {
  }

  /** The four bytes of y as masks of its shifts. */
  lemma ByteOfMasks(y: bv32)
    ensures ByteOf(y, 0) == y & 0xFF && ByteOf(y, 1) == (y >> 8) & 0xFF
    ensures ByteOf(y, 2) == (y >> 16) & 0xFF && ByteOf(y, 3) == y >> 24
  {
  }

  /** Byte k of the byte sums counts the set bits of byte k of x. */
  lemma ByteLanes(x: bv32)
    ensures ByteOf(ByteSums(x), 0) == ByteOnes(ByteOf(x, 0))
    ensures ByteOf(ByteSums(x), 1) == ByteOnes(ByteOf(x, 1))
    ensures ByteOf(ByteSums(x), 2) == ByteOnes(ByteOf(x, 2))
    ensures ByteOf(ByteSums(x), 3) == ByteOnes(ByteOf(x, 3))
  {
  }

  /** The lines of the fallback produce the byte sums and gather them. */
  lemma PopcountStages(x: bv32)
    ensures Popcount(x) == Gather(ByteSums(x))
  {
    PairStage(x);
    NibbleStage(x);
    ByteStage(x);
  }

  /** The gathered byte sums count the set bits. */
  lemma GatherCounts(x: bv32)
    ensures Gather(ByteSums(x)) == Ones(x)
  {
    ByteStage(x);
    GatherSums(ByteSums(x));
    ByteLanes(x);
  }

  /** `lum_popcount` counts the set bits of its argument. */
  lemma PopcountCounts(x: bv32)
    ensures Popcount(x) == Ones(x)
  {
    PopcountStages(x);
    GatherCounts(x);
  }
}

=== FILE: hash_index.dfy ===
/**
 * The slot array of the open-addressing hash map of containers/cont_hm.h
 * and containers/cont_hm.c, as a value.
 *
 * A table is a sequence of entries, each empty, occupied or deleted (the
 * source's status 0, 1 and 2).  This module states when a table represents
 * a map from keys to values under linear probing (`Indexed`), proves that
 * the single-slot updates of put, remove and lookup keep that
 * representation, and defines the rehash of `lum_hm_resize` as a function.
 */
module HashIndex {
  import opened Wrappers
  import opened BitOps

  type Byte = bv8
  type Bytes = seq<Byte>
  /** uint64_t */
  type Word = x: nat | x < U64
  /** The map's hash function, `lum_hash_func`. */
  type HashFn = Bytes -> Word

  datatype Status = Empty | Occupied | Deleted

  /** `lum_hm_entry`: key and value bytes, the stored hash and the status. */
  datatype Entry = Entry(key: Bytes, value: Bytes, hash: Word, status: Status)

  /** A slot of a freshly allocated entry array: status 0, nothing stored. */
  const Vacant: Entry := Entry([], [], 0, Empty)

  predicate Holds(e: Entry, k: Bytes)
  {
    e.status == Occupied && e.key == k
  }

  /** What `lum_hm_remove` leaves in a slot: status 2, key and value cleared, hash kept. */
  function Tombstone(e: Entry): (r: Entry)
    ensures r.status == Deleted && r.hash == e.hash
  {
    e.(key := [], value := [], status := Deleted)
  }

  // ---------------------------------------------------------------------
  // Linear probe positions

  /** The slot s steps after h on a linear probe, `(h + s) % n`. */
  function Linear(h: nat, s: nat, n: nat): (r: nat)
    requires h < n && s <= n
    ensures r < n
  {
    if h + s < n then h + s else h + s - n
  }

  /** `Linear` is the `% n` of the source's index arithmetic. */
  lemma LinearIsMod(h: nat, s: nat, n: nat)
    requires h < n && s <= n
    ensures Linear(h, s, n) == (h + s) % n
  {
    if h + s < n {
      DivModUnique(h + s, n, 0, h + s);
    } else {
      DivModUnique(h + s, n, 1, h + s - n);
    }
  }

  /** One more step of `index = (index + 1) % n`. */
  lemma StepLinear(h: nat, s: nat, n: nat)
    requires h < n && s < n
    ensures (Linear(h, s, n) + 1) % n == Linear(h, s + 1, n)
  {
    var x := Linear(h, s, n) + 1;
    if x < n {
      DivModUnique(x, n, 0, x);
    } else {
      DivModUnique(x, n, 1, 0);
    }
  }

  /** How many linear steps lead from slot h to slot j. */
  function Dist(h: nat, j: nat, n: nat): (d: nat)
    requires h < n && j < n
    ensures d < n && Linear(h, d, n) == j
  {
    if h <= j then j - h else j + n - h
  }

  lemma DistOfLinear(h: nat, s: nat, n: nat)
    requires h < n && s < n
    ensures Dist(h, Linear(h, s, n), n) == s
  {
  }

  // ---------------------------------------------------------------------
  // The representation invariant

  /** Home slot of an entry in a table of n slots. */
  function Home(e: Entry, n: nat): (r: nat)
    requires n >= 1
    ensures r < n
  {
    e.hash % n
  }

  /**
   * Occupied slot j holds a key of the map with its value and true hash,
   * and no slot on the linear probe from its home to j is empty.
   */
  ghost predicate Stored(t: seq<Entry>, hash: HashFn, m: map<Bytes, Bytes>, j: nat)
    requires j < |t|
  {
    var e := t[j];
    var h := Home(e, |t|);
    e.hash == hash(e.key) && e.key in m && m[e.key] == e.value &&
    forall s :: 0 <= s < Dist(h, j, |t|) ==> t[Linear(h, s, |t|)].status != Empty
  }

  /**
   * Table t represents map m: every occupied slot is `Stored`, no key is
   * occupied twice, and every key of m is occupied somewhere.
   */
  ghost predicate Indexed(t: seq<Entry>, hash: HashFn, m: map<Bytes, Bytes>)
  {
    |t| >= 1 &&
    (forall j :: 0 <= j < |t| && t[j].status == Occupied ==> Stored(t, hash, m, j)) &&
    (forall j1, j2 ::
       (0 <= j1 < |t| && 0 <= j2 < |t| && Holds(t[j1], t[j2].key) && t[j2].status == Occupied) ==> j1 == j2) &&
    (forall k :: k in m ==> exists j :: 0 <= j < |t| && Holds(t[j], k))
  }

  /**
   * A linear probe for k from its home that met neither k nor, before
   * step s, an empty slot, and then met an empty slot or went all the way
   * round, proves that k is not in the map.
   */
  lemma Missing(t: seq<Entry>, hash: HashFn, m: map<Bytes, Bytes>, k: Bytes, s: nat)
    requires Indexed(t, hash, m) && s <= |t|
    requires forall s' :: 0 <= s' < s ==> !Holds(t[Linear(hash(k) % |t|, s', |t|)], k)
    requires s == |t| || t[Linear(hash(k) % |t|, s, |t|)].status == Empty
    ensures k !in m
  {
    var n := |t|;
    var h := hash(k) % n;
    if k in m {
      var j :| 0 <= j < n && Holds(t[j], k);
      assert Stored(t, hash, m, j);
      var d := Dist(h, j, n);
      // Linear(h, d, n) == j, and the three cases of d against s each clash:
      if d < s {
        // the probe passed step d, which holds k, without seeing k
        assert false;
      } else if d == s {
        // step s is empty (or s == n, but d < n), yet slot j holds k
        assert false;
      } else {
        // Stored says no step before d is empty, and step s < d is empty
        assert false;
      }
    }
  }

  /** An occupied slot holding k gives k's value in the map. */
  lemma Present(t: seq<Entry>, hash: HashFn, m: map<Bytes, Bytes>, k: Bytes, j: nat)
    requires Indexed(t, hash, m) && j < |t| && Holds(t[j], k)
    ensures k in m && m[k] == t[j].value
  {
    assert Stored(t, hash, m, j);
  }

  /** Filling a free slot on k's probe path with k adds k to the map. */
  lemma InsertKeeps(t: seq<Entry>, hash: HashFn, m: map<Bytes, Bytes>, k: Bytes, v: Bytes, d: nat)
    requires Indexed(t, hash, m) && k !in m && d < |t|
    requires t[Linear(hash(k) % |t|, d, |t|)].status != Occupied
    requires forall s :: 0 <= s < d ==> t[Linear(hash(k) % |t|, s, |t|)].status != Empty
    ensures Indexed(t[Linear(hash(k) % |t|, d, |t|) := Entry(k, v, hash(k), Occupied)], hash, m[k := v])
  {
    var n := |t|;
    var h := hash(k) % n;
    var j := Linear(h, d, n);
    var e := Entry(k, v, hash(k), Occupied);
    var t' := t[j := e];
    var m' := m[k := v];
    forall i | 0 <= i < n && t'[i].status == Occupied
      ensures Stored(t', hash, m', i)
    {
      if i == j {
        DistOfLinear(h, d, n);
      } else {
        assert Stored(t, hash, m, i);
        var hi := Home(t[i], n);
        forall s | 0 <= s < Dist(hi, i, n)
          ensures t'[Linear(hi, s, n)].status != Empty
        {
          assert t[Linear(hi, s, n)].status != Empty;
        }
      }
    }
    forall k2 | k2 in m'
      ensures exists i :: 0 <= i < n && Holds(t'[i], k2)
    {
      if k2 == k {
        assert Holds(t'[j], k2);
      } else {
        var i :| 0 <= i < n && Holds(t[i], k2);
        assert Holds(t'[i], k2);
      }
    }
    forall i1, i2 | 0 <= i1 < n && 0 <= i2 < n && Holds(t'[i1], t'[i2].key) && t'[i2].status == Occupied
      ensures i1 == i2
    {
      if i1 != j && i2 != j {
        assert Holds(t[i1], t[i2].key);
      }
    }
  }

  /** Removing a key the map has shrinks it by one. */
  lemma RemoveCard(m: map<Bytes, Bytes>, k: Bytes)
    requires k in m
    ensures |m - {k}| == |m| - 1
  {
    assert (m - {k}).Keys == m.Keys - {k};
  }

  /** Removing a key the map does not have changes nothing. */
  lemma RemoveAbsent(m: map<Bytes, Bytes>, k: Bytes)
    requires k !in m
    ensures m - {k} == m
  {
  }

  /** Overwriting the value of the slot holding k updates k in the map. */
  lemma OverwriteKeeps(t: seq<Entry>, hash: HashFn, m: map<Bytes, Bytes>, k: Bytes, v: Bytes, j: nat)
    requires Indexed(t, hash, m) && j < |t| && Holds(t[j], k)
    ensures Indexed(t[j := t[j].(value := v)], hash, m[k := v])
  {
    var n := |t|;
    var t' := t[j := t[j].(value := v)];
    var m' := m[k := v];
    forall i | 0 <= i < n && t'[i].status == Occupied
      ensures Stored(t', hash, m', i)
    {
      assert Stored(t, hash, m, i);
      var hi := Home(t[i], n);
      forall s | 0 <= s < Dist(hi, i, n)
        ensures t'[Linear(hi, s, n)].status != Empty
      {
        assert t[Linear(hi, s, n)].status != Empty;
      }
      if i != j {
        assert t[i].key != k;
      }
    }
    forall k2 | k2 in m'
      ensures exists i :: 0 <= i < n && Holds(t'[i], k2)
    {
      var i :| 0 <= i < n && Holds(t[i], k2);
      assert Holds(t'[i], k2);
    }
    forall i1, i2 | 0 <= i1 < n && 0 <= i2 < n && Holds(t'[i1], t'[i2].key) && t'[i2].status == Occupied
      ensures i1 == i2
    {
      assert Holds(t[i1], t[i2].key);
    }
  }

  /**
   * Turning the slot holding k into a tombstone (status 2, key and value
   * cleared, hash kept) removes k from the map.
   */
  lemma RemoveKeeps(t: seq<Entry>, hash: HashFn, m: map<Bytes, Bytes>, k: Bytes, j: nat)
    requires Indexed(t, hash, m) && j < |t| && Holds(t[j], k)
    ensures Indexed(t[j := Tombstone(t[j])], hash, m - {k})
  {
    var n := |t|;
    var t' := t[j := Tombstone(t[j])];
    var m' := m - {k};
    forall i | 0 <= i < n && t'[i].status == Occupied
      ensures Stored(t', hash, m', i)
    {
      assert Stored(t, hash, m, i);
      assert t[i].key != k;
      var hi := Home(t[i], n);
      forall s | 0 <= s < Dist(hi, i, n)
        ensures t'[Linear(hi, s, n)].status != Empty
      {
        assert t[Linear(hi, s, n)].status != Empty;
      }
    }
    forall k2 | k2 in m'
      ensures exists i :: 0 <= i < n && Holds(t'[i], k2)
    {
      var i :| 0 <= i < n && Holds(t[i], k2);
      assert Holds(t'[i], k2);
    }
    forall i1, i2 | 0 <= i1 < n && 0 <= i2 < n && Holds(t'[i1], t'[i2].key) && t'[i2].status == Occupied
      ensures i1 == i2
    {
      assert Holds(t[i1], t[i2].key);
    }
  }

  // ---------------------------------------------------------------------
  // Live entries

  /** The occupied entries of a table, with multiplicity. */
  function LiveEntries(t: seq<Entry>): (r: multiset<Entry>)
    ensures |r| <= |t|
  {
    if |t| == 0 then multiset{}
    else (if t[0].status == Occupied then multiset{t[0]} else multiset{}) + LiveEntries(t[1..])
  }

  /** Filling a free slot adds exactly that entry to the live ones. */
  lemma {:induction false} LiveFill(u: seq<Entry>, j: nat, e: Entry)
    requires j < |u| && u[j].status != Occupied && e.status == Occupied
    ensures LiveEntries(u[j := e]) == LiveEntries(u) + multiset{e}
    decreases |u|
  {
    if j > 0 {
      assert u[j := e][1..] == u[1..][j - 1 := e];
      LiveFill(u[1..], j - 1, e);
    } else {
      assert u[j := e][1..] == u[1..];
    }
  }

  /** 1 for an occupied entry, 0 otherwise. */
  function Live(e: Entry): (r: nat)
    ensures r <= 1
  {
    if e.status == Occupied then 1 else 0
  }

  /** Writing slot j trades the old entry's liveness for the new one's. */
  lemma {:induction false} LiveCount(u: seq<Entry>, j: nat, e: Entry)
    requires j < |u|
    ensures |LiveEntries(u[j := e])| + Live(u[j]) == |LiveEntries(u)| + Live(e)
    decreases |u|
  {
    if j > 0 {
      assert u[j := e][1..] == u[1..][j - 1 := e];
      LiveCount(u[1..], j - 1, e);
    } else {
      assert u[j := e][1..] == u[1..];
    }
  }

  /** A table whose every slot is occupied has as many live entries as slots. */
  lemma {:induction false} LiveFull(u: seq<Entry>)
    requires forall j :: 0 <= j < |u| ==> u[j].status == Occupied
    ensures |LiveEntries(u)| == |u|
  {
    if |u| > 0 {
      LiveFull(u[1..]);
    }
  }

  // ---------------------------------------------------------------------
  // lum_hm_resize

  /**
   * Distance from home slot h, at or after step s, of the first slot that
   * is not occupied; None if every slot from step s on is occupied.
   */
  function Place(u: seq<Entry>, h: nat, s: nat): (r: Option<nat>)
    requires h < |u| && s <= |u|
    ensures r.Some? ==> s <= r.value < |u| && u[Linear(h, r.value, |u|)].status != Occupied &&
                        forall s' :: s <= s' < r.value ==> u[Linear(h, s', |u|)].status == Occupied
    ensures r.None? ==> forall s' :: s <= s' < |u| ==> u[Linear(h, s', |u|)].status == Occupied
    decreases |u| - s
  {
    if s == |u| then None
    else if u[Linear(h, s, |u|)].status != Occupied then Some(s)
    else Place(u, h, s + 1)
  }

  /** With fewer live entries than slots, a probe finds a free slot. */
  lemma PlaceFinds(u: seq<Entry>, h: nat)
    requires h < |u| && |LiveEntries(u)| < |u|
    ensures Place(u, h, 0).Some?
  {
    if Place(u, h, 0).None? {
      forall j | 0 <= j < |u|
        ensures u[j].status == Occupied
      {
        assert u[Linear(h, Dist(h, j, |u|), |u|)].status == Occupied;
      }
      LiveFull(u);
      assert false;
    }
  }

  /**
   * Moves the occupied entries of t from index i on into u, each to the
   * first non-occupied slot of a linear probe from `hash % |u|`, as the
   * rehash loop of `lum_hm_resize` does; tombstones are dropped.
   */
  function RehashFrom(t: seq<Entry>, i: nat, u: seq<Entry>): (r: seq<Entry>)
    requires i <= |t| && |u| >= 1
    ensures |r| == |u|
    decreases |t| - i
  {
    if i == |t| then u
    else if t[i].status != Occupied then RehashFrom(t, i + 1, u)
    else
      var h := Home(t[i], |u|);
      match Place(u, h, 0)
      case None => RehashFrom(t, i + 1, u)
      case Some(d) => RehashFrom(t, i + 1, u[Linear(h, d, |u|) := t[i]])
  }

  /** The entry array `lum_hm_resize` builds: n vacant slots, then the rehash. */
  function Rehash(t: seq<Entry>, n: nat): (r: seq<Entry>)
    requires n >= 1
    ensures |r| == n
  {
    RehashFrom(t, 0, seq(n, _ => Vacant))
  }

  /**
   * Into a table with room, the rehash moves every occupied entry exactly
   * once and nothing else.
   */
  lemma {:induction false} RehashMoves(t: seq<Entry>, i: nat, u: seq<Entry>)
    requires i <= |t| < |u| && |LiveEntries(u)| <= i
    ensures LiveEntries(RehashFrom(t, i, u)) == LiveEntries(u) + LiveEntries(t[i..])
    decreases |t| - i
  {
    if i < |t| {
      var u' := MoveOne(t, i, u);
      RehashMoves(t, i + 1, u');
    } else {
      assert t[i..] == [];
    }
  }

  /** One step of the rehash: slot i of t is moved into u, or skipped. */
  lemma MoveOne(t: seq<Entry>, i: nat, u: seq<Entry>) returns (u': seq<Entry>)
    requires i < |t| < |u| && |LiveEntries(u)| <= i
    ensures |u'| == |u| && RehashFrom(t, i, u) == RehashFrom(t, i + 1, u')
    ensures LiveEntries(u') + LiveEntries(t[i + 1..]) == LiveEntries(u) + LiveEntries(t[i..])
    ensures |LiveEntries(u')| <= i + 1
  {
    assert t[i..][1..] == t[i + 1..];
    if t[i].status == Occupied {
      var h := Home(t[i], |u|);
      PlaceFinds(u, h);
      var d := Place(u, h, 0).value;
      LiveFill(u, Linear(h, d, |u|), t[i]);
      u' := u[Linear(h, d, |u|) := t[i]];
    } else {
      u' := u;
    }
  }

  /** Every occupied entry of t is moved: live entries are preserved. */
  lemma RehashKeepsLive(t: seq<Entry>, n: nat)
    requires |t| < n
    ensures LiveEntries(Rehash(t, n)) == LiveEntries(t)
  {
    var u := seq(n, _ => Vacant);
    assert LiveEntries(u) == multiset{} by {
      EmptyTableNoLive(u);
    }
    RehashMoves(t, 0, u);
    assert t[0..] == t;
  }

  lemma {:induction false} EmptyTableNoLive(u: seq<Entry>)
    requires forall j :: 0 <= j < |u| ==> u[j].status == Empty
    ensures LiveEntries(u) == multiset{}
  {
    if |u| > 0 {
      EmptyTableNoLive(u[1..]);
    }
  }

  /** An all-vacant table represents the empty map. */
  lemma VacantIndexed(u: seq<Entry>, hash: HashFn)
    requires |u| >= 1 && forall j :: 0 <= j < |u| ==> u[j].status == Empty
    ensures Indexed(u, hash, map[])
  {
  }

  /** Some slot before index i holds k. */
  ghost predicate HeldBefore(t: seq<Entry>, k: Bytes, i: nat)
    requires i <= |t|
  {
    exists j :: 0 <= j < i && Holds(t[j], k)
  }

  /** Slots before i + 1 hold k exactly when slots before i or slot i do. */
  lemma HeldNext(t: seq<Entry>, k: Bytes, i: nat)
    requires i < |t|
    ensures HeldBefore(t, k, i + 1) <==> HeldBefore(t, k, i) || Holds(t[i], k)
  {
    if HeldBefore(t, k, i + 1) && !Holds(t[i], k) {
      var j :| 0 <= j < i + 1 && Holds(t[j], k);
      assert HeldBefore(t, k, i);
    }
    if Holds(t[i], k) {
      assert HeldBefore(t, k, i + 1);
    }
    if HeldBefore(t, k, i) {
      var j :| 0 <= j < i && Holds(t[j], k);
      assert HeldBefore(t, k, i + 1);
    }
  }

  /** Once every slot of t has been passed, u holds all the keys of t's map. */
  lemma RehashComplete(t: seq<Entry>, hash: HashFn, m: map<Bytes, Bytes>, mu: map<Bytes, Bytes>)
    requires Indexed(t, hash, m)
    requires forall k :: k in mu ==> k in m && mu[k] == m[k]
    requires forall k :: k in m ==> (k in mu <==> HeldBefore(t, k, |t|))
    ensures mu == m
  {
    forall k | k in m
      ensures k in mu
    {
      var j :| 0 <= j < |t| && Holds(t[j], k);
      assert HeldBefore(t, k, |t|);
    }
  }

  /** The key of occupied slot i is not held before i, so u does not have it yet. */
  lemma RehashFresh(t: seq<Entry>, i: nat, hash: HashFn, m: map<Bytes, Bytes>, mu: map<Bytes, Bytes>)
    requires Indexed(t, hash, m) && i < |t| && t[i].status == Occupied
    requires forall k :: k in m ==> (k in mu <==> HeldBefore(t, k, i))
    ensures t[i].key in m && t[i].key !in mu && m[t[i].key] == t[i].value
    ensures t[i].hash == hash(t[i].key)
  {
    assert Stored(t, hash, m, i);
  }

  /**
   * The rehash of an indexed table into a larger one represents the same
   * map: u, which holds the keys of t before index i, ends up holding all
   * of them.
   */
  lemma {:induction false} RehashIndexedFrom(t: seq<Entry>, i: nat, u: seq<Entry>,
                                             hash: HashFn, m: map<Bytes, Bytes>, mu: map<Bytes, Bytes>)
    requires Indexed(t, hash, m) && i <= |t| < |u| && |LiveEntries(u)| <= i
    requires Indexed(u, hash, mu)
    requires forall k :: k in mu ==> k in m && mu[k] == m[k]
    requires forall k :: k in m ==> (k in mu <==> HeldBefore(t, k, i))
    ensures Indexed(RehashFrom(t, i, u), hash, m)
    decreases |t| - i
  {
    if i == |t| {
      RehashComplete(t, hash, m, mu);
    } else if t[i].status != Occupied {
      HeldAll(t, i, m, mu, mu);
      assert RehashFrom(t, i, u) == RehashFrom(t, i + 1, u);
      RehashIndexedFrom(t, i + 1, u, hash, m, mu);
    } else {
      RehashFresh(t, i, hash, m, mu);
      var u', mu' := IndexOne(t, i, u, hash, m, mu);
      RehashIndexedFrom(t, i + 1, u', hash, m, mu');
    }
  }

  /**
   * Moving occupied slot i of t keeps u indexed for the part of t's map
   * held before the next slot.
   */
  lemma IndexOne(t: seq<Entry>, i: nat, u: seq<Entry>,
                 hash: HashFn, m: map<Bytes, Bytes>, mu: map<Bytes, Bytes>)
      returns (u': seq<Entry>, mu': map<Bytes, Bytes>)
    requires i < |t| < |u| && |LiveEntries(u)| <= i
    requires t[i].status == Occupied && t[i].hash == hash(t[i].key)
    requires t[i].key in m && t[i].key !in mu && m[t[i].key] == t[i].value
    requires Indexed(u, hash, mu)
    requires forall k :: k in mu ==> k in m && mu[k] == m[k]
    requires forall k :: k in m ==> (k in mu <==> HeldBefore(t, k, i))
    ensures |u'| == |u| && RehashFrom(t, i, u) == RehashFrom(t, i + 1, u')
    ensures |LiveEntries(u')| <= i + 1 && Indexed(u', hash, mu')
    ensures forall k :: k in mu' ==> k in m && mu'[k] == m[k]
    ensures forall k :: k in m ==> (k in mu' <==> HeldBefore(t, k, i + 1))
  {
    var e := t[i];
    var h := Home(e, |u|);
    PlaceFinds(u, h);
    var d := Place(u, h, 0).value;
    InsertKeeps(u, hash, mu, e.key, e.value, d);
    LiveFill(u, Linear(h, d, |u|), e);
    u', mu' := u[Linear(h, d, |u|) := e], mu[e.key := e.value];
    HeldAll(t, i, m, mu, mu');
  }

  /** Adding the key of slot i to the held keys gives the keys held before i + 1. */
  lemma HeldAll(t: seq<Entry>, i: nat, m: map<Bytes, Bytes>, mu: map<Bytes, Bytes>, mu': map<Bytes, Bytes>)
    requires i < |t|
    requires forall k :: k in m ==> (k in mu <==> HeldBefore(t, k, i))
    requires forall k :: k in m ==> (k in mu' <==> k in mu || Holds(t[i], k))
    ensures forall k :: k in m ==> (k in mu' <==> HeldBefore(t, k, i + 1))
  {
    forall k | k in m
      ensures k in mu' <==> HeldBefore(t, k, i + 1)
    {
      HeldNext(t, k, i);
    }
  }

  /** The rehash of an indexed table into a larger one represents the same map. */
  lemma RehashIndexed(t: seq<Entry>, n: nat, hash: HashFn, m: map<Bytes, Bytes>)
    requires Indexed(t, hash, m) && |t| < n
    ensures Indexed(Rehash(t, n), hash, m)
  {
    var u := seq(n, _ => Vacant);
    VacantIndexed(u, hash);
    EmptyTableNoLive(u);
    RehashIndexedFrom(t, 0, u, hash, m, map[]);
  }
}

=== FILE: hash_table.dfy ===
/**
 * The open-addressing hash map `lum_hm` of containers/cont_hm.h and
 * containers/cont_hm.c.
 *
 * Keys and values are byte strings; a null key or output pointer is `None`.
 * Put and get of the source probe quadratically (`index = (index + i*i) %
 * capacity`) while remove and the rehash of resize probe linearly, so the
 * map as written loses track of keys.  `PutAsWritten` and `GetAsWritten`
 * model the source's probes; `Put` and `Get` probe linearly, as the
 * commented-out lines of the source do, and are proved to implement a
 * dictionary, kept in the ghost field `Contents`.
 *
 * A loop of the source that never exits (the probe meets neither an exit
 * slot nor, for remove, an empty one) is reported by a `spins` result; the
 * model then returns with nothing changed.  For the quadratic walk, capacity²
 * steps are enough: its state is the pair (index, i mod capacity), so a walk
 * still passing after that many steps has repeated a state and never stops.
 */
module HashTable {
  import opened Wrappers
  import opened BitOps
  import opened HashIndex

  /** Capacity `lum_hm_create` uses when asked for 0. */
  const DefaultCapacity: nat := 16

  /** Which loop of the source walks the table: put's, or get's and remove's. */
  datatype Walk = Insert | Lookup

  /**
   * Whether the walk for key k moves on past entry e: put passes occupied
   * slots holding other keys, get and remove pass every non-empty slot
   * that does not hold k.
   */
  predicate Passes(e: Entry, k: Bytes, w: Walk)
  {
    match w
    case Insert => e.status == Occupied && e.key != k
    case Lookup => e.status != Empty && !Holds(e, k)
  }

  /**
   * The slot where the quadratic probe of put or get stops, starting at
   * `index` on step i with `fuel` more steps allowed; None if it has not
   * stopped when the fuel runs out.
   */
  function QuadStop(t: seq<Entry>, k: Bytes, w: Walk, index: nat, i: nat, fuel: nat): (r: Option<nat>)
    requires index < |t|
    ensures r.Some? ==> r.value < |t| && !Passes(t[r.value], k, w)
    ensures r.None? ==> Passes(t[index], k, w)
    decreases fuel
  {
    if !Passes(t[index], k, w) then Some(index)
    else if fuel == 0 then None
    else QuadStop(t, k, w, (index + i * i) % |t|, i + 1, fuel - 1)
  }

  /**
   * The step, counted from home slot h, at which the linear probe of
   * remove for k stops (an empty slot or the slot holding k), at or after
   * step s; None if it passes every slot.
   */
  function LinearStop(t: seq<Entry>, k: Bytes, h: nat, s: nat): (r: Option<nat>)
    requires h < |t| && s <= |t|
    ensures r.Some? ==> s <= r.value < |t| && !Passes(t[Linear(h, r.value, |t|)], k, Lookup)
    ensures r.Some? ==> forall s' :: s <= s' < r.value ==> Passes(t[Linear(h, s', |t|)], k, Lookup)
    ensures r.None? ==> forall s' :: s <= s' < |t| ==> Passes(t[Linear(h, s', |t|)], k, Lookup)
    decreases |t| - s
  {
    if s == |t| then None
    else if !Passes(t[Linear(h, s, |t|)], k, Lookup) then Some(s)
    else LinearStop(t, k, h, s + 1)
  }

  /**
   * The capacity after an insertion brought the count to c: doubled (in
   * size_t) when c exceeds three quarters of it, if `lum_hm_resize` goes
   * ahead (the doubled capacity is larger and its entries are allocated).
   */
  function GrownCapacity(c: nat, n: nat, granted: bool): (r: nat)
    ensures r == n || (r == (2 * n) % U64 && r > n && 4 * c > 3 * n)
    ensures r != n <==> 4 * c > 3 * n && (2 * n) % U64 > n && granted
  {
    var m := (2 * n) % U64;
    if 4 * c > 3 * n && m > n && granted then m else n
  }

  /**
   * The status-clearing loop of `lum_hm_create` and `lum_hm_resize`: a
   * fresh array of n empty slots.
   */
  method EmptyEntries(n: nat) returns (a: array<Entry>)
    ensures fresh(a) && a[..] == seq(n, _ => Vacant)
  {
    a := new Entry[n];
    var i: nat := 0;
    while i < n
      invariant i <= n
      invariant forall j :: 0 <= j < i ==> a[j] == Vacant
    {
      a[i] := Vacant;
      i := i + 1;
    }
    assert a[..] == seq(n, _ => Vacant);
  }

  /**
   * The probe loop of `lum_hm_resize`: from slot h, step linearly past
   * occupied slots; with fewer live entries than slots it stops at the
   * first slot that is not occupied.
   */
  method FreeSlot(table: array<Entry>, h: nat) returns (index: nat)
    requires h < table.Length && |LiveEntries(table[..])| < table.Length
    ensures Place(table[..], h, 0).Some?
    ensures index == Linear(h, Place(table[..], h, 0).value, table.Length)
  {
    var n := table.Length;
    ghost var u := table[..];
    PlaceFinds(u, h);
    index := h;
    ghost var s: nat := 0;
    while table[index].status == Occupied
      invariant s < n && index == Linear(h, s, n)
      invariant Place(u, h, 0) == Place(u, h, s)
      decreases n - s
    {
      StepLinear(h, s, n);
      index := (index + 1) % n;
      s := s + 1;
    }
  }

  /**
   * The probe loop of `lum_hm_remove`: from slot h, step linearly until an
   * empty slot or the slot holding k.  Where the source would go round for
   * ever, the result is None.
   */
  method LinearProbe(table: array<Entry>, k: Bytes, h: nat) returns (stop: Option<nat>)
    requires h < table.Length
    ensures stop == LinearStop(table[..], k, h, 0)
  {
    var n := table.Length;
    var index: nat := h;
    var s: nat := 0;
    while table[index].status != Empty
      invariant s < n && index == Linear(h, s, n)
      invariant LinearStop(table[..], k, h, 0) == LinearStop(table[..], k, h, s)
      decreases n - s
    {
      if table[index].status == Occupied && table[index].key == k {
        return Some(s);
      }
      if s + 1 == n {
        return None;
      }
      StepLinear(h, s, n);
      index := (index + 1) % n;
      s := s + 1;
    }
    return Some(s);
  }

  /**
   * The loops of `lum_hm_resize`: every occupied entry of src moves into a
   * fresh array of n empty slots, at the first free slot of a linear probe
   * from `hash % n`.
   */
  method RehashInto(src: array<Entry>, n: nat) returns (table: array<Entry>)
    requires src.Length < n
    ensures fresh(table) && table[..] == Rehash(src[..], n)
  {
    ghost var t := src[..];
    table := EmptyEntries(n);
    EmptyTableNoLive(table[..]);
    var i: nat := 0;
    while i < src.Length
      invariant i <= src.Length && fresh(table)
      invariant RehashFrom(t, i, table[..]) == Rehash(t, n)
      invariant |LiveEntries(table[..])| <= i
    {
      if src[i].status == Occupied {
        ghost var u := table[..];
        var index := FreeSlot(table, src[i].hash % n);
        LiveFill(u, index, src[i]);
        table[index] := src[i];
        assert RehashFrom(t, i, u) == RehashFrom(t, i + 1, table[..]);
      } else {
        assert RehashFrom(t, i, table[..]) == RehashFrom(t, i + 1, table[..]);
      }
      i := i + 1;
    }
  }

  /**
   * Under linear probing the remove probe for k decides membership: it
   * goes round only for a missing key, and it stops at an occupied slot
   * exactly when the key is present, that slot holding its value.
   */
  lemma LookupFacts(t: seq<Entry>, hash: HashFn, m: map<Bytes, Bytes>, k: Bytes)
    requires Indexed(t, hash, m)
    ensures var h := hash(k) % |t|;
            match LinearStop(t, k, h, 0)
            case None => k !in m
            case Some(d) =>
              var j := Linear(h, d, |t|);
              (k in m <==> t[j].status == Occupied) && (k in m ==> Holds(t[j], k) && m[k] == t[j].value)
  {
    var n := |t|;
    var h := hash(k) % n;
    match LinearStop(t, k, h, 0)
    case None =>
      Missing(t, hash, m, k, n);
    case Some(d) =>
      var j := Linear(h, d, n);
      if t[j].status == Occupied {
        Present(t, hash, m, k, j);
      } else {
        Missing(t, hash, m, k, d);
      }
  }

  /**
   * For a missing key, the first free slot of its linear probe lies at or
   * before the probe's stop, so the entry placed there can be found.
   */
  lemma PlaceFacts(t: seq<Entry>, hash: HashFn, m: map<Bytes, Bytes>, k: Bytes, v: Bytes)
    requires Indexed(t, hash, m) && k !in m
    requires Place(t, hash(k) % |t|, 0).Some?
    ensures Indexed(t[Linear(hash(k) % |t|, Place(t, hash(k) % |t|, 0).value, |t|) := Entry(k, v, hash(k), Occupied)],
                    hash, m[k := v])
  {
    var n := |t|;
    var h := hash(k) % n;
    var d := Place(t, h, 0).value;
    forall s | 0 <= s < d
      ensures t[Linear(h, s, n)].status != Empty
    {
      assert t[Linear(h, s, n)].status == Occupied;
    }
    InsertKeeps(t, hash, m, k, v, d);
  }

  class HashMap {
    /** The slot array, `capacity` entries long. */
    var entries: array<Entry>
    var capacity: nat
    /** Number of occupied slots. */
    var count: nat
    const hashFunc: HashFn
    /** The dictionary the table represents. */
    ghost var Contents: map<Bytes, Bytes>

    /** What every operation of the source keeps: `count` counts the occupied slots. */
    ghost predicate WellFormed()
      reads this, entries
    {
      entries.Length == capacity && 1 <= capacity < U64 && count == |LiveEntries(entries[..])|
    }

    /** Under linear probing, the table represents `Contents`. */
    ghost predicate Valid()
      reads this, entries
    {
      WellFormed() && Indexed(entries[..], hashFunc, Contents) && count == |Contents|
    }

    /** The map `lum_hm_create` sets up: every slot empty. */
    constructor (capacity: nat, hashFunc: HashFn)
      requires 1 <= capacity < U64
      ensures Valid() && fresh(entries)
      ensures this.capacity == capacity && this.hashFunc == hashFunc
      ensures count == 0 && Contents == map[]
      ensures forall j :: 0 <= j < capacity ==> entries[j] == Vacant
    {
      var a := EmptyEntries(capacity);
      entries := a;
      this.capacity := capacity;
      this.hashFunc := hashFunc;
      count := 0;
      Contents := map[];
      new;
      VacantIndexed(entries[..], hashFunc);
      EmptyTableNoLive(entries[..]);
    }

    /**
     * `lum_hm_resize`: a capacity that is not larger, or a failed
     * allocation, leaves the map as it is; otherwise every occupied entry
     * moves, by linear probing from `hash % newCapacity`, into a fresh
     * array of empty slots, and tombstones are dropped.
     */
    method Resize(newCapacity: nat, granted: bool)
      requires WellFormed() && newCapacity < U64
      modifies this
      ensures WellFormed() && count == old(count) && Contents == old(Contents)
      ensures if newCapacity <= old(capacity) || !granted then
                entries == old(entries) && capacity == old(capacity)
              else
                fresh(entries) && capacity == newCapacity &&
                entries[..] == Rehash(old(entries[..]), newCapacity)
      ensures LiveEntries(entries[..]) == LiveEntries(old(entries[..]))
      ensures old(Valid()) ==> Valid()
    {
      if newCapacity <= capacity || !granted {
        return;
      }
      ghost var t := entries[..];
      var table := RehashInto(entries, newCapacity);
      ghost var wasValid := Valid();
      entries := table;
      capacity := newCapacity;
      RehashKeepsLive(t, newCapacity);
      if wasValid {
        RehashIndexed(t, newCapacity, hashFunc, Contents);
      }
    }

    /**
     * `lum_hm_get` as written: the quadratic probe from `hash % capacity`
     * stops at an empty slot (not found) or at the slot holding the key.
     */
    method GetAsWritten(key: Option<Bytes>, hasOut: bool) returns (r: Option<Bytes>, spins: bool)
      requires WellFormed()
      ensures key.None? || !hasOut ==> r == None && !spins
      ensures key.Some? && hasOut ==>
                var k := key.value;
                match QuadStop(entries[..], k, Lookup, hashFunc(k) % capacity, 0, capacity * capacity)
                case None => spins && r == None
                case Some(j) =>
                  !spins && r == if entries[j].status == Occupied then Some(entries[j].value) else None
    {
      if key.None? || !hasOut {
        return None, false;
      }
      var k := key.value;
      var n := capacity;
      var hash := hashFunc(k);
      var fuel: nat := n * n;
      var index: nat := hash % n;
      var i: nat := 0;
      while entries[index].status != Empty
        invariant index < n && i <= fuel
        invariant QuadStop(entries[..], k, Lookup, hash % n, 0, fuel) ==
                  QuadStop(entries[..], k, Lookup, index, i, fuel - i)
        decreases fuel - i
      {
        if entries[index].status == Occupied && entries[index].key == k {
          return Some(entries[index].value), false;
        }
        if i == fuel {
          return None, true;
        }
        index := (index + i * i) % n;
        i := i + 1;
      }
      return None, false;
    }

    /**
     * `lum_hm_put` as written: the quadratic probe from `hash % capacity`
     * stops at the first slot that is not occupied, or at an occupied slot
     * holding the key, whose value is overwritten.  A new entry raises the
     * count, and a count above three quarters of the capacity asks for
     * twice the capacity.
     */
    method PutAsWritten(key: Option<Bytes>, value: Bytes, granted: bool) returns (spins: bool)
      requires WellFormed()
      modifies this, entries
      ensures WellFormed() && Contents == old(Contents)
      ensures entries == old(entries) || fresh(entries)
      ensures key.None? ==>
                !spins && entries[..] == old(entries[..]) && capacity == old(capacity) && count == old(count)
      ensures key.Some? ==>
                var k := key.value;
                var t := old(entries[..]);
                var n := old(capacity);
                match QuadStop(t, k, Insert, hashFunc(k) % n, 0, n * n)
                case None => spins && entries[..] == t && capacity == n && count == old(count)
                case Some(j) =>
                  !spins &&
                  if t[j].status == Occupied then
                    entries[..] == t[j := t[j].(value := value)] && capacity == n && count == old(count)
                  else
                    var t1 := t[j := Entry(k, value, hashFunc(k), Occupied)];
                    var n1 := GrownCapacity(old(count) + 1, n, granted);
                    count == old(count) + 1 && capacity == n1 &&
                    entries[..] == if n1 == n then t1 else Rehash(t1, n1)
    {
      if key.None? {
        return false;
      }
      var k := key.value;
      var n := capacity;
      var hash := hashFunc(k);
      ghost var t := entries[..];
      var fuel: nat := n * n;
      var index: nat := hash % n;
      var i: nat := 0;
      while entries[index].status == Occupied
        invariant index < n && i <= fuel
        invariant entries[..] == t && unchanged(this)
        invariant QuadStop(t, k, Insert, hash % n, 0, fuel) == QuadStop(t, k, Insert, index, i, fuel - i)
        decreases fuel - i
      {
        if entries[index].key == k {
          LiveCount(t, index, t[index].(value := value));
          entries[index] := entries[index].(value := value);
          return false;
        }
        if i == fuel {
          return true;
        }
        index := (index + i * i) % n;
        i := i + 1;
      }
      StoreAt(index, Entry(k, value, hash, Occupied), granted);
      return false;
    }

    /**
     * The storing step of `lum_hm_put` as written: entry e goes into the
     * slot j the probe stopped at, the count grows by one, and the table
     * doubles once it is more than three-quarters full.
     */
    method StoreAt(j: nat, e: Entry, granted: bool)
      requires WellFormed() && j < capacity && entries[j].status != Occupied && e.status == Occupied
      modifies this, entries
      ensures WellFormed() && Contents == old(Contents) && count == old(count) + 1
      ensures entries == old(entries) || fresh(entries)
      ensures var t1 := old(entries[..])[j := e];
              var n1 := GrownCapacity(old(count) + 1, old(capacity), granted);
              capacity == n1 && entries[..] == if n1 == old(capacity) then t1 else Rehash(t1, n1)
    {
      LiveCount(entries[..], j, e);
      entries[j] := e;
      count := count + 1;
      if 4 * count > 3 * capacity {
        Resize((2 * capacity) % U64, granted);
      }
    }

    /**
     * The removal step of `lum_hm_remove`: occupied slot j becomes a
     * tombstone and the count drops; its key leaves the dictionary.
     */
    method MarkDeleted(j: nat)
      requires WellFormed() && j < capacity && entries[j].status == Occupied
      modifies this, entries
      ensures WellFormed() && entries == old(entries) && capacity == old(capacity)
      ensures entries[..] == old(entries[..])[j := Tombstone(old(entries[j]))] && count == old(count) - 1
      ensures Contents == old(Contents) - {old(entries[j]).key}
      ensures old(Valid()) ==> Valid()
    {
      ghost var t := entries[..];
      ghost var m := Contents;
      ghost var k := entries[j].key;
      ghost var wasValid := Valid();
      LiveCount(t, j, Tombstone(t[j]));
      entries[j] := Tombstone(entries[j]);
      count := count - 1;
      Contents := Contents - {k};
      if wasValid {
        Present(t, hashFunc, m, k, j);
        RemoveKeeps(t, hashFunc, m, k, j);
        RemoveCard(m, k);
      }
    }

    /**
     * `lum_hm_remove` as written: the linear probe from `hash % capacity`
     * stops at an empty slot (nothing to remove) or at the slot holding the
     * key, which becomes a tombstone; it goes round for ever when neither
     * comes.  On a table that represents a dictionary the key leaves it.
     */
    method RemoveAsWritten(key: Option<Bytes>) returns (spins: bool)
      requires WellFormed()
      modifies this, entries
      ensures WellFormed() && entries == old(entries) && capacity == old(capacity)
      ensures key.None? ==>
                !spins && entries[..] == old(entries[..]) && count == old(count) && Contents == old(Contents)
      ensures key.Some? ==>
                var k := key.value;
                var t := old(entries[..]);
                var h := hashFunc(k) % capacity;
                match LinearStop(t, k, h, 0)
                case None => spins && entries[..] == t && count == old(count) && Contents == old(Contents)
                case Some(d) =>
                  var j := Linear(h, d, capacity);
                  !spins &&
                  if t[j].status == Occupied then
                    entries[..] == t[j := Tombstone(t[j])] && count == old(count) - 1 &&
                    Contents == old(Contents) - {k}
                  else
                    entries[..] == t && count == old(count) && Contents == old(Contents)
      ensures old(Valid()) ==> Valid() && (key.Some? ==> Contents == old(Contents) - {key.value})
    {
      if key.None? {
        return false;
      }
      var k := key.value;
      var h: nat := hashFunc(k) % capacity;
      ghost var wasValid := Valid();
      if wasValid {
        LookupFacts(entries[..], hashFunc, Contents, k);
      }
      var stop := LinearProbe(entries, k, h);
      if stop.None? {
        if wasValid {
          RemoveAbsent(Contents, k);
        }
        return true;
      }
      var j := Linear(h, stop.value, capacity);
      if entries[j].status == Occupied {
        MarkDeleted(j);
      } else if wasValid {
        RemoveAbsent(Contents, k);
      }
      return false;
    }

    /**
     * The linear probe from `hash % capacity` that get, put and remove
     * share: it yields the slot holding k exactly when the dictionary has k.
     */
    method Find(k: Bytes) returns (slot: Option<nat>)
      requires Valid()
      ensures slot.Some? <==> k in Contents
      ensures slot.Some? ==> slot.value < capacity && Holds(entries[slot.value], k) &&
                             Contents[k] == entries[slot.value].value
    {
      var h: nat := hashFunc(k) % capacity;
      LookupFacts(entries[..], hashFunc, Contents, k);
      var stop := LinearProbe(entries, k, h);
      if stop.None? {
        return None;
      }
      var j := Linear(h, stop.value, capacity);
      if entries[j].status == Occupied {
        return Some(j);
      }
      return None;
    }

    /**
     * The insertion path of `lum_hm_put` for a key the dictionary lacks:
     * the key goes to the first free slot of its probe sequence, and the
     * table doubles once it is more than three-quarters full.
     */
    method AddNew(k: Bytes, v: Bytes, granted: bool)
      requires Valid() && k !in Contents && count < capacity
      modifies this, entries
      ensures Valid() && (entries == old(entries) || fresh(entries))
      ensures Contents == old(Contents)[k := v] && count == old(count) + 1
      ensures capacity == GrownCapacity(old(count) + 1, old(capacity), granted)
    {
      var j := FreeSlot(entries, hashFunc(k) % capacity);
      InsertAt(j, k, v);
      if 4 * count > 3 * capacity {
        Resize((2 * capacity) % U64, granted);
      }
    }

    /**
     * `lum_hm_get` with linear probing: the value of the key in the
     * dictionary, if it has one; a probe that goes all the way round
     * stops, so a table without empty slots is answered too.
     */
    method Get(key: Option<Bytes>, hasOut: bool) returns (r: Option<Bytes>)
      requires Valid()
      ensures r == if key.Some? && hasOut && key.value in Contents then Some(Contents[key.value]) else None
    {
      if key.None? || !hasOut {
        return None;
      }
      var slot := Find(key.value);
      if slot.None? {
        return None;
      }
      return Some(entries[slot.value].value);
    }

    /**
     * `lum_hm_remove` with a probe that stops after passing every slot:
     * the key leaves the dictionary, and the count drops when it was there.
     */
    method Remove(key: Option<Bytes>)
      requires Valid()
      modifies this, entries
      ensures Valid() && entries == old(entries) && capacity == old(capacity)
      ensures Contents == if key.Some? then old(Contents) - {key.value} else old(Contents)
      ensures count == if key.Some? && key.value in old(Contents) then old(count) - 1 else old(count)
    {
      if key.None? {
        return;
      }
      var slot := Find(key.value);
      if slot.Some? {
        MarkDeleted(slot.value);
      } else {
        RemoveAbsent(Contents, key.value);
      }
    }

    /**
     * The overwrite step of `lum_hm_put`: occupied slot j gets value v,
     * and its key maps to v in the dictionary.
     */
    method Overwrite(j: nat, v: Bytes)
      requires WellFormed() && j < capacity && entries[j].status == Occupied
      modifies entries, `Contents
      ensures WellFormed() && count == old(count)
      ensures entries[..] == old(entries[..])[j := old(entries[j]).(value := v)]
      ensures Contents == old(Contents)[old(entries[j]).key := v]
      ensures old(Valid()) ==> Valid()
    {
      ghost var t := entries[..];
      ghost var m := Contents;
      ghost var k := entries[j].key;
      ghost var wasValid := Valid();
      LiveCount(t, j, t[j].(value := v));
      entries[j] := entries[j].(value := v);
      Contents := Contents[k := v];
      if wasValid {
        Present(t, hashFunc, m, k, j);
        OverwriteKeeps(t, hashFunc, m, k, v, j);
      }
    }

    /**
     * The insertion step of `lum_hm_put`: a key the dictionary lacks is
     * stored in the first free slot of its probe sequence, and the count
     * grows by one.
     */
    method InsertAt(j: nat, k: Bytes, v: Bytes)
      requires Valid() && k !in Contents
      requires Place(entries[..], hashFunc(k) % capacity, 0).Some?
      requires j == Linear(hashFunc(k) % capacity, Place(entries[..], hashFunc(k) % capacity, 0).value, capacity)
      modifies entries, `count, `Contents
      ensures Valid() && count == old(count) + 1 && Contents == old(Contents)[k := v]
      ensures entries[..] == old(entries[..])[j := Entry(k, v, hashFunc(k), Occupied)]
    {
      ghost var t := entries[..];
      PlaceFacts(t, hashFunc, Contents, k, v);
      LiveCount(t, j, Entry(k, v, hashFunc(k), Occupied));
      entries[j] := Entry(k, v, hashFunc(k), Occupied);
      count := count + 1;
      Contents := Contents[k := v];
    }

    /**
     * `lum_hm_put` with linear probing that does not stop at tombstones:
     * the key is looked up first and its value overwritten if found;
     * otherwise the entry goes into the first slot of the probe that is
     * not occupied.  The put is dropped only when every slot is occupied.
     */
    method Put(key: Option<Bytes>, value: Bytes, granted: bool) returns (stored: bool)
      requires Valid()
      modifies this, entries
      ensures Valid() && (entries == old(entries) || fresh(entries))
      ensures stored <==> key.Some? && (key.value in old(Contents) || old(count) < old(capacity))
      ensures Contents == if stored then old(Contents)[key.value := value] else old(Contents)
      ensures capacity ==
                if stored && key.value !in old(Contents) then GrownCapacity(old(count) + 1, old(capacity), granted)
                else old(capacity)
    {
      if key.None? {
        return false;
      }
      var k := key.value;
      var slot := Find(k);
      if slot.Some? {
        Overwrite(slot.value, value);
        return true;
      }
      if count == capacity {
        return false;
      }
      AddNew(k, value, granted);
      return true;
    }
  }

  /**
   * `lum_hm_create`: a capacity of 0 means 16 and a missing hash function
   * means the default one; `granted` says whether the map record and its
   * entry array were allocated, and if not the result is null.
   */
  method Create(capacity: nat, hashFunc: Option<HashFn>, defaultHash: HashFn, granted: bool)
      returns (hm: HashMap?)
    requires capacity < U64
    ensures granted <==> hm != null
    ensures hm != null ==>
              fresh(hm) && fresh(hm.entries) && hm.Valid() && hm.count == 0 && hm.Contents == map[] &&
              hm.capacity == (if capacity > 0 then capacity else DefaultCapacity) &&
              hm.hashFunc == (if hashFunc.Some? then hashFunc.value else defaultHash)
    ensures hm != null ==> forall j :: 0 <= j < hm.capacity ==> hm.entries[j] == Vacant
  {
    if !granted {
      return null;
    }
    var n := if capacity > 0 then capacity else DefaultCapacity;
    var f := if hashFunc.Some? then hashFunc.value else defaultHash;
    hm := new HashMap(n, f);
  }
}

=== FILE: hash_witnesses.dfy ===
/**
 * Concrete scenarios, with outcomes proved, for the hash map of containers/cont_hm.h: the probes the
 * source mixes (quadratic for put and get, linear for remove and the
 * rehash of resize) lose keys, and the dictionary operations `Put`, `Get`
 * and `Remove` do not.
 *
 * Keys and values are one-byte strings; the hash functions are constant or
 * depend on the first key byte only, so every probe sequence is known.
 */
module HashTableWitnesses {
  import opened Wrappers
  import opened HashIndex
  import opened HashTable
  import opened BitOps

  const K1: Bytes := [1]
  const K2: Bytes := [2]
  const K3: Bytes := [3]
  const V1: Bytes := [10]
  const V2: Bytes := [20]
  const V3: Bytes := [30]
  const K4: Bytes := [4]
  const K5: Bytes := [5]

  /** An occupied slot under a hash function that is 0 everywhere. */
  function At0(k: Bytes, v: Bytes): (e: Entry)
    ensures Holds(e, k) && e.value == v
  {
    Entry(k, v, 0, Occupied)
  }

  /**
   * One step of the quadratic probe past slot `index`, landing on `next`,
   * with q the number of times the step wraps around the n slots.
   */
  lemma QuadNext(t: seq<Entry>, n: nat, k: Bytes, w: Walk, index: nat, i: nat, fuel: nat, next: nat, q: nat)
    requires |t| == n && index < n && fuel > 0 && Passes(t[index], k, w)
    requires next < n && index + i * i == q * n + next
    ensures QuadStop(t, k, w, index, i, fuel) == QuadStop(t, k, w, next, i + 1, fuel - 1)
  {
    DivModUnique(index + i * i, n, q, next);
  }

  /** A probe from slot 0 that passes slot 0 stops at slot 1 (steps 0, then 1). */
  lemma StopAtOne(t: seq<Entry>, k: Bytes, w: Walk, fuel: nat)
    requires |t| >= 2 && fuel >= 2 && Passes(t[0], k, w) && !Passes(t[1], k, w)
    ensures QuadStop(t, k, w, 0, 0, fuel) == Some(1)
  {
    QuadNext(t, |t|, k, w, 0, 0, fuel, 0, 0);
    QuadNext(t, |t|, k, w, 0, 1, fuel - 1, 1, 0);
  }

  /** In 8 slots, a probe from slot 0 that passes slots 0 and 1 next tries slot 1 + 4 = 5. */
  lemma StopAtFive(t: seq<Entry>, k: Bytes, w: Walk)
    requires |t| == 8 && Passes(t[0], k, w) && Passes(t[1], k, w) && !Passes(t[5], k, w)
    ensures QuadStop(t, k, w, 0, 0, 64) == Some(5)
  {
    QuadNext(t, 8, k, w, 0, 0, 64, 0, 0);
    QuadNext(t, 8, k, w, 0, 1, 63, 1, 0);
    QuadNext(t, 8, k, w, 1, 2, 62, 5, 0);
  }

  /**
   * In 4 slots, a probe from slot 0 that passes slots 0 and 1 comes back
   * to slot 1 (1 + 4 mod 4), then tries slot 2 (1 + 9 mod 4).
   */
  lemma StopAtTwoOfFour(t: seq<Entry>, k: Bytes, w: Walk)
    requires |t| == 4 && Passes(t[0], k, w) && Passes(t[1], k, w) && !Passes(t[2], k, w)
    ensures QuadStop(t, k, w, 0, 0, 16) == Some(2)
  {
    QuadNext(t, 4, k, w, 0, 0, 16, 0, 0);
    QuadNext(t, 4, k, w, 0, 1, 15, 1, 0);
    QuadNext(t, 4, k, w, 1, 2, 14, 1, 1);
    QuadNext(t, 4, k, w, 1, 3, 13, 2, 2);
  }

  /** A hash function that sends every key to 0. */
  function Zero(k: Bytes): (r: Word)
    ensures r == 0
  {
    0
  }

  /**
   * Put as written of a key with home slot h in a table of n slots whose
   * quadratic probe stops at the free slot j, the count staying within
   * three quarters of the capacity.
   */
  method PutFree(hm: HashMap, n: nat, c: nat, k: Bytes, v: Bytes, h: nat, j: nat)
    requires hm.WellFormed() && hm.capacity == n && hm.count == c && 4 * (c + 1) <= 3 * n
    requires h == hm.hashFunc(k) % n && QuadStop(hm.entries[..], k, Insert, h, 0, n * n) == Some(j)
    requires hm.entries[j].status != Occupied
    modifies hm, hm.entries
    ensures hm.WellFormed() && hm.capacity == n && hm.count == c + 1
    ensures hm.entries == old(hm.entries) || fresh(hm.entries)
    ensures hm.entries[..] == old(hm.entries[..])[j := Entry(k, v, hm.hashFunc(k), Occupied)]
  {
    var spins := hm.PutAsWritten(Some(k), v, true);
  }

  /** Remove of a key whose linear probe from slot h stops at step d. */
  method RemoveAt(hm: HashMap, n: nat, k: Bytes, h: nat, d: nat)
    requires hm.WellFormed() && hm.capacity == n && h == hm.hashFunc(k) % n
    requires LinearStop(hm.entries[..], k, h, 0) == Some(d)
    modifies hm, hm.entries
    ensures hm.WellFormed() && hm.capacity == n && hm.entries == old(hm.entries)
    ensures var t := old(hm.entries[..]);
            var j := Linear(h, d, n);
            if t[j].status == Occupied then
              hm.entries[..] == t[j := Tombstone(t[j])] && hm.count == old(hm.count) - 1
            else
              hm.entries[..] == t && hm.count == old(hm.count)
  {
    var spins := hm.RemoveAsWritten(Some(k));
  }

  /** Eight empty slots, as `lum_hm_create` leaves them. */
  const Empty8: seq<Entry> := seq(8, _ => Vacant)
  /** The table of `RemoveMissesWitness` after each put. */
  const M1: seq<Entry> := Empty8[0 := At0(K1, V1)]
  const M2: seq<Entry> := M1[1 := At0(K2, V2)]
  const M3: seq<Entry> := M2[5 := At0(K3, V3)]

  /** Put of K2 into M1: slot 0 twice (steps 0), then slot 1. */
  lemma PutK2IntoM1()
    ensures QuadStop(M1, K2, Insert, 0, 0, 64) == Some(1)
  {
    assert M1[0] == At0(K1, V1) && M1[1] == Vacant && K1[0] != K2[0];
    StopAtOne(M1, K2, Insert, 64);
  }

  /** Put of K3 into M2: slots 0, 0, 1, then 1 + 4 = 5. */
  lemma PutK3IntoM2()
    ensures QuadStop(M2, K3, Insert, 0, 0, 64) == Some(5)
  {
    assert M2[0] == At0(K1, V1) && M2[1] == At0(K2, V2) && M2[5] == Vacant;
    assert K1[0] != K3[0] && K2[0] != K3[0];
    StopAtFive(M2, K3, Insert);
  }

  /** Get of K3 in M3 follows the same steps to slot 5. */
  lemma GetK3InM3()
    ensures QuadStop(M3, K3, Lookup, 0, 0, 64) == Some(5)
  {
    assert M3[0] == At0(K1, V1) && M3[1] == At0(K2, V2) && M3[5] == At0(K3, V3);
    assert K1[0] != K3[0] && K2[0] != K3[0];
    StopAtFive(M3, K3, Lookup);
  }

  /** Remove of K3 in M3 probes slots 0, 1 and stops at the empty slot 2. */
  lemma RemoveK3InM3()
    ensures LinearStop(M3, K3, 0, 0) == Some(2)
  {
    assert K1[0] != K3[0] && K2[0] != K3[0];
    assert LinearStop(M3, K3, 0, 0) == LinearStop(M3, K3, 0, 1);
  }

  /** With every key hashing to 0 in 8 slots, put places K1 at slot 0 and K2 at slot 1. */
  method BuildM2() returns (hm: HashMap)
    ensures fresh(hm) && fresh(hm.entries) && hm.WellFormed()
    ensures hm.capacity == 8 && hm.count == 2 && hm.hashFunc == Zero && hm.entries[..] == M2
  {
    hm := new HashMap(8, Zero);
    assert hm.entries[..] == Empty8;
    PutFree(hm, 8, 0, K1, V1, 0, 0);
    assert hm.entries[..] == M1;
    PutK2IntoM1();
    PutFree(hm, 8, 1, K2, V2, 0, 1);
  }

  /** Put then places K3 at slot 5 (quadratic steps 0, 0, 1, 4). */
  method BuildM3() returns (hm: HashMap)
    ensures fresh(hm) && fresh(hm.entries) && hm.WellFormed()
    ensures hm.capacity == 8 && hm.count == 3 && hm.hashFunc == Zero && hm.entries[..] == M3
  {
    hm := BuildM2();
    PutK3IntoM2();
    PutFree(hm, 8, 2, K3, V3, 0, 5);
  }

  /**
   * In that table, remove of K3 probes linearly, stops at the empty slot 2
   * and removes nothing, so get still finds K3 afterwards.
   */
  method RemoveMissesWitness() returns (spins: bool, r: Option<Bytes>)
    ensures !spins && r == Some(V3)
  {
    var hm := BuildM3();
    RemoveK3InM3();
    RemoveAt(hm, 8, K3, 0, 2);
    GetK3InM3();
    r, spins := hm.GetAsWritten(Some(K3), true);
  }

  /** Four empty slots. */
  const Empty4: seq<Entry> := seq(4, _ => Vacant)
  /** The table of `ResizeLosesWitness` after each put. */
  const R1: seq<Entry> := Empty4[0 := At0(K1, V1)]
  const R2: seq<Entry> := R1[1 := At0(K2, V2)]
  const R3: seq<Entry> := R2[2 := At0(K3, V3)]
  /** R3 rehashed into 8 slots: every entry at the same index. */
  const G3: seq<Entry> := M2[2 := At0(K3, V3)]

  /** Put of K2 into R1: slot 0 twice, then slot 1. */
  lemma PutK2IntoR1()
    ensures QuadStop(R1, K2, Insert, 0, 0, 16) == Some(1)
  {
    assert R1[0] == At0(K1, V1) && R1[1] == Vacant && K1[0] != K2[0];
    StopAtOne(R1, K2, Insert, 16);
  }

  /** Put of K3 into R2: slots 0, 0, 1, 1 (1 + 4 mod 4), then 1 + 9 mod 4 = 2. */
  lemma PutK3IntoR2()
    ensures QuadStop(R2, K3, Insert, 0, 0, 16) == Some(2)
  {
    assert R2[0] == At0(K1, V1) && R2[1] == At0(K2, V2) && R2[2] == Vacant;
    assert K1[0] != K3[0] && K2[0] != K3[0];
    StopAtTwoOfFour(R2, K3, Insert);
  }

  /** The rehash of resize probes linearly and keeps the three entries in slots 0, 1, 2. */
  lemma RehashR3()
    ensures Rehash(R3, 8) == G3
  {
    assert R3[0] == At0(K1, V1) && R3[1] == At0(K2, V2) && R3[2] == At0(K3, V3) && R3[3] == Vacant;
    assert Place(Empty8, 0, 0) == Some(0);
    assert Place(M1, 0, 0) == Some(1) by {
      assert Place(M1, 0, 0) == Place(M1, 0, 1);
    }
    assert Place(M2, 0, 0) == Some(2) by {
      assert Place(M2, 0, 0) == Place(M2, 0, 1);
      assert Place(M2, 0, 1) == Place(M2, 0, 2);
    }
    assert RehashFrom(R3, 0, Empty8) == RehashFrom(R3, 1, M1);
    assert RehashFrom(R3, 1, M1) == RehashFrom(R3, 2, M2);
    assert RehashFrom(R3, 2, M2) == RehashFrom(R3, 3, G3);
    assert RehashFrom(R3, 3, G3) == RehashFrom(R3, 4, G3);
  }

  /** Get of K3 in G3: slots 0, 0, 1, then 1 + 4 = 5, which is empty. */
  lemma GetK3InG3()
    ensures QuadStop(G3, K3, Lookup, 0, 0, 64) == Some(5)
  {
    assert G3[0] == At0(K1, V1) && G3[1] == At0(K2, V2) && G3[5] == Vacant;
    assert K1[0] != K3[0] && K2[0] != K3[0];
    StopAtFive(G3, K3, Lookup);
  }

  /** With every key hashing to 0 in 4 slots, put places K1 and K2 at slots 0 and 1. */
  method BuildR2() returns (hm: HashMap)
    ensures fresh(hm) && fresh(hm.entries) && hm.WellFormed()
    ensures hm.capacity == 4 && hm.count == 2 && hm.hashFunc == Zero && hm.entries[..] == R2
  {
    hm := new HashMap(4, Zero);
    assert hm.entries[..] == Empty4;
    PutFree(hm, 4, 0, K1, V1, 0, 0);
    assert hm.entries[..] == R1;
    PutK2IntoR1();
    PutFree(hm, 4, 1, K2, V2, 0, 1);
  }

  /**
   * Put then places K3 at slot 2 (quadratic steps 0, 0, 1, 4, 9 mod 4);
   * three entries in four slots do not exceed three quarters.
   */
  method BuildR3() returns (hm: HashMap)
    ensures fresh(hm) && fresh(hm.entries) && hm.WellFormed()
    ensures hm.capacity == 4 && hm.count == 3 && hm.hashFunc == Zero && hm.entries[..] == R3
  {
    hm := BuildR2();
    PutK3IntoR2();
    PutFree(hm, 4, 2, K3, V3, 0, 2);
  }

  /** Resize of that table to 8 slots rehashes it into G3. */
  method BuildG3() returns (hm: HashMap)
    ensures fresh(hm) && fresh(hm.entries) && hm.WellFormed()
    ensures hm.capacity == 8 && hm.hashFunc == Zero && hm.entries[..] == G3
  {
    hm := BuildR3();
    RehashR3();
    hm.Resize(8, true);
  }

  /**
   * Resizing that table to 8 slots rehashes linearly, leaving K3 in slot
   * 2, where the quadratic probe of get (slots 0, 0, 1, 5) never looks:
   * get reports K3 missing although the table holds it.
   */
  method ResizeLosesWitness() returns (held: bool, spins: bool, r: Option<Bytes>)
    ensures held && !spins && r == None
  {
    var hm := BuildG3();
    held := hm.entries[2].status == Occupied && hm.entries[2].key == K3;
    GetK3InG3();
    r, spins := hm.GetAsWritten(Some(K3), true);
  }

  /** M2 after remove of K1 turns slot 0 into a tombstone. */
  const S1: seq<Entry> := M2[0 := Tombstone(At0(K1, V1))]
  /** S1 after put of K2 with value V3 stores a second copy of K2 in slot 0. */
  const S2: seq<Entry> := S1[0 := At0(K2, V3)]
  /** S2 after remove of K2 clears slot 0 only. */
  const S3: seq<Entry> := S2[0 := Tombstone(At0(K2, V3))]

  /** Put of K2 into S1 stops at once: a tombstone is not occupied. */
  lemma PutK2IntoS1()
    ensures QuadStop(S1, K2, Insert, 0, 0, 64) == Some(0)
  {
    assert S1[0].status == Deleted;
  }

  /** Get of K2 in S3 passes the tombstone in slot 0 twice and finds the old K2 in slot 1. */
  lemma GetK2InS3()
    ensures QuadStop(S3, K2, Lookup, 0, 0, 64) == Some(1)
  {
    assert S3[0].status == Deleted && S3[1] == At0(K2, V2);
    StopAtOne(S3, K2, Lookup, 64);
  }

  /** Remove as written of a key whose linear probe stops at its home slot h, which holds it. */
  method RemoveHome(hm: HashMap, n: nat, k: Bytes, h: nat)
    requires hm.WellFormed() && hm.capacity == n && h == hm.hashFunc(k) % n && Holds(hm.entries[h], k)
    modifies hm, hm.entries
    ensures hm.WellFormed() && hm.capacity == n && hm.entries == old(hm.entries)
    ensures hm.entries[..] == old(hm.entries[..])[h := Tombstone(old(hm.entries[h]))]
    ensures hm.count == old(hm.count) - 1
  {
    assert Linear(h, 0, n) == h;
    RemoveAt(hm, n, k, h, 0);
  }

  /**
   * With K1 at slot 0 and K2 at slot 1 (every key hashing to 0), remove of
   * K1 leaves a tombstone at slot 0, where put of K2 stops and stores a
   * second copy of K2.  Remove of K2 then clears that copy only, and get
   * of K2 still answers the value it had before.
   */
  method StaleValueWitness() returns (spins: bool, r: Option<Bytes>)
    ensures !spins && r == Some(V2)
  {
    var hm := BuildM2();
    assert M2[0] == At0(K1, V1);
    RemoveHome(hm, 8, K1, 0);
    assert hm.entries[..] == S1;
    PutK2IntoS1();
    PutFree(hm, 8, 1, K2, V3, 0, 0);
    assert hm.entries[..] == S2;
    RemoveHome(hm, 8, K2, 0);
    assert hm.entries[..] == S3;
    GetK2InS3();
    r, spins := hm.GetAsWritten(Some(K2), true);
  }

  /** A hash function that depends on the first key byte only. */
  function FirstByte4(k: Bytes): (r: Word)
    ensures |k| >= 1 ==> r == (k[0] as nat) % 4
    ensures |k| == 0 ==> r == 0
  {
    if |k| == 0 then 0 else (k[0] as nat) % 4
  }

  /** The home slots of the witness keys in 4 slots. */
  lemma FirstByteHomes()
    ensures FirstByte4(K1) == 1 && FirstByte4(K2) == 2 && FirstByte4(K3) == 3
    ensures FirstByte4(K4) == 0 && FirstByte4(K5) == 1
  {
    assert K1[0] as nat == 1 && K2[0] as nat == 2 && K3[0] as nat == 3;
    assert K4[0] as nat == 4 && K5[0] as nat == 5;
  }

  /** An occupied slot under `FirstByte4`. */
  function AtByte(k: Bytes, v: Bytes): (e: Entry)
    requires |k| == 1
    ensures Holds(e, k) && e.value == v && e.hash == (k[0] as nat) % 4
  {
    Entry(k, v, (k[0] as nat) % 4, Occupied)
  }

  /** K1, K2, K3 in their home slots 1, 2, 3. */
  const T3: seq<Entry> := Empty4[1 := AtByte(K1, V1)][2 := AtByte(K2, V2)][3 := AtByte(K3, V3)]
  /** T3 with the three removed: three tombstones. */
  const D3: seq<Entry> := T3[1 := Tombstone(AtByte(K1, V1))][2 := Tombstone(AtByte(K2, V2))][3 := Tombstone(AtByte(K3, V3))]
  /** D3 with K4 in its home slot 0: no slot is empty. */
  const F4: seq<Entry> := D3[0 := AtByte(K4, V1)]

  /** Remove of the missing K5 in F4 passes the three tombstones and the occupied slot 0. */
  lemma RemoveK5InF4()
    ensures LinearStop(F4, K5, 1, 0) == None
  {
    assert F4[0] == AtByte(K4, V1) && F4[1].status == Deleted && F4[2].status == Deleted && F4[3].status == Deleted;
    assert LinearStop(F4, K5, 1, 0) == LinearStop(F4, K5, 1, 1);
    assert LinearStop(F4, K5, 1, 1) == LinearStop(F4, K5, 1, 2);
    assert LinearStop(F4, K5, 1, 2) == LinearStop(F4, K5, 1, 3);
    assert LinearStop(F4, K5, 1, 3) == LinearStop(F4, K5, 1, 4);
  }

  /** With one-byte keys hashed by their byte in 4 slots, put stores K1 and K2 in their home slots. */
  method BuildT2() returns (hm: HashMap)
    ensures fresh(hm) && fresh(hm.entries) && hm.WellFormed()
    ensures hm.capacity == 4 && hm.count == 2 && hm.hashFunc == FirstByte4
    ensures hm.entries[..] == Empty4[1 := AtByte(K1, V1)][2 := AtByte(K2, V2)]
  {
    FirstByteHomes();
    hm := new HashMap(4, FirstByte4);
    assert hm.entries[..] == Empty4;
    PutFree(hm, 4, 0, K1, V1, 1, 1);
    PutFree(hm, 4, 1, K2, V2, 2, 2);
  }

  /** Put stores K3 in its home slot 3 as well. */
  method BuildT3() returns (hm: HashMap)
    ensures fresh(hm) && fresh(hm.entries) && hm.WellFormed()
    ensures hm.capacity == 4 && hm.count == 3 && hm.hashFunc == FirstByte4 && hm.entries[..] == T3
  {
    hm := BuildT2();
    FirstByteHomes();
    PutFree(hm, 4, 2, K3, V3, 3, 3);
  }

  /** Removing the three leaves three tombstones, and put stores K4 in slot 0. */
  method BuildF4() returns (hm: HashMap)
    ensures fresh(hm) && fresh(hm.entries) && hm.WellFormed()
    ensures hm.capacity == 4 && hm.count == 1 && hm.hashFunc == FirstByte4 && hm.entries[..] == F4
  {
    hm := BuildT3();
    FirstByteHomes();
    RemoveHome(hm, 4, K1, 1);
    RemoveHome(hm, 4, K2, 2);
    RemoveHome(hm, 4, K3, 3);
    assert hm.entries[..] == D3;
    PutFree(hm, 4, 0, K4, V1, 0, 0);
  }

  /**
   * Once every slot is occupied or a tombstone, remove of a missing key
   * never meets an empty slot and the loop of the source does not end.
   */
  method NoEmptySlotWitness() returns (spins: bool)
    ensures spins
  {
    var hm := BuildF4();
    FirstByteHomes();
    RemoveK5InF4();
    spins := hm.RemoveAsWritten(Some(K5));
  }

  /** Three distinct keys put into a map of 16 slots. */
  method PutThree(hash: HashFn, k1: Bytes, k2: Bytes, k3: Bytes, v1: Bytes, v2: Bytes, v3: Bytes)
      returns (hm: HashMap)
    requires k1 != k2 && k1 != k3 && k2 != k3
    ensures fresh(hm) && fresh(hm.entries) && hm.Valid() && hm.capacity >= 16
    ensures hm.Contents == map[k1 := v1, k2 := v2, k3 := v3]
  {
    hm := new HashMap(16, hash);
    var stored := hm.Put(Some(k1), v1, true);
    stored := hm.Put(Some(k2), v2, true);
    stored := hm.Put(Some(k3), v3, true);
  }

  /** Get of three keys answers their values in the dictionary. */
  method GetThree(hm: HashMap, k1: Bytes, k2: Bytes, k3: Bytes) returns (g1: Option<Bytes>, g2: Option<Bytes>, g3: Option<Bytes>)
    requires hm.Valid() && k1 in hm.Contents && k2 in hm.Contents && k3 in hm.Contents
    ensures g1 == Some(hm.Contents[k1]) && g2 == Some(hm.Contents[k2]) && g3 == Some(hm.Contents[k3])
  {
    g1 := hm.Get(Some(k1), true);
    g2 := hm.Get(Some(k2), true);
    g3 := hm.Get(Some(k3), true);
  }

  /** Overwriting k2 changes its value; removing k1 makes it missing. */
  method OverwriteThenRemove(hm: HashMap, k1: Bytes, k2: Bytes, v: Bytes) returns (g2: Option<Bytes>, g1: Option<Bytes>)
    requires hm.Valid() && k1 != k2 && k2 in hm.Contents
    modifies hm, hm.entries
    ensures g2 == Some(v) && g1 == None
  {
    var stored := hm.Put(Some(k2), v, true);
    g2 := hm.Get(Some(k2), true);
    hm.Remove(Some(k1));
    g1 := hm.Get(Some(k1), true);
  }

  /**
   * The sequence of the source's own test, on the dictionary operations:
   * three keys put into 16 slots are found with their values, an overwrite
   * replaces a value, and a removed key is no longer found.
   */
  method BasicOps(hash: HashFn, k1: Bytes, k2: Bytes, k3: Bytes, v1: Bytes, v2: Bytes, v3: Bytes, v4: Bytes)
      returns (g1: Option<Bytes>, g2: Option<Bytes>, g3: Option<Bytes>, g4: Option<Bytes>, g5: Option<Bytes>)
    requires k1 != k2 && k1 != k3 && k2 != k3
    ensures g1 == Some(v1) && g2 == Some(v2) && g3 == Some(v3)
    ensures g4 == Some(v4) && g5 == None
  {
    var hm := PutThree(hash, k1, k2, k3, v1, v2, v3);
    g1, g2, g3 := GetThree(hm, k1, k2, k3);
    g4, g5 := OverwriteThenRemove(hm, k1, k2, v4);
  }
}

=== FILE: job_queue.dfy ===
/**
 * The per-worker job deque of threads/job_queue.c.
 *
 * A fixed array of 1024 job slots and two counters: the owner pushes and
 * pops at `bottom` (last in, first out), thieves take from `top` (first in,
 * first out).  Job i of the deque, counted from the top, lives in slot
 * (top + i) % 1024.  The atomic loads, stores and fences are modelled as
 * plain sequential steps.
 */
module JobDeque {
  import opened Wrappers
  import opened BitOps

  /** JOB_QUEUE_SIZE */
  const QueueSize: nat := 1024

  class JobQueue<T(0)> {
    var jobs: array<T>
    var top: int
    var bottom: int
    /** The queued jobs, from the top (oldest) to the bottom (newest). */
    ghost var Contents: seq<T>

    /**
     * Occupancy `bottom - top` stays between 0 and JOB_QUEUE_SIZE, and the
     * slots from `top` onwards, modulo the array size, hold Contents.
     */
    ghost predicate Valid()
      reads this, jobs
    {
      jobs.Length == QueueSize &&
      0 <= top <= bottom && bottom - top == |Contents| <= QueueSize &&
      forall k :: 0 <= k < |Contents| ==> Contents[k] == jobs[(top + k) % QueueSize]
    }

    /** A zero-initialised deque: no jobs, both counters 0. */
    constructor ()
      ensures Valid() && fresh(jobs) && top == 0 && bottom == 0 && Contents == []
    {
      jobs := new T[QueueSize];
      top := 0;
      bottom := 0;
      Contents := [];
    }

    /**
     * push_job: the job is stored in slot `bottom % 1024` and becomes the
     * newest entry; with 1024 jobs already queued it is dropped and nothing
     * changes.
     */
    method PushJob(job: T)
      requires Valid()
      modifies this, jobs
      ensures Valid() && jobs == old(jobs) && top == old(top)
      ensures |old(Contents)| >= QueueSize ==> Contents == old(Contents) && bottom == old(bottom)
      ensures |old(Contents)| < QueueSize ==> Contents == old(Contents) + [job] && bottom == old(bottom) + 1
    {
      var b := bottom;
      var t := top;
      if b - t >= QueueSize {
        return;
      }
      forall k | 0 <= k < |Contents|
        ensures Contents[k] == jobs[(t + k) % QueueSize] && (t + k) % QueueSize != b % QueueSize
      {
        RingDistinct(t, k, |Contents|, QueueSize);
      }
      jobs[b % QueueSize] := job;
      bottom := b + 1;
      Contents := Contents + [job];
    }

    /**
     * pop_job: on a non-empty deque the newest job is removed and returned;
     * on an empty one the result is null and both counters are set back to
     * `top`, which leaves them as they were.
     */
    method PopJob() returns (job: Option<T>)
      requires Valid()
      modifies this
      ensures Valid() && jobs == old(jobs) && top == old(top)
      ensures old(Contents) == [] ==> job == None && Contents == [] && bottom == old(bottom)
      ensures old(Contents) != [] ==>
                job == Some(old(Contents)[|old(Contents)| - 1]) &&
                Contents == old(Contents)[..|old(Contents)| - 1] &&
                bottom == old(bottom) - 1
    {
      var b := bottom - 1;
      bottom := b;
      var t := top;
      if b >= t {
        job := Some(jobs[b % QueueSize]);
        Contents := Contents[..|Contents| - 1];
      } else {
        top := t;
        bottom := t;
        job := None;
      }
    }

    /**
     * steal_job: when `top < bottom` the oldest job is removed and returned;
     * otherwise the result is null and nothing changes.
     */
    method StealJob() returns (job: Option<T>)
      requires Valid()
      modifies this
      ensures Valid() && jobs == old(jobs) && bottom == old(bottom)
      ensures old(Contents) == [] ==> job == None && Contents == [] && top == old(top)
      ensures old(Contents) != [] ==>
                job == Some(old(Contents)[0]) && Contents == old(Contents)[1..] && top == old(top) + 1
    {
      var t := top;
      var b := bottom;
      if t < b {
        job := Some(jobs[t % QueueSize]);
        top := t + 1;
        Contents := Contents[1..];
      } else {
        job := None;
      }
    }
  }

  /**
   * The owner's end is last in, first out and the thieves' end first in,
   * first out: after pushing 1, 2, 3 a steal yields 1, two pops yield 3
   * and 2, and a third pop finds the deque empty.
   */
  method EndsWitness() returns (s: Option<int>, p1: Option<int>, p2: Option<int>, p3: Option<int>)
    ensures s == Some(1) && p1 == Some(3) && p2 == Some(2) && p3 == None
  {
    var q := new JobQueue<int>();
    q.PushJob(1);
    q.PushJob(2);
    q.PushJob(3);
    s := q.StealJob();
    p1 := q.PopJob();
    p2 := q.PopJob();
    p3 := q.PopJob();
  }
}

=== FILE: lfq.dfy ===
/**
 * The bounded ring queue of containers/cont_lfq.h.
 *
 * Head and tail are 64-bit words packing a 32-bit slot index (low half) and
 * a 32-bit version counter (high half).  Each compare-and-swap retry loop is
 * modelled as one step that succeeds on its first attempt, which is what a
 * single thread observes.  The capacity is a power of two and one slot is
 * always left free, so a queue of capacity c holds at most c - 1 items.
 *
 * `Enqueue`, `Dequeue` and `IsFull` compare index with index, as the
 * comments in the source describe; `EnqueueAsWritten`, `DequeueAsWritten`
 * and `IsFullAsWritten` compare a slot index with a whole packed word, as the
 * code does, and the witness methods at the end show where that goes wrong.
 */
module LockFreeQueue {
  import opened Wrappers
  import opened BitOps
  import opened Bits

  /** `packed & 0xFFFFFFFF`: the slot index held in a head or tail word. */
  function IndexOf(packed: nat): (r: nat)
    ensures r < U32
    ensures packed < U32 ==> r == packed
  {
    IndexOfIsMod(packed);
    And(packed, 0xFFFF_FFFF)
  }

  lemma IndexOfIsMod(packed: nat)
    ensures And(packed, 0xFFFF_FFFF) == packed % U32
    ensures packed < U32 ==> And(packed, 0xFFFF_FFFF) == packed
  {
    Pow2Widths();
    AndLowMask(packed, 32);
    if packed < U32 {
      DivModUnique(packed, U32, 0, packed);
    }
  }

  /** `(packed >> 32) & 0xFFFFFFFF`: the version held in a head or tail word. */
  function VersionOf(packed: nat): (r: nat)
    ensures r < U32
  {
    VersionOfIsMod(packed);
    And(packed / U32, 0xFFFF_FFFF)
  }

  lemma VersionOfIsMod(packed: nat)
    ensures And(packed / U32, 0xFFFF_FFFF) == (packed / U32) % U32
  {
    Pow2Widths();
    AndLowMask(packed / U32, 32);
  }

  /**
   * `(version << 32) | index` in a 64-bit word, for a version that is at
   * most one past a 32-bit counter: the fields read back, the version
   * wrapping from 2^32 to 0.
   */
  function Pack(version: nat, index: nat): (r: nat)
    requires version <= U32 && index < U32
    ensures r < U64
    ensures IndexOf(r) == index && VersionOf(r) == Wrap(version, U32)
  {
    PackFacts(version, index);
    Or((version * U32) % U64, index)
  }

  lemma PackFacts(version: nat, index: nat)
    requires version <= U32 && index < U32
    ensures var r := Or((version * U32) % U64, index);
            r < U64 && IndexOf(r) == index && VersionOf(r) == Wrap(version, U32)
  {
    Pow2Widths();
    var v := Wrap(version, U32);
    DivModUnique(version * U32, U64, version / U32, v * U32);
    OrShifted(v, index, 32);
    var r := v * U32 + index;
    assert Or((version * U32) % U64, index) == r;
    IndexOfIsMod(r);
    VersionOfIsMod(r);
    DivModUnique(r, U32, v, index);
    DivModUnique(v, U32, 0, v);
  }

  /** A word below 2^64 is determined by its index and version fields. */
  lemma WordFields(w1: nat, w2: nat)
    requires w1 < U64 && w2 < U64
    requires IndexOf(w1) == IndexOf(w2) && VersionOf(w1) == VersionOf(w2)
    ensures w1 == w2
  {
    IndexOfIsMod(w1);
    IndexOfIsMod(w2);
    VersionOfIsMod(w1);
    VersionOfIsMod(w2);
    DivModUnique(w1 / U32, U32, 0, w1 / U32);
    DivModUnique(w2 / U32, U32, 0, w2 / U32);
  }

  /** One step round a ring of size m: x % m for x < 2m. */
  function Wrap(x: nat, m: nat): nat
  {
    if x < m then x else x - m
  }

  /** Advancing the slot index by one, `(i + 1) & (m - 1)`, moves one step round the ring. */
  lemma NextSlot(h: nat, n: nat, m: nat)
    requires h < m && n < m
    ensures (Wrap(h + n, m) + 1) % m == Wrap(h + n + 1, m)
  {
    var x := Wrap(h + n, m) + 1;
    if x < m {
      DivModUnique(x, m, 0, x);
    } else {
      DivModUnique(x, m, 1, 0);
    }
  }

  /**
   * `(w + 1) & (m - 1)` on a 64-bit word w, for a power of two m not above
   * 2^32: one step round the ring from the index field of w.
   */
  lemma MaskedSuccessor(w: nat, m: nat)
    requires IsPow2(m) && m <= U32 && w < U64 && IndexOf(w) < m
    ensures And((w + 1) % U64, m - 1) == Wrap(IndexOf(w) + 1, m)
  {
    MaskWord(w + 1, m);
    SuccessorMod(w, m);
  }

  /** Masking a 64-bit truncation with m - 1 is reducing modulo m. */
  lemma MaskWord(x: nat, m: nat)
    requires IsPow2(m) && m <= U32
    ensures And(x % U64, m - 1) == x % m
  {
    Pow2Widths();
    Pow2Monotone(32, 64);
    var c64 := PowerOfTwoDivides(m, 64);
    MaskIsMod(x % U64, m);
    ModModDivisor(x, m, c64);
  }

  /** (w + 1) % m depends only on the index field of w. */
  lemma SuccessorMod(w: nat, m: nat)
    requires IsPow2(m) && m <= U32 && IndexOf(w) < m
    ensures (w + 1) % m == Wrap(IndexOf(w) + 1, m)
  {
    var i := IndexOf(w);
    ModAddLeft(w, 1, m);
    IndexFieldMod(w, m);
    ModAddLeft(i, 1, m);
    DivModUnique(i, m, 0, i);
    NextSlot(i, 0, m);
  }

  /** Modulo a power of two not above 2^32, a word agrees with its index field. */
  lemma IndexFieldMod(w: nat, m: nat)
    requires IsPow2(m) && m <= U32
    ensures w % m == IndexOf(w) % m
  {
    Pow2Widths();
    var c32 := PowerOfTwoDivides(m, 32);
    ModModDivisor(w, m, c32);
    IndexOfIsMod(w);
  }

  /** The masks the queue applies to a slot index below a power-of-two capacity. */
  lemma SlotMasks(i: nat, m: nat)
    requires IsPow2(m) && i < m
    ensures And(i, m - 1) == i && And(i + 1, m - 1) == Wrap(i + 1, m)
  {
    MaskIsMod(i, m);
    MaskIsMod(i + 1, m);
    DivModUnique(i, m, 0, i);
    NextSlot(i, 0, m);
  }

  /**
   * The arithmetic of one enqueue attempt on tail word w: the slot written
   * is the tail index, the next index is its successor masked by m - 1
   * (wrapped at m), and the new tail word carries the next version.
   */
  method AdvanceTail(w: nat, m: nat) returns (index: nat, nextIndex: nat, next: nat)
    requires IsPow2(m) && m <= U32 && IndexOf(w) < m
    ensures index == IndexOf(w) && nextIndex == Wrap(index + 1, m) < m
    ensures next < U64 && IndexOf(next) == nextIndex
    ensures VersionOf(next) == Wrap(VersionOf(w) + 1, U32)
    ensures next == Pack(VersionOf(w) + 1, nextIndex)
  {
    index := IndexOf(w);
    var version := VersionOf(w);
    SlotMasks(index, m);
    nextIndex := And(index + 1, m - 1);
    next := Pack(version + 1, nextIndex);
  }

  /**
   * The arithmetic of one dequeue attempt on head word w: the slot read is
   * the head index masked by m - 1, which is the index itself, and the new
   * head word carries the next version and the successor index wrapped at m.
   */
  method AdvanceHead(w: nat, m: nat) returns (slot: nat, next: nat)
    requires IsPow2(m) && m <= U32 && IndexOf(w) < m
    ensures slot == IndexOf(w)
    ensures next < U64 && IndexOf(next) == Wrap(IndexOf(w) + 1, m) < m
    ensures VersionOf(next) == Wrap(VersionOf(w) + 1, U32)
    ensures next == Pack(VersionOf(w) + 1, Wrap(IndexOf(w) + 1, m))
  {
    var index := IndexOf(w);
    var version := VersionOf(w);
    SlotMasks(index, m);
    slot := And(index, m - 1);
    next := Pack(version + 1, And(index + 1, m - 1));
  }

  /** Buffer b holds sequence c in the slots from h onwards, round a ring of size m. */
  ghost predicate Ring<T>(c: seq<T>, b: seq<T>, h: nat, m: nat)
    requires h < m && |c| <= m && |b| == m
  {
    forall k :: 0 <= k < |c| ==> c[k] == b[Wrap(h + k, m)]
  }

  /** Writing the slot after the last item appends to the ring. */
  lemma RingPush<T>(c: seq<T>, b: seq<T>, h: nat, m: nat, x: T)
    requires h < m && |c| < m && |b| == m && Ring(c, b, h, m)
    ensures Ring(c + [x], b[Wrap(h + |c|, m) := x], h, m)
  {
  }

  /** Moving the head one slot on drops the first item of the ring. */
  lemma RingDrop<T>(c: seq<T>, b: seq<T>, h: nat, m: nat)
    requires h < m && 0 < |c| <= m && |b| == m && Ring(c, b, h, m)
    ensures c[0] == b[h]
    ensures Ring(c[1..], b, Wrap(h + 1, m), m)
  {
  }

  /**
   * A ring buffer b of size m with head word `head` and tail word `tail`
   * holds c: the tail index is |c| slots on from the head index, the tail
   * version |c| counts on from the head version, and the slots between
   * hold c, oldest first.  One slot always stays free.
   */
  ghost predicate Layout<T>(c: seq<T>, b: seq<T>, head: nat, tail: nat, m: nat)
  {
    |b| == m && IndexOf(head) < m && |c| < m &&
    IndexOf(tail) == Wrap(IndexOf(head) + |c|, m) &&
    VersionOf(tail) == Wrap(VersionOf(head) + |c|, U32) &&
    Ring(c, b, IndexOf(head), m)
  }

  /** An empty buffer with both words 0 holds the empty sequence. */
  lemma EmptyLayout<T>(b: seq<T>, m: nat)
    requires 1 <= |b| == m
    ensures Layout([], b, 0, 0, m)
  {
    VersionOfIsMod(0);
  }

  /** The slot after the tail index is the head index exactly when m - 1 items are queued. */
  lemma FullLayout<T>(c: seq<T>, b: seq<T>, head: nat, tail: nat, m: nat)
    requires Layout(c, b, head, tail, m)
    ensures Wrap(IndexOf(tail) + 1, m) == IndexOf(head) <==> |c| == m - 1
  {
  }

  /**
   * Enqueue: when the slot after the tail index is not the head index,
   * writing the tail slot and moving the tail word one step on appends
   * the item.
   */
  lemma EnqueueLayout<T>(c: seq<T>, b: seq<T>, head: nat, tail: nat, m: nat, x: T)
    requires m <= U32 && Layout(c, b, head, tail, m)
    ensures Wrap(IndexOf(tail) + 1, m) != IndexOf(head) ==>
              Layout(c + [x], b[IndexOf(tail) := x], head, Pack(VersionOf(tail) + 1, Wrap(IndexOf(tail) + 1, m)), m)
  {
    var h := IndexOf(head);
    if Wrap(IndexOf(tail) + 1, m) != h {
      RingPush(c, b, h, m, x);
      var t := Pack(VersionOf(tail) + 1, Wrap(IndexOf(tail) + 1, m));
      assert IndexOf(t) == Wrap(h + |c| + 1, m);
      assert VersionOf(t) == Wrap(VersionOf(head) + |c| + 1, U32);
    }
  }

  /**
   * Dequeue: when the head index is not the tail index the queue is not
   * empty, its oldest item is in the head slot, and moving the head word
   * one step on drops that item.
   */
  lemma DequeueLayout<T>(c: seq<T>, b: seq<T>, head: nat, tail: nat, m: nat)
    requires m <= U32 && Layout(c, b, head, tail, m)
    ensures IndexOf(head) == IndexOf(tail) <==> c == []
    ensures c != [] ==>
              c[0] == b[IndexOf(head)] &&
              Layout(c[1..], b, Pack(VersionOf(head) + 1, Wrap(IndexOf(head) + 1, m)), tail, m)
  {
    var h := IndexOf(head);
    if c != [] {
      RingDrop(c, b, h, m);
      var n := Pack(VersionOf(head) + 1, Wrap(h + 1, m));
      assert IndexOf(n) == Wrap(h + 1, m);
    }
  }

  class Queue<T(0)> {
    /** Packed head word (next slot to read) and tail word (next slot to write). */
    var head: nat
    var tail: nat
    var capacity: nat
    var buffer: array<T>
    /** The items in the queue, oldest first. */
    ghost var Contents: seq<T>

    /** Shape facts that every operation, as written or corrected, keeps. */
    ghost predicate WellFormed()
      reads this
    {
      IsPow2(capacity) && 2 <= capacity <= U32 && buffer.Length == capacity &&
      head < U64 && tail < U64 && IndexOf(head) < capacity && IndexOf(tail) < capacity
    }

    /**
     * The slots from the head index up to (not including) the tail index
     * hold Contents, and the tail version is ahead of the head version by
     * the number of items.
     */
    ghost predicate Valid()
      reads this, buffer
    {
      WellFormed() && Layout(Contents, buffer[..], head, tail, capacity)
    }

    /** The state lum_lfq_init leaves: a fresh buffer, head and tail words 0. */
    constructor (capacity: nat)
      requires IsPow2(capacity) && 2 <= capacity <= U32
      ensures Valid() && fresh(buffer)
      ensures this.capacity == capacity && head == 0 && tail == 0 && Contents == []
    {
      this.capacity := capacity;
      buffer := new T[capacity];
      head := 0;
      tail := 0;
      Contents := [];
      new;
      EmptyLayout(buffer[..], capacity);
    }

    /** lum_lfq_empty: the whole head and tail words are equal. */
    function IsEmpty(): (r: bool)
      reads this, buffer
      requires WellFormed()
      ensures Valid() ==> (r <==> Contents == [])
    {
      EmptyFacts();
      head == tail
    }

    lemma EmptyFacts()
      requires WellFormed()
      ensures Valid() ==> (head == tail <==> Contents == [])
    {
      if !Valid() {
        return;
      }
      if Contents == [] {
        WordFields(head, tail);
      }
    }

    lemma FullFacts()
      requires WellFormed()
      ensures Valid() ==> (Wrap(IndexOf(tail) + 1, capacity) == IndexOf(head) <==> |Contents| == capacity - 1)
    {
      if Valid() {
        FullLayout(Contents, buffer[..], head, tail, capacity);
      }
    }

    /**
     * `(tail + 1) & (capacity - 1)` on the 64-bit tail word, as lum_lfq_full
     * computes it: the slot after the tail index.
     */
    function NextTailIndex(): (r: nat)
      reads this
      requires WellFormed()
      ensures r == Wrap(IndexOf(tail) + 1, capacity)
    {
      MaskedSuccessor(tail, capacity);
      And((tail + 1) % U64, capacity - 1)
    }

    /** lum_lfq_full as written: the next tail index against the whole head word. */
    function IsFullAsWritten(): (r: bool)
      reads this
      requires WellFormed()
      ensures r <==> Wrap(IndexOf(tail) + 1, capacity) == head
    {
      NextTailIndex() == head
    }

    /** lum_lfq_full comparing index with index: true when no further item fits. */
    function IsFull(): (r: bool)
      reads this, buffer
      requires WellFormed()
      ensures Valid() ==> (r <==> |Contents| == capacity - 1)
    {
      FullFacts();
      NextTailIndex() == IndexOf(head)
    }

    /**
     * lum_lfq_enqueue comparing the next tail index with the head index:
     * the item is appended unless capacity - 1 items are already queued.
     */
    method Enqueue(item: T) returns (ok: bool)
      requires Valid()
      modifies this, buffer
      ensures Valid()
      ensures capacity == old(capacity) && buffer == old(buffer) && head == old(head)
      ensures ok <==> |old(Contents)| < capacity - 1
      ensures Contents == if ok then old(Contents) + [item] else old(Contents)
    {
      var index, nextIndex, next := AdvanceTail(tail, capacity);
      FullLayout(Contents, buffer[..], head, tail, capacity);
      EnqueueLayout(Contents, buffer[..], head, tail, capacity, item);
      if nextIndex == IndexOf(head) {
        return false;
      }
      ghost var slots := buffer[..][index := item];
      tail := next;
      buffer[index] := item;
      assert buffer[..] == slots;
      Contents := Contents + [item];
      ok := true;
    }

    /** lum_lfq_enqueue as written: the next tail index against the whole head word. */
    method EnqueueAsWritten(item: T) returns (ok: bool)
      requires WellFormed()
      modifies this, buffer
      ensures WellFormed()
      ensures capacity == old(capacity) && buffer == old(buffer) && head == old(head)
      ensures ok <==> Wrap(IndexOf(old(tail)) + 1, capacity) != head
      ensures ok ==> tail == Pack(VersionOf(old(tail)) + 1, Wrap(IndexOf(old(tail)) + 1, capacity))
      ensures !ok ==> tail == old(tail)
      ensures buffer[..] == if ok then old(buffer[..])[IndexOf(old(tail)) := item] else old(buffer[..])
    {
      var index, nextIndex, next := AdvanceTail(tail, capacity);
      if nextIndex == head {
        return false;
      }
      tail := next;
      buffer[index] := item;
      ok := true;
    }

    /**
     * lum_lfq_dequeue comparing the head index with the tail index: the
     * oldest item is removed and returned, or None when the queue is empty.
     */
    method Dequeue() returns (item: Option<T>)
      requires Valid()
      modifies this
      ensures Valid()
      ensures capacity == old(capacity) && buffer == old(buffer) && tail == old(tail)
      ensures old(Contents) == [] ==> item == None && Contents == [] && head == old(head)
      ensures old(Contents) != [] ==> item == Some(old(Contents)[0]) && Contents == old(Contents)[1..]
    {
      var index := IndexOf(head);
      DequeueLayout(Contents, buffer[..], head, tail, capacity);
      if index == IndexOf(tail) {
        return None;
      }
      var slot, next := AdvanceHead(head, capacity);
      var x := buffer[slot];
      head := next;
      Contents := Contents[1..];
      item := Some(x);
    }

    /** lum_lfq_dequeue as written: the head index against the whole tail word. */
    method DequeueAsWritten() returns (item: Option<T>)
      requires WellFormed()
      modifies this
      ensures WellFormed()
      ensures capacity == old(capacity) && buffer == old(buffer) && tail == old(tail)
      ensures item.None? <==> IndexOf(old(head)) == tail
      ensures item.None? ==> head == old(head)
      ensures item.Some? ==> item.value == buffer[IndexOf(old(head))]
      ensures item.Some? ==> head == Pack(VersionOf(old(head)) + 1, Wrap(IndexOf(old(head)) + 1, capacity))
    {
      if IndexOf(head) == tail {
        return None;
      }
      var slot, next := AdvanceHead(head, capacity);
      var x := buffer[slot];
      head := next;
      item := Some(x);
    }
  }

  /**
   * The capacity lum_lfq_init settles on: a power of two is kept, anything
   * else is rounded up with `1 << log2_ceil(capacity)`; below 2 the call
   * fails.
   */
  function InitCapacity(capacity: nat): (r: Option<nat>)
    requires capacity <= U32
    requires IsPowerOfTwo(capacity) || capacity <= 0x4000_0000
    ensures r.None? <==> capacity < 2
    ensures r.Some? ==> IsPow2(r.value) && 2 <= r.value <= U32 && capacity <= r.value
    ensures r.Some? ==> forall p :: IsPow2(p) && capacity <= p ==> r.value <= p
    ensures r.Some? && IsPow2(capacity) ==> r.value == capacity
  {
    if IsPowerOfTwo(capacity) then
      if capacity < 2 then None else Some(capacity)
    else
      var n := Log2Ceil(capacity);
      RoundedCapacity(capacity, n);
      Some(Pow2(n))
  }

  /** `1 << log2_ceil(c)` for a c that is not a power of two is the least power of two above c, within 32 bits. */
  lemma RoundedCapacity(c: nat, n: nat)
    requires c <= 0x4000_0000 && c != 1 && !IsPowerOfTwo(c) && n == Log2Ceil(c)
    ensures IsPow2(Pow2(n)) && 2 <= Pow2(n) <= U32 && c <= Pow2(n)
    ensures forall p :: IsPow2(p) && c <= p ==> Pow2(n) <= p
  {
    Pow2Widths();
    Pow2LessExponent(n - 1, 30);
    Pow2Monotone(n, 32);
    Pow2Monotone(1, n);
    LeastPowerOfTwo(c, n);
  }

  /**
   * lum_lfq_init: null when the capacity is rejected or the buffer cannot
   * be allocated (`bufferAllocated` stands for the allocator's answer),
   * otherwise an empty queue of the settled capacity.
   */
  method Init<T(0)>(capacity: nat, bufferAllocated: bool) returns (q: Queue?<T>)
    requires capacity <= U32
    requires IsPowerOfTwo(capacity) || capacity <= 0x4000_0000
    ensures q == null <==> InitCapacity(capacity).None? || !bufferAllocated
    ensures q != null ==> fresh(q) && q.Valid() && q.Contents == [] &&
                          q.capacity == InitCapacity(capacity).value &&
                          q.head == 0 && q.tail == 0
  {
    var c := InitCapacity(capacity);
    if c.None? || !bufferAllocated {
      return null;
    }
    q := new Queue<T>(c.value);
  }

  /**
   * A freshly initialised queue reports empty and not full, whether the
   * full check compares index with index or with the whole head word.
   */
  method FreshQueueWitness(capacity: nat) returns (empty: bool, full: bool, fullAsWritten: bool)
    requires IsPow2(capacity) && 2 <= capacity <= U32
    ensures empty && !full && !fullAsWritten
  {
    var q := new Queue<int>(capacity);
    empty := q.IsEmpty();
    full := q.IsFull();
    fullAsWritten := q.IsFullAsWritten();
  }

  /** Items come out in the order they went in, and the drained queue reports empty. */
  method FifoWitness() returns (a: Option<int>, b: Option<int>, c: Option<int>, empty: bool)
    ensures a == Some(10) && b == Some(20) && c == None && empty
  {
    var q := new Queue<int>(4);
    var ok := q.Enqueue(10);
    ok := q.Enqueue(20);
    a := q.Dequeue();
    b := q.Dequeue();
    c := q.Dequeue();
    empty := q.IsEmpty();
  }

  /** One slot stays free: a queue of capacity 4 accepts three items and refuses the fourth. */
  method CapacityWitness() returns (first: bool, second: bool, third: bool, fourth: bool, full: bool)
    ensures first && second && third && !fourth && full
  {
    var q := new Queue<int>(4);
    first := q.Enqueue(1);
    second := q.Enqueue(2);
    third := q.Enqueue(3);
    full := q.IsFull();
    fourth := q.Enqueue(4);
  }

  /**
   * As written, after one item has passed through, lum_lfq_empty reports an
   * empty queue while lum_lfq_dequeue still hands out a slot.
   */
  method DrainedDequeueWitness() returns (empty: bool, second: Option<int>)
    ensures empty && second.Some?
  {
    var q := new Queue<int>(4);
    var ok := q.EnqueueAsWritten(7);
    var first := q.DequeueAsWritten();
    empty := q.IsEmpty();
    second := q.DequeueAsWritten();
  }

  /**
   * As written, on a capacity-2 queue whose head version is no longer 0,
   * lum_lfq_full never reports full and lum_lfq_enqueue overwrites an item
   * that was never dequeued: 2 is lost and 4 comes out first.
   */
  method OverwriteWitness() returns (full: bool, third: bool, fourth: bool, out: Option<int>)
    ensures !full && third && fourth && out == Some(4)
  {
    var q := new Queue<int>(2);
    var ok := q.EnqueueAsWritten(1);
    var x := q.DequeueAsWritten();
    ok := q.EnqueueAsWritten(2);
    full := q.IsFullAsWritten();
    third := q.EnqueueAsWritten(3);
    fourth := q.EnqueueAsWritten(4);
    out := q.DequeueAsWritten();
  }
}

=== FILE: mem_frame.dfy ===
/**
 * The frame (linear) allocator of memory/allocators/mem_frame.c.
 *
 * A buffer of `size` bytes is handed out by bumping `offset`; nothing is
 * released individually, and a reset releases everything at once.
 * Pointers are byte offsets from the start of the buffer; `size_t`
 * quantities are naturals below 2^64.
 */
module FrameAllocator {
  import opened Wrappers
  import opened BitOps
  import opened Bits

  class Frame {
    /** Total size of the buffer in bytes. */
    const size: nat
    /** Current allocation offset. */
    var offset: nat

    /** The offset never leaves the buffer. */
    ghost predicate Valid()
      reads this
    {
      size < U64 && offset <= size
    }

    /** The state `lum_create_frame_allocator` sets up: offset 0. */
    constructor (size: nat)
      requires size < U64
      ensures Valid() && this.size == size && offset == 0
    {
      this.size := size;
      offset := 0;
    }

    /**
     * `frame_alloc` as written: `aligned_offset + size` is computed in
     * size_t and may wrap round, after which the bound check passes and
     * the offset moves backwards.
     */
    method AllocAsWritten(request: nat, alignment: nat) returns (ptr: Option<nat>)
      requires Valid() && request < U64 && alignment < U64
      modifies this
      ensures Valid()
      ensures var aligned := AlignUp(old(offset), alignment);
              var end := (aligned + request) % U64;
              if end > size then ptr == None && offset == old(offset)
              else ptr == Some(aligned) && offset == end
    {
      var aligned := AlignUp(offset, alignment);
      if (aligned + request) % U64 > size {
        return None;
      }
      offset := (aligned + request) % U64;
      ptr := Some(aligned);
    }

    /**
     * `frame_alloc` with the size_t overflow checked: the request is placed
     * at the least multiple of the alignment at or above the offset, and
     * refused exactly when it does not fit in the buffer.
     */
    method Alloc(request: nat, alignment: nat) returns (ptr: Option<nat>)
      requires Valid() && request < U64 && alignment < U64 && IsPow2(alignment)
      modifies this
      ensures Valid()
      ensures ptr == None <==> LeastAligned(old(offset), alignment) + request > size
      ensures ptr == None ==> offset == old(offset)
      ensures ptr.Some? ==>
                ptr.value == LeastAligned(old(offset), alignment) && offset == ptr.value + request
    {
      var aligned := AlignUp(offset, alignment);
      if offset + alignment - 1 < U64 {
        AlignUpIsLeast(offset, alignment);
      } else {
        AlignUpWraps(offset, alignment);
      }
      if aligned < offset || aligned > size || request > size - aligned {
        return None;
      }
      offset := aligned + request;
      ptr := Some(aligned);
    }

    /** `frame_reset`: the offset goes back to 0, releasing everything. */
    method Reset()
      requires Valid()
      modifies this
      ensures Valid() && offset == 0
    {
      offset := 0;
    }

    /** `frame_free`: individual frees are ignored. */
    method Free(ptr: int)
      ensures unchanged(this)
    {
    }
  }

  /** `frame_realloc`: resizing is not supported and always yields null. */
  function Realloc(ptr: int, newSize: nat): (r: Option<nat>)
    ensures r.None?
  {
    None
  }

  /**
   * Every granted request lies inside the buffer, aligned to its own
   * alignment and after the previous one; a reset in between makes the
   * next request start at 0 again.
   */
  method AllocThenReset(size: nat, n1: nat, a1: nat, n2: nat, a2: nat)
      returns (p1: Option<nat>, p2: Option<nat>, p3: Option<nat>)
    requires size < U64 && n1 < U64 && n2 < U64 && a1 < U64 && a2 < U64
    requires IsPow2(a1) && IsPow2(a2)
    ensures p1.Some? ==> p1.value % a1 == 0 && p1.value + n1 <= size
    ensures p2.Some? ==> p2.value % a2 == 0 && p2.value + n2 <= size
    ensures p1.Some? && p2.Some? ==> p1.value + n1 <= p2.value
    ensures p3 == if n2 <= size then Some(0) else None
  {
    var f := new Frame(size);
    p1 := f.Alloc(n1, a1);
    p2 := f.Alloc(n2, a2);
    f.Reset();
    LeastAlignedZero(a2);
    p3 := f.Alloc(n2, a2);
  }

  /**
   * In a 512-byte frame a 400-byte request is granted and a following
   * 200-byte request is refused.
   */
  method ExhaustionWitness() returns (p1: Option<nat>, p2: Option<nat>)
    ensures p1 == Some(0) && p2 == None
  {
    var f := new Frame(512);
    SmallPowers();
    LeastAlignedZero(16);
    p1 := f.Alloc(400, 16);
    p2 := f.Alloc(200, 16);
  }

  /**
   * In a 1 KiB frame, after 128 and 256 bytes and a reset, 512 bytes are
   * granted from the start of the buffer.
   */
  method ResetWitness() returns (p1: Option<nat>, p2: Option<nat>, p3: Option<nat>)
    ensures p1 == Some(0) && p2 == Some(128) && p3 == Some(0)
  {
    var f := new Frame(1024);
    SmallPowers();
    LeastAlignedZero(16);
    p1 := f.Alloc(128, 16);
    assert LeastAligned(128, 16) == 128 by {
      DivModUnique(LeastAligned(128, 16), 16, 8, 0);
    }
    p2 := f.Alloc(256, 16);
    f.Reset();
    p3 := f.Alloc(512, 16);
  }

  /**
   * Three 128-byte requests at alignments 16, 32 and 64 in a 1 KiB frame
   * land at 0, 128 and 256, each a multiple of its alignment.
   */
  method AlignmentWitness() returns (p16: Option<nat>, p32: Option<nat>, p64: Option<nat>)
    ensures p16 == Some(0) && p32 == Some(128) && p64 == Some(256)
  {
    var f := new Frame(1024);
    SmallPowers();
    LeastAlignedZero(16);
    p16 := f.Alloc(128, 16);
    assert LeastAligned(128, 32) == 128 by {
      DivModUnique(LeastAligned(128, 32), 32, 4, 0);
    }
    p32 := f.Alloc(128, 32);
    assert LeastAligned(256, 64) == 256 by {
      DivModUnique(LeastAligned(256, 64), 64, 4, 0);
    }
    p64 := f.Alloc(128, 64);
  }

  /** `AllocAsWritten` from an offset that is already aligned. */
  method AllocFromAligned(f: Frame, request: nat, alignment: nat) returns (ptr: Option<nat>)
    requires f.Valid() && request < U64 && alignment < U64 && IsPow2(alignment)
    requires f.offset % alignment == 0 && f.offset + alignment - 1 < U64
    modifies f
    ensures f.Valid()
    ensures var end := (old(f.offset) + request) % U64;
            if end > f.size then ptr == None && f.offset == old(f.offset)
            else ptr == Some(old(f.offset)) && f.offset == end
  {
    AlignUpOfAligned(f.offset, alignment);
    ptr := f.AllocAsWritten(request, alignment);
  }

  /**
   * The size_t wrap-around of the source: in a 1 KiB frame, after 128
   * bytes at 0, a request of 2^64 - 64 bytes is granted at 128 and moves
   * the offset back to 64, so the next 64-byte request lands inside the
   * first allocation.
   */
  method OverflowWitness() returns (p1: Option<nat>, p2: Option<nat>, p3: Option<nat>)
    ensures p1 == Some(0) && p2 == Some(128) && p3 == Some(64)
    ensures p3.value < p1.value + 128
  {
    var f := new Frame(1024);
    var a: nat := 16;
    SmallPowers();
    p1 := AllocFromAligned(f, 128, a);
    DivModUnique(128 + (U64 - 64), U64, 1, 64);
    p2 := AllocFromAligned(f, U64 - 64, a);
    p3 := AllocFromAligned(f, 64, a);
  }

  /** The same requests against the overflow-checked allocation. */
  method OverflowRefusedWitness() returns (p1: Option<nat>, p2: Option<nat>, p3: Option<nat>)
    ensures p1 == Some(0) && p2 == None && p3 == Some(128)
  {
    var f := new Frame(1024);
    SmallPowers();
    LeastAlignedZero(16);
    p1 := f.Alloc(128, 16);
    assert LeastAligned(128, 16) == 128 by {
      DivModUnique(LeastAligned(128, 16), 16, 8, 0);
    }
    p2 := f.Alloc(U64 - 64, 16);
    p3 := f.Alloc(64, 16);
  }
}

=== FILE: mem_pool.dfy ===
/**
 * The pool allocator of memory/allocators/mem_pool.c.
 *
 * A buffer of `objectCount` slots of `objectSize` bytes each, a free list
 * of slot pointers used as a stack (`freeList[freeIndex..]` are free), and
 * a bitmap with one bit per slot (bit s % 8 of byte s / 8) that guards
 * against double frees.  Pointers are byte offsets from the start of the
 * pool buffer.
 *
 * `Alloc` marks the bit of the slot it hands out; `AllocAsWritten` marks
 * the bit at position `freeIndex`, as the source does, and the witness at
 * the end shows a valid free being refused because of it.
 */
module PoolAllocator {
  import opened Wrappers
  import opened BitOps
  import opened Bits

  /** POOL_ALIGN */
  const PoolAlign: nat := 16

  /** Bytes of bitmap for `count` objects: `(count + 7) / 8`, but at least one. */
  function BitmapSize(count: nat): (r: nat)
    ensures r >= 1 && count <= 8 * r
    ensures count > 0 ==> 8 * (r - 1) < count
  {
    if (count + 7) / 8 == 0 then 1 else (count + 7) / 8
  }

  /** Bit s % 8 of byte s / 8 of the bitmap: slot s is marked used. */
  ghost predicate Marked(bitmap: seq<nat>, s: nat)
  {
    s / 8 < |bitmap| && TestBit(bitmap[s / 8], s % 8)
  }

  /** `byte |= (1 << k)` sets bit k of a byte and keeps the others. */
  lemma SetBit(b: nat, k: nat)
    requires b < 256 && k < 8
    ensures Or(b, Pow2(k)) < 256
    ensures forall i :: TestBit(Or(b, Pow2(k)), i) <==> TestBit(b, i) || i == k
  {
    Pow2Widths();
    Pow2Monotone(k + 1, 8);
    OrBound(b, Pow2(k), 8);
    forall i
      ensures TestBit(Or(b, Pow2(k)), i) <==> TestBit(b, i) || i == k
    {
      TestBitOr(b, Pow2(k), i);
      TestBitPow2(k, i);
    }
  }

  /** `byte &= ~(1 << k)` clears bit k of a byte and keeps the others. */
  lemma ClearBit(b: nat, k: nat)
    requires b < 256 && k < 8
    ensures Pow2(k) < Pow2(8) && And(b, Not(Pow2(k), 8)) < 256
    ensures forall i :: i < 8 ==> (TestBit(And(b, Not(Pow2(k), 8)), i) <==> TestBit(b, i) && i != k)
    ensures forall i :: i >= 8 ==> !TestBit(And(b, Not(Pow2(k), 8)), i)
  {
    Pow2Widths();
    Pow2Monotone(k + 1, 8);
    AndBound(b, Not(Pow2(k), 8), 8);
    forall i
      ensures TestBit(And(b, Not(Pow2(k), 8)), i) <==> TestBit(b, i) && i < 8 && i != k
    {
      TestBitAnd(b, Not(Pow2(k), 8), i);
      if i < 8 {
        TestBitNot(Pow2(k), 8, i);
        TestBitPow2(k, i);
      } else {
        HighBitClear(b, 8, i);
      }
    }
  }

  /** A value below 2^w has no bit set at or above w. */
  lemma {:induction false} HighBitClear(x: nat, w: nat, i: nat)
    requires x < Pow2(w) && w <= i
    ensures !TestBit(x, i)
  {
    if w == 0 {
      TestBitZero(i);
    } else {
      TestBitHalf(x, i);
      HighBitClear(x / 2, w - 1, i - 1);
    }
  }

  /** `byte & (1 << k)` is zero exactly when bit k is clear. */
  lemma TestMask(b: nat, k: nat)
    requires b < 256
    ensures And(b, Pow2(k)) == 0 <==> !TestBit(b, k)
  {
    Pow2Widths();
    TestBitAnd(b, Pow2(k), k);
    TestBitPow2(k, k);
    if And(b, Pow2(k)) == 0 {
      TestBitZero(k);
    } else if !TestBit(b, k) {
      AndBound(b, Pow2(k), 8);
      forall i | 0 <= i < 8
        ensures TestBit(And(b, Pow2(k)), i) <==> TestBit(0, i)
      {
        TestBitAnd(b, Pow2(k), i);
        TestBitPow2(k, i);
        TestBitZero(i);
      }
      BitsDetermine(And(b, Pow2(k)), 0, 8);
    }
  }

  /** Slot s starts at byte s * size, and the start gives the slot back. */
  lemma SlotStart(s: nat, size: nat)
    requires size >= 1
    ensures (s * size) / size == s && (s * size) % size == 0
  {
    DivModUnique(s * size, size, s, 0);
  }

  /** A slot start is as aligned as the (aligned) slot size. */
  lemma SlotAligned(s: nat, size: nat)
    requires size % PoolAlign == 0
    ensures (s * size) % PoolAlign == 0
  {
    var q := size / PoolAlign;
    assert s * size == (s * q) * PoolAlign;
    DivModUnique(s * size, PoolAlign, s * q, 0);
  }

  /** Every byte of the bitmap is below 256. */
  ghost predicate Bytes(bitmap: seq<nat>)
  {
    forall j :: 0 <= j < |bitmap| ==> bitmap[j] < 256
  }

  /** `used_slots[s / 8] |= (1 << (s % 8))` */
  function Mark(bitmap: seq<nat>, s: nat): (r: seq<nat>)
    requires s / 8 < |bitmap|
    ensures |r| == |bitmap|
  {
    bitmap[s / 8 := Or(bitmap[s / 8], Pow2(s % 8))]
  }

  /** `used_slots[s / 8] &= ~(1 << (s % 8))` on a byte */
  function Unmark(bitmap: seq<nat>, s: nat): (r: seq<nat>)
    requires s / 8 < |bitmap|
    ensures |r| == |bitmap|
  {
    Pow2Widths();
    Pow2Monotone(s % 8 + 1, 8);
    bitmap[s / 8 := And(bitmap[s / 8], Not(Pow2(s % 8), 8))]
  }

  /** Marking slot s sets its bit and no other. */
  lemma MarkFacts(bitmap: seq<nat>, s: nat)
    requires Bytes(bitmap) && s / 8 < |bitmap|
    ensures Bytes(Mark(bitmap, s))
    ensures forall t :: Marked(Mark(bitmap, s), t) <==> Marked(bitmap, t) || t == s
  {
    SetBit(bitmap[s / 8], s % 8);
  }

  /** Unmarking slot s clears its bit and no other. */
  lemma UnmarkFacts(bitmap: seq<nat>, s: nat)
    requires Bytes(bitmap) && s / 8 < |bitmap|
    ensures Bytes(Unmark(bitmap, s))
    ensures forall t :: Marked(Unmark(bitmap, s), t) <==> Marked(bitmap, t) && t != s
  {
    ClearBit(bitmap[s / 8], s % 8);
  }

  /** The bit of each of the first `count` slots is set exactly when the slot is live. */
  ghost predicate BitsMatch(bitmap: seq<nat>, count: nat, live: set<nat>)
  {
    forall s :: 0 <= s < count ==> (Marked(bitmap, s) <==> s in live)
  }

  /**
   * The free-list entries from `from` on point at distinct slots, below the
   * slot count and not live; `slots[j]` is the slot entry j points at.
   */
  ghost predicate FreeStack(slots: seq<nat>, list: seq<nat>, from: nat, size: nat, live: set<nat>)
    requires |slots| == |list|
  {
    (forall j :: from <= j < |list| ==> slots[j] < |list| && slots[j] !in live && list[j] == slots[j] * size) &&
    (forall j, k :: from <= j < k < |list| ==> slots[j] != slots[k])
  }

  /** Handing out the top free entry keeps the free stack above it. */
  lemma PopFree(slots: seq<nat>, list: seq<nat>, from: nat, size: nat, live: set<nat>)
    requires |slots| == |list| && from < |list| && FreeStack(slots, list, from, size, live)
    ensures slots[from] < |list| && slots[from] !in live && list[from] == slots[from] * size
    ensures FreeStack(slots, list, from + 1, size, live + {slots[from]})
  {
  }

  /** Pushing a live slot's pointer below the free entries extends the free stack. */
  lemma PushFree(slots: seq<nat>, list: seq<nat>, from: nat, size: nat, live: set<nat>, s: nat)
    requires |slots| == |list| && 0 < from <= |list| && FreeStack(slots, list, from, size, live)
    requires s in live && s < |list|
    ensures FreeStack(slots[from - 1 := s], list[from - 1 := s * size], from - 1, size, live - {s})
  {
  }

  class Pool {
    var objectSize: nat
    var objectCount: nat
    /** One bit per slot, set while the slot is handed out. */
    var usedSlots: array<nat>
    /** Slot pointers; the entries from `freeIndex` on are the free slots. */
    var freeList: array<nat>
    var freeIndex: nat
    /** The slot each free-list entry points at. */
    ghost var Slots: seq<nat>
    /** The slots currently handed out. */
    ghost var Live: set<nat>

    /** Array shapes, byte values and the aligned, non-zero slot size. */
    ghost predicate WellFormed()
      reads this, usedSlots
    {
      objectSize >= 1 && objectSize % PoolAlign == 0 && freeList != usedSlots &&
      usedSlots.Length == BitmapSize(objectCount) &&
      freeList.Length == objectCount && freeIndex <= objectCount &&
      Bytes(usedSlots[..]) &&
      |Slots| == objectCount
    }

    /**
     * The free entries are distinct slot pointers of slots not handed out,
     * `freeIndex` slots are handed out, and a slot's bitmap bit is set
     * exactly when it is handed out.
     */
    ghost predicate Valid()
      reads this, usedSlots, freeList
    {
      WellFormed() &&
      |Live| == freeIndex &&
      (forall s :: s in Live ==> s < objectCount) &&
      FreeStack(Slots, freeList[..], freeIndex, objectSize, Live) &&
      BitsMatch(usedSlots[..], objectCount, Live)
    }

    /**
     * The initialisation in lum_create_pool_allocator: object size rounded
     * up to 16, a zeroed bitmap, `freeList[i] = buffer + i * objectSize`
     * and `freeIndex = 0`.
     */
    constructor (objectSize: nat, objectCount: nat)
      requires 1 <= objectSize && objectSize + PoolAlign - 1 < U64
      ensures Valid() && fresh(usedSlots) && fresh(freeList) && Live == {} && freeIndex == 0
      ensures this.objectSize == AlignUp(objectSize, PoolAlign) && this.objectCount == objectCount
      ensures objectSize <= this.objectSize < objectSize + PoolAlign
      ensures objectSize % PoolAlign == 0 ==> this.objectSize == objectSize
      ensures forall i :: 0 <= i < objectCount ==> freeList[i] == i * this.objectSize
    {
      var size := PoolObjectSize(objectSize);
      var list := SlotPointers(objectCount, size);
      var bitmap := new nat[BitmapSize(objectCount)](_ => 0);
      ZeroBitmap(bitmap[..], objectCount);
      InitialStack(list[..], size);
      this.objectSize := size;
      this.objectCount := objectCount;
      usedSlots := bitmap;
      freeList := list;
      freeIndex := 0;
      Slots := seq(objectCount, j => j);
      Live := {};
    }

    /**
     * lum_pool_allocator_alloc with the bit of the returned slot marked:
     * null only when every slot is handed out; otherwise the top of the
     * free stack, a slot that was not handed out, aligned to 16.
     */
    method Alloc() returns (p: Option<nat>)
      requires Valid()
      modifies this, usedSlots
      ensures Valid()
      ensures objectSize == old(objectSize) && objectCount == old(objectCount)
      ensures usedSlots == old(usedSlots) && freeList == old(freeList)
      ensures p.None? <==> |old(Live)| == objectCount
      ensures p.None? ==> Live == old(Live) && freeIndex == old(freeIndex)
      ensures p.Some? ==>
                p.value == old(freeList[freeIndex]) && freeIndex == old(freeIndex) + 1 &&
                p.value % PoolAlign == 0 &&
                var s := p.value / objectSize;
                s < objectCount && p.value == s * objectSize &&
                s !in old(Live) && Live == old(Live) + {s}
    {
      if freeIndex >= objectCount {
        return None;
      }
      var obj := freeList[freeIndex];
      PopFree(Slots, freeList[..], freeIndex, objectSize, Live);
      SlotStart(Slots[freeIndex], objectSize);
      SlotAligned(Slots[freeIndex], objectSize);
      var index := obj / objectSize;
      MarkFacts(usedSlots[..], index);
      ghost var marked := Mark(usedSlots[..], index);
      usedSlots[index / 8] := Or(usedSlots[index / 8], Pow2(index % 8));
      assert usedSlots[..] == marked;
      freeIndex := freeIndex + 1;
      Live := Live + {index};
      p := Some(obj);
    }

    /**
     * lum_pool_allocator_alloc as written: the bit at position `freeIndex`
     * is marked, whichever slot is handed out.
     */
    method AllocAsWritten() returns (p: Option<nat>)
      requires WellFormed()
      modifies this, usedSlots
      ensures WellFormed()
      ensures objectSize == old(objectSize) && objectCount == old(objectCount)
      ensures usedSlots == old(usedSlots) && freeList == old(freeList) && Slots == old(Slots)
      ensures p.None? <==> old(freeIndex) >= objectCount
      ensures p.None? ==> unchanged(this) && unchanged(usedSlots)
      ensures p.Some? ==>
                p.value == old(freeList[freeIndex]) && freeIndex == old(freeIndex) + 1 &&
                Live == old(Live) + {p.value / objectSize} &&
                forall t :: Marked(usedSlots[..], t) <==> Marked(old(usedSlots[..]), t) || t == old(freeIndex)
    {
      if freeIndex >= objectCount {
        return None;
      }
      var obj := freeList[freeIndex];
      var index := freeIndex;
      MarkFacts(usedSlots[..], index);
      ghost var marked := Mark(usedSlots[..], index);
      usedSlots[index / 8] := Or(usedSlots[index / 8], Pow2(index % 8));
      assert usedSlots[..] == marked;
      freeIndex := freeIndex + 1;
      Live := Live + {obj / objectSize};
      p := Some(obj);
    }

    /**
     * lum_pool_allocator_free: nothing happens when no slot is handed out
     * or the slot's bit is already clear (the double-free guard);
     * otherwise the bit is cleared and the pointer pushed back on the free
     * stack, so the next allocation returns it.  On a valid pool, the
     * pointer is accepted exactly when its slot is handed out.
     */
    method Free(ptr: nat)
      requires WellFormed()
      requires ptr % objectSize == 0 && ptr / objectSize < objectCount
      modifies this, usedSlots, freeList
      ensures WellFormed()
      ensures objectSize == old(objectSize) && objectCount == old(objectCount)
      ensures usedSlots == old(usedSlots) && freeList == old(freeList)
      ensures var s := ptr / objectSize;
              var accepted := old(freeIndex) > 0 && Marked(old(usedSlots[..]), s);
              (accepted ==>
                 freeIndex == old(freeIndex) - 1 && freeList[..] == old(freeList[..])[freeIndex := ptr] &&
                 Live == old(Live) - {s} &&
                 forall t :: Marked(usedSlots[..], t) <==> Marked(old(usedSlots[..]), t) && t != s) &&
              (!accepted ==> unchanged(this) && unchanged(usedSlots) && unchanged(freeList))
      ensures old(Valid()) ==> Valid()
      ensures old(Valid()) ==>
                (old(freeIndex) > 0 && Marked(old(usedSlots[..]), ptr / objectSize) <==> ptr / objectSize in old(Live))
    {
      if freeIndex == 0 {
        return;
      }
      var index := ptr / objectSize;
      TestMask(usedSlots[index / 8], index % 8);
      if And(usedSlots[index / 8], Pow2(index % 8)) == 0 {
        return;
      }
      Release(ptr, index);
    }

    /**
     * The accepting branch of lum_pool_allocator_free: clear the slot's bit
     * and push its pointer back on the free stack.
     */
    method Release(ptr: nat, index: nat)
      requires WellFormed() && freeIndex > 0
      requires ptr % objectSize == 0 && index == ptr / objectSize && index < objectCount
      requires Marked(usedSlots[..], index)
      modifies this, usedSlots, freeList
      ensures WellFormed()
      ensures objectSize == old(objectSize) && objectCount == old(objectCount)
      ensures usedSlots == old(usedSlots) && freeList == old(freeList)
      ensures freeIndex == old(freeIndex) - 1 && freeList[..] == old(freeList[..])[freeIndex := ptr]
      ensures Live == old(Live) - {index}
      ensures forall t :: Marked(usedSlots[..], t) <==> Marked(old(usedSlots[..]), t) && t != index
      ensures old(Valid()) ==> Valid()
    {
      ghost var wasValid := Valid();
      ghost var bitmap := usedSlots[..];
      UnmarkFacts(bitmap, index);
      SlotOf(ptr, objectSize);
      if wasValid {
        PushFree(Slots, freeList[..], freeIndex, objectSize, Live, index);
        UnmarkMatches(bitmap, objectCount, Live, index);
      }
      ClearSlotBit(index);
      PushSlot(ptr, index);
    }

    /** `used_slots[index / 8] &= ~(1 << (index % 8))` */
    method ClearSlotBit(index: nat)
      requires WellFormed() && index < objectCount
      modifies usedSlots
      ensures WellFormed() && usedSlots[..] == Unmark(old(usedSlots[..]), index)
    {
      UnmarkFacts(usedSlots[..], index);
      ghost var unmarked := Unmark(usedSlots[..], index);
      usedSlots[index / 8] := And(usedSlots[index / 8], Not(Pow2(index % 8), 8));
      assert usedSlots[..] == unmarked;
    }

    /** `free_list[--free_index] = ptr`, with the ghost slot and live-set bookkeeping. */
    method PushSlot(ptr: nat, index: nat)
      requires WellFormed() && freeIndex > 0
      modifies this, freeList
      ensures WellFormed()
      ensures objectSize == old(objectSize) && objectCount == old(objectCount)
      ensures usedSlots == old(usedSlots) && freeList == old(freeList)
      ensures freeIndex == old(freeIndex) - 1 && freeList[..] == old(freeList[..])[freeIndex := ptr]
      ensures Live == old(Live) - {index} && Slots == old(Slots)[freeIndex := index]
    {
      freeIndex := freeIndex - 1;
      freeList[freeIndex] := ptr;
      Live := Live - {index};
      Slots := Slots[freeIndex := index];
    }
  }

  /** Clearing the bit of a live slot keeps the bitmap matching the live set without it. */
  lemma UnmarkMatches(bitmap: seq<nat>, count: nat, live: set<nat>, s: nat)
    requires Bytes(bitmap) && s / 8 < |bitmap| && BitsMatch(bitmap, count, live)
    ensures BitsMatch(Unmark(bitmap, s), count, live - {s})
  {
    UnmarkFacts(bitmap, s);
  }

  /** The free list of a new pool: `free_list[i] = buffer + i * object_size` for every slot. */
  method SlotPointers(count: nat, size: nat) returns (list: array<nat>)
    ensures fresh(list) && list.Length == count
    ensures forall j :: 0 <= j < count ==> list[j] == j * size
  {
    list := new nat[count];
    var i := 0;
    while i < count
      invariant i <= count
      invariant forall j :: 0 <= j < i ==> list[j] == j * size
    {
      MulMonotone(i, 0, size);
      list[i] := i * size;
      i := i + 1;
    }
  }

  /** The rounded object size: a non-zero multiple of 16 no smaller than the request. */
  function PoolObjectSize(objectSize: nat): (r: nat)
    requires 1 <= objectSize && objectSize + PoolAlign - 1 < U64
    ensures r == AlignUp(objectSize, PoolAlign)
    ensures objectSize <= r < objectSize + PoolAlign && r % PoolAlign == 0
    ensures objectSize % PoolAlign == 0 ==> r == objectSize
  {
    Pow2Widths();
    Pow2IsPow2(4);
    var r := AlignUp(objectSize, PoolAlign);
    SameMultiple(r, objectSize);
    r
  }

  /** Two multiples of 16 less than 16 apart are equal. */
  lemma SameMultiple(a: nat, b: nat)
    requires a % PoolAlign == 0 && b <= a < b + PoolAlign
    ensures b % PoolAlign == 0 ==> a == b
  {
    if b % PoolAlign == 0 {
      DivModUnique(a, PoolAlign, a / PoolAlign, 0);
      DivModUnique(b, PoolAlign, b / PoolAlign, 0);
    }
  }

  /** A zeroed bitmap marks no slot. */
  lemma ZeroBitmap(bitmap: seq<nat>, count: nat)
    requires forall j :: 0 <= j < |bitmap| ==> bitmap[j] == 0
    ensures Bytes(bitmap) && BitsMatch(bitmap, count, {})
  {
    forall s | 0 <= s < count
      ensures !Marked(bitmap, s)
    {
      TestBitZero(s % 8);
    }
  }

  /** The free list as creation fills it: every slot free, in order. */
  lemma InitialStack(list: seq<nat>, size: nat)
    requires forall j :: 0 <= j < |list| ==> list[j] == j * size
    ensures FreeStack(seq(|list|, j => j), list, 0, size, {})
  {
  }

  /** A slot-aligned pointer is its slot number times the slot size. */
  lemma SlotOf(ptr: nat, size: nat)
    requires size >= 1 && ptr % size == 0
    ensures ptr == (ptr / size) * size
  {
  }

  /**
   * lum_create_pool_allocator: null when the default allocator refuses one
   * of its requests (`granted` stands for its answers), otherwise a pool
   * with every slot free.
   */
  method Create(objectSize: nat, objectCount: nat, granted: bool) returns (pool: Pool?)
    requires 1 <= objectSize && objectSize + PoolAlign - 1 < U64
    ensures pool == null <==> !granted
    ensures pool != null ==>
              fresh(pool) && pool.Valid() && pool.Live == {} && pool.freeIndex == 0 &&
              pool.objectSize == AlignUp(objectSize, PoolAlign) && pool.objectCount == objectCount
    ensures pool != null ==> forall i :: 0 <= i < objectCount ==> pool.freeList[i] == i * pool.objectSize
  {
    if !granted {
      return null;
    }
    pool := new Pool(objectSize, objectCount);
  }

  /** The only multiple of 16 in [12, 28) is 16. */
  lemma OnlyMultipleNear(size: nat, request: nat)
    requires request == 12 && request <= size < request + PoolAlign && size % PoolAlign == 0
    ensures size == 16
  {
    DivModUnique(size, PoolAlign, size / PoolAlign, 0);
  }

  /**
   * Freed slots come back last in, first out: a pool of three 12-byte
   * objects (16 bytes after rounding) hands out 0 and 16, and after 0 is
   * freed the next allocation returns 0 again.
   */
  method ReuseWitness() returns (a: Option<nat>, b: Option<nat>, c: Option<nat>)
    ensures a == Some(0) && b == Some(16) && c == Some(0)
  {
    var pool := new Pool(12, 3);
    OnlyMultipleNear(pool.objectSize, 12);
    a := pool.Alloc();
    b := pool.Alloc();
    pool.Free(a.value);
    c := pool.Alloc();
  }

  /**
   * Allocating every slot of a new pool succeeds each time and yields
   * pairwise distinct pointers, each aligned to 16.
   */
  method AllocateAll(objectSize: nat, objectCount: nat) returns (ptrs: seq<nat>)
    requires 1 <= objectSize && objectSize + PoolAlign - 1 < U64
    ensures |ptrs| == objectCount
    ensures forall i :: 0 <= i < |ptrs| ==> ptrs[i] % PoolAlign == 0
    ensures forall i, j :: 0 <= i < j < |ptrs| ==> ptrs[i] != ptrs[j]
  {
    var pool := new Pool(objectSize, objectCount);
    ptrs := [];
    while |ptrs| < objectCount
      invariant fresh(pool) && fresh(pool.usedSlots) && pool.Valid()
      invariant pool.objectCount == objectCount && |ptrs| == |pool.Live| <= objectCount
      invariant forall i :: 0 <= i < |ptrs| ==> ptrs[i] % PoolAlign == 0 && ptrs[i] / pool.objectSize in pool.Live
      invariant forall i, j :: 0 <= i < j < |ptrs| ==> ptrs[i] != ptrs[j]
      decreases objectCount - |ptrs|
    {
      var p := pool.Alloc();
      ptrs := ptrs + [p.value];
    }
  }

  /** The pointer 0 is the start of slot 0. */
  lemma FirstSlot(size: nat)
    requires size >= 1
    ensures 0 % size == 0 && 0 / size == 0
  {
  }

  /** A three-slot pool of 16-byte objects after 0 and 16 are handed out. */
  method AllocatedTwo() returns (pool: Pool)
    ensures fresh(pool) && fresh(pool.usedSlots) && fresh(pool.freeList)
    ensures pool.Valid() && pool.objectSize == 16 && pool.objectCount == 3
    ensures pool.freeIndex == 2 && pool.Live == {0, 1} && pool.freeList[2] == 32
  {
    pool := new Pool(16, 3);
    SlotStart(0, 16);
    SlotStart(1, 16);
    var a := pool.Alloc();
    var b := pool.Alloc();
  }

  /** The same pool after 0 is freed twice. */
  method FreedTwice() returns (pool: Pool)
    ensures fresh(pool) && fresh(pool.usedSlots) && fresh(pool.freeList)
    ensures pool.Valid() && pool.objectSize == 16 && pool.objectCount == 3
    ensures pool.freeIndex == 1 && pool.freeList[1] == 0 && pool.freeList[2] == 32
  {
    pool := AllocatedTwo();
    FirstSlot(16);
    pool.Free(0);
    pool.Free(0);
  }

  /**
   * A second free of the same pointer is refused by the bitmap: after 0
   * and 16 are handed out and 0 is freed twice, a three-slot pool hands
   * out 0 once, then 32, then nothing.
   */
  method DoubleFreeWitness() returns (d: Option<nat>, e: Option<nat>, f: Option<nat>)
    ensures d == Some(0) && e == Some(32) && f == None
  {
    var pool := FreedTwice();
    d := pool.Alloc();
    e := pool.Alloc();
    f := pool.Alloc();
  }

  /**
   * A two-slot pool of 16-byte objects after both slots are handed out as
   * written and 0 is freed: 0 is back on the free stack and its bit clear.
   */
  method FreedOutOfOrder() returns (pool: Pool)
    ensures fresh(pool) && fresh(pool.usedSlots) && fresh(pool.freeList)
    ensures pool.WellFormed() && pool.objectSize == 16 && pool.objectCount == 2
    ensures pool.freeIndex == 1 && pool.freeList[1] == 0 && !Marked(pool.usedSlots[..], 0)
  {
    pool := new Pool(16, 2);
    var a := pool.AllocAsWritten();
    var b := pool.AllocAsWritten();
    FirstSlot(16);
    pool.Free(0);
  }

  /**
   * As written, after a free out of allocation order the bitmap no longer
   * matches the live slots: slot 0 is handed out again, its free is then
   * refused as a double free, and the two-slot pool reports exhaustion
   * although slot 0 was given back.
   */
  method LostFreeWitness() returns (c: Option<nat>, refused: bool, d: Option<nat>)
    ensures c == Some(0) && refused && d == None
  {
    var pool := FreedOutOfOrder();
    c := pool.AllocAsWritten();
    var before := pool.freeIndex;
    FirstSlot(16);
    pool.Free(0);
    refused := pool.freeIndex == before;
    d := pool.AllocAsWritten();
  }
}

=== FILE: mem_stack.dfy ===
/**
 * The stack allocator of memory/allocators/mem_stack.c.
 *
 * A buffer of `size` bytes is handed out by bumping `offset`; the offset
 * before the latest allocation is kept in `prevOffset`, so that one pop
 * can undo it, and a reset clears both.  Pointers are byte offsets from
 * the start of the buffer; `size_t` quantities are naturals below 2^64.
 */
module StackAllocator {
  import opened Wrappers
  import opened BitOps
  import opened Bits

  class Stack {
    /** Total size of the buffer in bytes. */
    const size: nat
    /** Current allocation offset. */
    var offset: nat
    /** Offset before the latest allocation (one-level checkpoint). */
    var prevOffset: nat

    /** What every operation of the source keeps: both offsets inside the buffer. */
    ghost predicate WellFormed()
      reads this
    {
      size < U64 && offset <= size && prevOffset <= size
    }

    /**
     * With overflow-checked allocation the checkpoint also never lies above
     * the current offset.
     */
    ghost predicate Valid()
      reads this
    {
      WellFormed() && prevOffset <= offset
    }

    /** The state `lum_create_stack_allocator` sets up: both offsets 0. */
    constructor (size: nat)
      requires size < U64
      ensures Valid() && this.size == size && offset == 0 && prevOffset == 0
    {
      this.size := size;
      offset := 0;
      prevOffset := 0;
    }

    /**
     * `lum_stack_alloc` as written: `aligned_offset + size` is computed in
     * size_t and may wrap round, after which the bound check passes and
     * the offset moves backwards.
     */
    method AllocAsWritten(request: nat, alignment: nat) returns (ptr: Option<nat>)
      requires WellFormed() && request < U64 && alignment < U64
      modifies this
      ensures WellFormed()
      ensures var aligned := AlignUp(old(offset), alignment);
              var newOffset := (aligned + request) % U64;
              if newOffset > size then
                ptr == None && offset == old(offset) && prevOffset == old(prevOffset)
              else
                ptr == Some(aligned) && offset == newOffset && prevOffset == old(offset)
    {
      var aligned := AlignUp(offset, alignment);
      var newOffset := (aligned + request) % U64;
      if newOffset > size {
        return None;
      }
      prevOffset := offset;
      offset := newOffset;
      ptr := Some(aligned);
    }

    /**
     * `lum_stack_alloc` with the size_t overflow checked: the request is
     * placed at the least multiple of the alignment at or above the
     * offset, and refused exactly when it does not fit in the buffer.
     */
    method Alloc(request: nat, alignment: nat) returns (ptr: Option<nat>)
      requires Valid() && request < U64 && alignment < U64 && IsPow2(alignment)
      modifies this
      ensures Valid()
      ensures ptr == None <==> LeastAligned(old(offset), alignment) + request > size
      ensures ptr == None ==> offset == old(offset) && prevOffset == old(prevOffset)
      ensures ptr.Some? ==>
                ptr.value == LeastAligned(old(offset), alignment) &&
                offset == ptr.value + request && prevOffset == old(offset)
    {
      var aligned := AlignUp(offset, alignment);
      if offset + alignment - 1 < U64 {
        AlignUpIsLeast(offset, alignment);
      } else {
        AlignUpWraps(offset, alignment);
      }
      if aligned < offset || aligned > size || request > size - aligned {
        return None;
      }
      prevOffset := offset;
      offset := aligned + request;
      ptr := Some(aligned);
    }

    /**
     * `lum_stack_pop`: a pointer inside the buffer rolls the offset back
     * to the checkpoint; any other pointer is ignored.
     */
    method Pop(ptr: int)
      requires WellFormed()
      modifies this
      ensures WellFormed() && prevOffset == old(prevOffset)
      ensures old(Valid()) ==> Valid()
      ensures offset == if 0 <= ptr < size then old(prevOffset) else old(offset)
    {
      if 0 <= ptr < size {
        offset := prevOffset;
      }
    }

    /** `lum_stack_reset`: both offsets back to 0, releasing everything. */
    method Reset()
      requires WellFormed()
      modifies this
      ensures Valid() && offset == 0 && prevOffset == 0
    {
      offset := 0;
      prevOffset := 0;
    }
  }

  /**
   * `lum_create_stack_allocator`: `granted` says whether all three
   * allocations (allocator record, stack record, buffer) succeeded; if any
   * fails the result is null.
   */
  method Create(size: nat, granted: bool) returns (s: Stack?)
    requires size < U64
    ensures !granted <==> s == null
    ensures s != null ==> fresh(s) && s.Valid() && s.size == size && s.offset == 0 && s.prevOffset == 0
  {
    if !granted {
      return null;
    }
    s := new Stack(size);
  }

  /**
   * Popping the latest allocation and repeating the request gives the same
   * pointer back (a refused request leaves nothing to pop, and is refused
   * again).
   */
  method PopThenRealloc(size: nat, n1: nat, a1: nat, n2: nat, a2: nat)
      returns (p2: Option<nat>, p3: Option<nat>)
    requires size < U64 && n1 < U64 && n2 < U64 && a1 < U64 && a2 < U64
    requires IsPow2(a1) && IsPow2(a2)
    ensures p3 == p2
  {
    var s := new Stack(size);
    var p1 := s.Alloc(n1, a1);
    p2 := s.Alloc(n2, a2);
    if p2.Some? {
      s.Pop(p2.value);
      LeastAlignedFixed(p2.value, a2);
    }
    p3 := s.Alloc(n2, a2);
  }

  /**
   * After a reset the first allocation starts at the beginning of the
   * buffer again, whatever was allocated before.
   */
  method ResetRestarts(size: nat, n1: nat, a1: nat, n2: nat, a2: nat)
      returns (p2: Option<nat>)
    requires size < U64 && n1 < U64 && n2 < U64 && a1 < U64 && a2 < U64
    requires IsPow2(a1) && IsPow2(a2)
    ensures p2 == if n2 <= size then Some(0) else None
  {
    var s := new Stack(size);
    var p1 := s.Alloc(n1, a1);
    s.Reset();
    LeastAlignedZero(a2);
    p2 := s.Alloc(n2, a2);
  }

  /**
   * Two successive allocations are aligned to their own alignments and do
   * not overlap: the second starts at or after the end of the first and
   * ends inside the buffer.
   */
  method TwoAllocs(size: nat, n1: nat, a1: nat, n2: nat, a2: nat)
      returns (p1: Option<nat>, p2: Option<nat>)
    requires size < U64 && n1 < U64 && n2 < U64 && a1 < U64 && a2 < U64
    requires IsPow2(a1) && IsPow2(a2)
    ensures p1.Some? ==> p1.value % a1 == 0 && p1.value + n1 <= size
    ensures p2.Some? ==> p2.value % a2 == 0 && p2.value + n2 <= size
    ensures p1.Some? && p2.Some? ==> p1.value + n1 <= p2.value
  {
    var s := new Stack(size);
    p1 := s.Alloc(n1, a1);
    p2 := s.Alloc(n2, a2);
  }

  /** `AllocAsWritten` from an offset that is already aligned. */
  method AllocFromAligned(s: Stack, request: nat, alignment: nat) returns (ptr: Option<nat>)
    requires s.WellFormed() && request < U64 && alignment < U64 && IsPow2(alignment)
    requires s.offset % alignment == 0 && s.offset + alignment - 1 < U64
    modifies s
    ensures s.WellFormed()
    ensures var newOffset := (old(s.offset) + request) % U64;
            if newOffset > s.size then
              ptr == None && s.offset == old(s.offset) && s.prevOffset == old(s.prevOffset)
            else
              ptr == Some(old(s.offset)) && s.offset == newOffset && s.prevOffset == old(s.offset)
  {
    AlignUpOfAligned(s.offset, alignment);
    ptr := s.AllocAsWritten(request, alignment);
  }

  /**
   * The size_t wrap-around of the source: in a 1 KiB stack, after 128
   * bytes at 0, a request of 2^64 - 64 bytes is granted at 128 and moves
   * the offset back to 64, so the next 64-byte request lands inside the
   * first, still live, allocation.
   */
  method OverflowWitness() returns (p1: Option<nat>, p2: Option<nat>, p3: Option<nat>)
    ensures p1 == Some(0) && p2 == Some(128) && p3 == Some(64)
    ensures p3.value < p1.value + 128
  {
    var s := new Stack(1024);
    var a: nat := 16;
    SmallPowers();
    p1 := AllocFromAligned(s, 128, a);
    DivModUnique(128 + (U64 - 64), U64, 1, 64);
    p2 := AllocFromAligned(s, U64 - 64, a);
    p3 := AllocFromAligned(s, 64, a);
  }

  /**
   * The same requests against the overflow-checked allocation: the huge
   * request is refused and the next one follows the first allocation.
   */
  method OverflowRefusedWitness() returns (p1: Option<nat>, p2: Option<nat>, p3: Option<nat>)
    ensures p1 == Some(0) && p2 == None && p3 == Some(128)
  {
    var s := new Stack(1024);
    SmallPowers();
    LeastAlignedZero(16);
    p1 := s.Alloc(128, 16);
    assert LeastAligned(128, 16) == 128 by {
      DivModUnique(LeastAligned(128, 16), 16, 8, 0);
    }
    p2 := s.Alloc(U64 - 64, 16);
    p3 := s.Alloc(64, 16);
  }
}

=== FILE: wrappers.dfy ===
/** Optional values: a C pointer that may be NULL, a lookup that may miss. */
module Wrappers {
  datatype Option<T> = None | Some(value: T)
}
